=== FILE: README.md ===
# wingman — a Dafny model of the session pipeline and its agent manager

wingman runs a crew of language-model agents over a transcribed conflict between two
partners and turns the crew's loosely shaped output into a fixed, six-slot session result.
This project models the three Python files that make up that core.

**`wingman/ai_wingman/session_manager.py`**
- `process_conversation` builds the task context and reruns the crew. It then assembles the session result.
- `_extract_task_result` is the *locator*. It finds one task's raw output in a crew result that may be:
  - a dict with `task_results`;
  - a dict with `tasks`;
  - a dict keyed by task id;
  - a list of records;
  - a text blob with `=== LABEL ===` sections.
- `_extract_and_parse_task_result` is the *recovery engine*. It turns that output into an instance of one of four pydantic models, in three tiers:
  - a JSON object;
  - per-field regular expressions with post-processing;
  - default synthesis.

**`wingman/core/agent_manager.py`**
- The `AgentManager` class holds the configurations, the LLM settings and the agent, task and crew registries, plus the task context.
- It builds those registries from the configuration, formats task templates with the context, and rebuilds tasks and crews when the context changes.

**`wingman/core/config_loader.py`**
- It expands `${NAME}` references from the environment through a configuration tree.
- It loads every `.yml`/`.yaml` document of a directory under its file stem.

## How the model is built

Python values are the datatype `Values.Value`:
- `None`, booleans, numbers kept as their literal text, strings, lists, and dicts;
- a dict is an insertion-ordered list of key/value pairs, so `Values.Insert` keeps Python's "overwrite in place, otherwise append" order.

Exceptions that escape a Python function are `Base.Outcome.Raise` with:
- `TypeError`;
- `AttributeError`;
- `ValueError(message)`.

Dafny's `:-` propagates them the way Python's call stack does.

Regular expressions are written out by hand as the matchers they stand for:
- `re.search` is the leftmost position where the matcher succeeds (`Base.FirstWhere`);
- a lazy `(.*?)` stops at the first place where its continuation matches (`Base.ScanTo`);
- `re.findall` is a left-to-right scan that resumes after each match.

Functions give each operation's meaning. Where the source works step by step, the model uses methods with loops, and each method is proved to compute its function:
- the recovery loops (`ExtractAndParseMethod`);
- the registry loops and field updates of the `AgentManager` class;
- `process_conversation` on the `SessionManager` class;
- the variable expansion loop and the directory loop.

Behaviour worth knowing, as the code has it:
- **Empty raw output.** Falsy raw output returns `None` at `session_manager.py:248-249`, as the method's docstring (lines 242-243) says, so the slot becomes `{}`.
- **Zero captures in Tier 2.** These also give `None` at line 372. Default synthesis runs only when constructing the model from the Tier 2 captures raises (line 346), which can never happen for the three all-text models (`Recovery.TextSchemasNeverFallBack`).
- **Pair names keep their spaces.** `re.findall` with `[\w\s]+` makes the second name of `a: 1, b: 2` start with a space (`Patterns.TwoPairs`); `strip()` removes it before the name becomes a key.
- **Non-numeric pairs.** A pair whose score `float()` rejects is not skipped. The exception turns the whole mapping field into `{}` at lines 311-313.
- **The locator can raise.**
  - A record that is not a dict, under `task_results` or `tasks`, raises `AttributeError` (`.get` on it).
  - A non-string raw output reaching `re.search` raises `TypeError`.
  - A JSON value that is not an object raises `TypeError` in `model_class(**data)`.

  None of these is caught, so they escape `process_conversation` (`Session.SessionResults`).

## Model

| member | source | states |
|---|---|---|
| Values.Lookup | wingman/ai_wingman/session_manager.py:180 | `dict.get` finds a key exactly when some pair carries it, and returns that pair's value |
| Values.Insert | wingman/ai_wingman/session_manager.py:290 | `d[k] = v`: afterwards `k` maps to `v` and every other key is unchanged. A present key keeps its position: the entry at its first index is replaced and nothing else moves. A new key is appended at the end |
| Values.LookupDistinct | wingman/ai_wingman/session_manager.py:100-105 | in a dict whose keys are distinct, each entry is what its own key looks up |
| Values.Iterate | wingman/ai_wingman/session_manager.py:179 | iterating a value fails exactly on values that are not a list, dict or string, and only with TypeError; a list yields its items |
| Text.Strip | wingman/ai_wingman/session_manager.py:290 | `str.strip()` removes exactly the leading and trailing whitespace. The result neither starts nor ends with whitespace and is a contiguous slice of the input |
| Text.StripUnique | wingman/ai_wingman/session_manager.py:290 | any slice with whitespace-only surroundings and non-whitespace ends is what `strip()` returns |
| Text.SplitJoinRoundTrip | wingman/ai_wingman/session_manager.py:323 | joining the pieces of `str.split(sep)` with `sep` gives the original string back |
| Text.SplitPiecesAreFree | wingman/ai_wingman/session_manager.py:323 | no piece of `split(sep)` contains `sep` |
| Text.ReplaceIsSplitJoin | wingman/core/agent_manager.py:142 | `str.replace(pat, repl)` equals splitting on `pat` and joining with `repl` |
| Text.ReplaceAbsent | wingman/core/config_loader.py:57 | replacing a pattern that does not occur changes nothing |
| Text.ValueAfterLabelIgnoresCase | wingman/ai_wingman/session_manager.py:288 | a label matched with `re.IGNORECASE` matches the same way under any ASCII case variant |
| Schemas.ModelsAreWellFormed | wingman/ai_wingman/session_manager.py:17-43 | the four models have distinct field names. Three are all-text; EmotionAnalysis has two mapping fields and one list field |
| Schemas.Validate | wingman/ai_wingman/session_manager.py:258 | `model_class(**data)` succeeds exactly when every field is present with a value of its annotated kind. The instance lists the fields in declaration order with those values; extra keys are ignored |
| Schemas.EmptyValue | wingman/ai_wingman/session_manager.py:336-343 | the default for a missing field (`{}`, `[]`, `""`, `0`) conforms to the field's annotation and is falsy |
| Schemas.DisplayNameSpellsField | wingman/ai_wingman/session_manager.py:277 | the display name (capitalized words joined by spaces) equals the field name with `_` read as a space, ignoring case |
| Schemas.DisplayNameAtFirstUnderscore | wingman/ai_wingman/session_manager.py:277 | the display name is the capitalized first word, a space, then the display name of the rest |
| Patterns.Search | wingman/ai_wingman/session_manager.py:288 | `re.search` reports the leftmost position where the field pattern matches, and no match only when none matches anywhere |
| Patterns.FirstMatching | wingman/ai_wingman/session_manager.py:287-291 | the pattern loop breaks at the first pattern that matches; every earlier pattern fails |
| Patterns.FindPairsClasses | wingman/ai_wingman/session_manager.py:306 | every pair `re.findall` yields has a non-empty `[\w\s]` name and a non-empty `[0-9.]` score |
| Patterns.FindPairsHere | wingman/ai_wingman/session_manager.py:306 | a pair `name: score` written at the scan position is the next pair `findall` returns, and the scan resumes right after its score |
| Patterns.CaptureQuotedRoundTrip | wingman/ai_wingman/session_manager.py:281 | `field: "v"` in the text is captured as `v`, stripped |
| Patterns.CaptureLineRoundTrip | wingman/ai_wingman/session_manager.py:282 | `field: v` up to a newline, in text without quotes, is captured as `v`, stripped |
| Patterns.OnePair | wingman/ai_wingman/session_manager.py:306 | `name: score` yields exactly the one pair `(name, score)` |
| Patterns.TwoPairs | wingman/ai_wingman/session_manager.py:306 | `n1: s1, n2: s2` yields exactly the two pairs in order; the second name keeps the space after the comma |
| Patterns.NoColonNoPairs | wingman/ai_wingman/session_manager.py:306 | text without `:` yields no pairs |
| Patterns.PairsToDict | wingman/ai_wingman/session_manager.py:305-310 | the pair loop succeeds exactly when every score is a valid float literal. The dict is empty only when there were no pairs, and all its values are numbers |
| Patterns.PairsToDictKeys | wingman/ai_wingman/session_manager.py:307-308 | when every score parses, the keys of the mapping are exactly the stripped names of the pairs |
| Patterns.PairsToDictLookup | wingman/ai_wingman/session_manager.py:307-308 | when every score parses, a stripped name maps to the score of its last pair |
| Locator.Scan | wingman/ai_wingman/session_manager.py:179-201 | the record loops never fail on the list shape; any failure is an AttributeError |
| Locator.ScanFirstSelected | wingman/ai_wingman/session_manager.py:179-201 | the loops return the value picked from the first record with the task id and the right agent, passing over records with another id or another agent |
| Locator.ScanNoneSelected | wingman/ai_wingman/session_manager.py:179-201 | when no record matches, the result is `""` |
| Locator.ScanNonDictRaises | wingman/ai_wingman/session_manager.py:179-190 | in the `task_results` and `tasks` shapes, a non-dict record reached before a match raises AttributeError |
| Locator.TaskResultsShadowsOtherShapes | wingman/ai_wingman/session_manager.py:178-193 | once a dict has `task_results`, its other keys never influence the result, even on a miss |
| Locator.ExtractTaskResult | wingman/ai_wingman/session_manager.py:160-226 | a dict with `task_results` iterates that value (its TypeError escapes) and returns `Scan(TaskResults, …)` of the records. Otherwise a dict with `tasks` does the same with `Scan(Tasks, …)`. A dict with neither gives its entry under the task id, else `""`. A list returns `Scan(Records, …)` of its items. A string is located by `LocateInText` and yields text without `===`. Other shapes give `""`; only TypeError or AttributeError can escape. The `Scan` lemmas state which record is picked |
| Locator.SectionRoundTrip | wingman/ai_wingman/session_manager.py:203-223 | a section written `=== LABEL ===` + body before another `===` or the end is found again as the stripped body |
| Locator.SectionBodyFound | wingman/ai_wingman/session_manager.py:215 | the section pattern matches and its group is the body up to the next delimiter |
| Locator.BodyRunsToDelimiter | wingman/ai_wingman/session_manager.py:207-211 | the lazy body stops at the next `===` or at the end; a final newline before `$` is removed by `strip()` |
| Locator.AgentFilterIgnoresCase | wingman/ai_wingman/session_manager.py:218-222 | the agent filter inside a section is matched ignoring ASCII case |
| Locator.NarrowFindsAgent | wingman/ai_wingman/session_manager.py:217-222 | inside a section, `agent: text` (with no earlier `:`/`=` and no `=` in the text) narrows the section to that agent's stripped text |
| Locator.PartnerTasksMissText | wingman/ai_wingman/session_manager.py:206-214 | the per-partner task ids have no section label, so a text result yields `""` for them |
| Recovery.JsonSpan | wingman/ai_wingman/session_manager.py:254-256 | the greedy `\{.*\}` span runs from the first `{` to the last `}` after it; when there is none, no `{` precedes any `}` |
| Recovery.JsonTier | wingman/ai_wingman/session_manager.py:252-263 | Tier 1 parses the braced span (the whole text when there is none) once. A parse failure falls through; a JSON value that is not an object raises TypeError, the only error; an object gives an instance exactly when it validates, and the instance is the validated one |
| Recovery.StripAll | wingman/ai_wingman/session_manager.py:323 | one stripped string per comma-separated piece, in order |
| Recovery.FallbackText | wingman/ai_wingman/session_manager.py:360-361 | for `analysis` and `perspective` the fallback is the whole text when it has at most 500 characters and exactly its first 500 otherwise; every other text field gets `""` |
| Recovery.DefaultValue | wingman/ai_wingman/session_manager.py:352-365 | a text field gets its fallback text; mapping, list and number fields get their falsy empty value; every default conforms to its field's annotation |
| Recovery.CapturedLookup | wingman/ai_wingman/session_manager.py:275-291 | after the capture loop a field holds its stripped captured text if a pattern matched, and is absent otherwise; other keys are absent |
| Recovery.CapturedEmpty | wingman/ai_wingman/session_manager.py:331 | `extracted_data` is empty exactly when no field was captured |
| Recovery.PostProcessedField | wingman/ai_wingman/session_manager.py:294-328 | post-processing replaces a captured mapping or list field by its parsed value and leaves others as captured |
| Recovery.WithDefaultsField | wingman/ai_wingman/session_manager.py:333-343 | the defaults loop fills exactly the missing fields with their empty value |
| Recovery.PatternTierSpec | wingman/ai_wingman/session_manager.py:267-345 | Tier 2 gives up exactly when nothing was captured. It builds an instance exactly when every field's final value conforms, and that instance holds each field's final value in declaration order |
| Recovery.TextSchemasNeverFallBack | wingman/ai_wingman/session_manager.py:345-346 | for an all-text model, model construction after Tier 2 never fails, so Tier 3 is unreachable |
| Recovery.DefaultsValid | wingman/ai_wingman/session_manager.py:350-367 | Tier 3's defaults always construct the model, with each field holding its synthesized default |
| Recovery.Recover | wingman/ai_wingman/session_manager.py:248-372 | falsy raw output gives `None`; truthy non-string output raises TypeError, the only error. For non-empty text the tiers combine in source order: Tier 1's TypeError escapes and its instance is returned; after a fall-through, zero Tier 2 captures give `None`, a built Tier 2 instance is returned, and only a failed Tier 2 construction runs Tier 3, whose defaults are validated. Every instance returned conforms to the model |
| Recovery.NoneOnlyWithoutCaptures | wingman/ai_wingman/session_manager.py:331-372 | recovery of text gives `None` exactly when the text is empty, or Tier 1 fell through and no field pattern matched |
| Recovery.JsonRoundTrip | wingman/ai_wingman/session_manager.py:254-258 | a valid JSON object embedded in text without other braces around it is recovered as that object's instance |
| Recovery.ValidateIgnoresOtherKeys | wingman/ai_wingman/session_manager.py:258 | validation depends only on the values under the model's field names |
| Recovery.ExtractAndParse | wingman/ai_wingman/session_manager.py:228-372 | a locator exception escapes unchanged; otherwise the result is `Recover` of the located raw value, so every instance returned conforms to the model |
| ExtractAndParseMethod.CaptureField | wingman/ai_wingman/session_manager.py:287-291 | the pattern loop for one field yields the stripped group of the first of its four patterns that matches, and nothing when none does (`Patterns.Capture`) |
| ExtractAndParseMethod.CaptureFields | wingman/ai_wingman/session_manager.py:275-291 | the capture loop computes `Recovery.Captured` |
| ExtractAndParseMethod.ParsePairs | wingman/ai_wingman/session_manager.py:305-308 | the pair loop computes `Patterns.PairsToDict`, returning at the first rejected score |
| ExtractAndParseMethod.DictField | wingman/ai_wingman/session_manager.py:298-312 | a dict field is rewritten as `Recovery.PostProcessValue` says: braced text is decoded (`{}` when decoding fails); other text becomes its score pairs when there are any and is kept as it is when there are none; a rejected score gives `{}` |
| ExtractAndParseMethod.StripPieces | wingman/ai_wingman/session_manager.py:323 | the comprehension yields every comma-separated piece stripped, in order (`Recovery.StripAll`) |
| ExtractAndParseMethod.ListField | wingman/ai_wingman/session_manager.py:315-328 | a list field is rewritten as `Recovery.PostProcessValue` says: bracketed text is decoded (`[]` when decoding fails), and other text becomes its stripped comma-separated pieces |
| ExtractAndParseMethod.PostProcessFields | wingman/ai_wingman/session_manager.py:294-328 | the post-processing loop computes `Recovery.PostProcessed` |
| ExtractAndParseMethod.FillDefaults | wingman/ai_wingman/session_manager.py:333-343 | the defaults loop computes `Recovery.WithDefaults` |
| ExtractAndParseMethod.BuildDefaults | wingman/ai_wingman/session_manager.py:351-365 | the synthesis loop computes `Recovery.Defaults` |
| ExtractAndParseMethod.TryPatterns | wingman/ai_wingman/session_manager.py:267-345 | Tier 2 as written computes `Recovery.PatternTier` |
| ExtractAndParseMethod.RecoverResult | wingman/ai_wingman/session_manager.py:248-372 | everything after locating the raw text computes `Recovery.Recover` |
| ExtractAndParseMethod.ExtractAndParseTaskResult | wingman/ai_wingman/session_manager.py:228-372 | the whole method computes `Recovery.ExtractAndParse` |
| Session.InitialContext | wingman/ai_wingman/session_manager.py:100-105 | the context holds the four keys in source order: the transcript, the conflict types joined by `", "`, and the two backgrounds |
| Session.ParsedSlot | wingman/ai_wingman/session_manager.py:116-154 | a slot is `.dict()` of the parsed instance, or `{}` for `None`, so it is `{}` or an instance of its model. It fails exactly when the extraction raises, with the extraction's own error (TypeError or AttributeError) |
| Session.SessionResults | wingman/ai_wingman/session_manager.py:116-156 | the result has the six keys in order. Slots 0-4 are the parsed slots of their five tasks, each `{}` or an instance of its model; `integrated_dialogue` is the raw located text. Only TypeError or AttributeError can escape |
| Session.SessionFirstFailure | wingman/ai_wingman/session_manager.py:116-156 | a failed session carries the error of the first of its six steps, in source order, that raises |
| Session.OpaqueResultGivesEmptySlots | wingman/ai_wingman/session_manager.py:176-226 | a crew result that is not a dict, list or string gives `{}` in every slot and `""` as the dialogue |
| Session.TextResultLeavesPartnersEmpty | wingman/ai_wingman/session_manager.py:204-214 | for a text crew result both partner slots are always `{}` |
| Session.Conversation | wingman/ai_wingman/session_manager.py:108-158 | after the context update: a task rebuild error or a crew rebuild error escapes; a missing session crew raises `Crew 'ai_wingman_crew' not found`; otherwise the result is `SessionResults` of the session crew's kickoff |
| Session.SessionManager.ProcessConversation | wingman/ai_wingman/session_manager.py:76-158 | replaces the context with the initial context and keeps configs, LLM and agents; rebuilt tasks and crews are stored. The result is `Conversation` on the new context: each rebuild error escapes, a missing crew raises ValueError, and otherwise it is `SessionResults` of the session crew's kickoff |
| AgentManagerModel.Get | wingman/core/agent_manager.py:60-61 | `.get(key, default)` works only on a dict and returns the stored value or the default |
| AgentManagerModel.GetEntry | wingman/core/agent_manager.py:158 | registry `.get(id)` raises on unhashable ids (lists, dicts). It finds an entry exactly for a string id that is registered |
| AgentManagerModel.MapEntriesAllOk | wingman/core/agent_manager.py:88-116 | a registry loop succeeds exactly when every entry builds |
| AgentManagerModel.MapEntriesFirstFailure | wingman/core/agent_manager.py:156-161 | a failing registry loop raises the error of an entry whose predecessors all built |
| AgentManagerModel.MapEntriesFailsAt | wingman/core/agent_manager.py:156-161 | if all entries before i build and entry i raises, the loop raises that error |
| AgentManagerModel.MapEntriesKeys | wingman/core/agent_manager.py:88-116 | a built registry has exactly the configured ids as keys |
| AgentManagerModel.MapEntriesInOrder | wingman/core/agent_manager.py:88-126 | a built registry lists every configured id in configuration order with the object built from its entry |
| AgentManagerModel.LlmFromConfig | wingman/core/agent_manager.py:53-74 | a section that is not a dict raises AttributeError. With a dict `api.openai` the LLM is built exactly when `api_key` is truthy (else the missing-key ValueError), carrying that key and `model`, `temperature`, `max_tokens` with defaults `gpt-4o-mini`, 0.7 and 4000 |
| AgentManagerModel.MissingApiKeyRaises | wingman/core/agent_manager.py:64-68 | a missing or falsy `api_key` raises the missing-key ValueError |
| AgentManagerModel.ChooseRole | wingman/core/agent_manager.py:92-102 | the role is the truthy `role`; else `name` when that key is present and not None; else `"Agent"` when the result is still None. A falsy role that is not None, without a `name`, stays; the role is never None |
| AgentManagerModel.AgentFromConfig | wingman/core/agent_manager.py:92-124 | an agent is built exactly from a dict, with the chosen role and the manager's LLM. A truthy goal or backstory is kept; a falsy one becomes `Perform tasks as a <role> agent` or `You are a <role> agent designed to help with various tasks.`. `verbose`, `allow_delegation` (default true) and `tools` (default `[]`) are read from the entry |
| AgentManagerModel.Format | wingman/core/agent_manager.py:128-144 | an empty context returns the text untouched; otherwise a non-string raises AttributeError, and a string becomes `Substitute` of it: each key's `{key}` replaced by `str(value)`, in insertion order |
| AgentManagerModel.SubstituteWithoutPlaceholders | wingman/core/agent_manager.py:141-142 | text without any `{key}` placeholder of the context is unchanged |
| AgentManagerModel.SubstituteInSequence | wingman/core/agent_manager.py:141-142 | formatting with two contexts in a row equals formatting with their concatenation, in insertion order |
| AgentManagerModel.SubstituteSingle | wingman/core/agent_manager.py:142 | one placeholder surrounded by text without it is replaced by `str(value)` |
| AgentManagerModel.TopicExample | tests/test_agent_manager.py:116-122 | `"Test {topic}"` with topic `AI Ethics` formats to `"Test AI Ethics"` |
| AgentManagerModel.TaskFromConfig | wingman/core/agent_manager.py:156-172 | a task is built exactly from a dict whose `agent` is a registered string id and whose templates format. A non-dict raises AttributeError, an unhashable agent id TypeError, an unregistered one `Agent '…' not found for task '…'`. Description and expected output are the formatted templates; `async_execution` defaults to false |
| AgentManagerModel.Resolve | wingman/core/agent_manager.py:187-201 | crew id lists resolve exactly when every id is a registered string, giving the registered objects in order |
| AgentManagerModel.ResolveFirstFailure | wingman/core/agent_manager.py:189-201 | a failed resolution fails at an id whose predecessors all resolved |
| AgentManagerModel.CrewFromConfig | wingman/core/agent_manager.py:187-216 | a non-dict entry raises AttributeError. Otherwise the steps run in order: a non-iterable agent list (TypeError), an agent id that does not resolve, a non-iterable task list, a task id that does not resolve; the first that fails gives the error, and when none fails a crew is built. Its lists are the resolved objects; `process` defaults to `sequential` and a dict process reads its `sequential` entry, and any other present value is kept as it is; `verbose` defaults to true and `max_rpm` to 20 |
| AgentManagerModel.AgentsForEntries | wingman/core/agent_manager.py:76-126 | the agent registry has one agent per configured entry, in order, each built from its entry |
| AgentManagerModel.TasksForEntries | wingman/core/agent_manager.py:146-174 | the task registry has one task per configured entry, in order, each built from its entry |
| AgentManagerModel.TasksForDanglingAgent | wingman/core/agent_manager.py:157-161 | the first task naming an unregistered agent makes the whole build raise that task's ValueError |
| AgentManagerModel.CrewsForEntries | wingman/core/agent_manager.py:176-218 | the crew registry has one crew per configured entry, in order, each built from its entry |
| AgentManagerModel.StartupKeepsTemplates | wingman/core/agent_manager.py:164-165 | at start-up the context is empty, so every task keeps its configured description and expected output verbatim |
| AgentManagerModel.AgentManager.constructor | wingman/core/agent_manager.py:43-49 | a manager starts with the given configs and LLM and empty registries and context |
| AgentManagerModel.AgentManager.Create | wingman/core/agent_manager.py:36-51 | construction fails with start-up's error. Otherwise the fresh manager's state is exactly the start-up registries with an empty context |
| AgentManagerModel.AgentManager.Initialize | wingman/core/agent_manager.py:220-231 | agents, then tasks with the empty context, then crews are built and stored; the first stage that raises gives the error, and when all succeed the state is exactly `Registries(configs, llm)` with configs, LLM and context unchanged |
| AgentManagerModel.AgentManager.CreateAgents | wingman/core/agent_manager.py:76-126 | the agent loop computes `AgentsFor` |
| AgentManagerModel.AgentManager.FormatWithContext | wingman/core/agent_manager.py:128-144 | the replacement loop computes `Format` |
| AgentManagerModel.AgentManager.CreateTasks | wingman/core/agent_manager.py:146-174 | the task loop computes `TasksFor` |
| AgentManagerModel.AgentManager.CreateTask | wingman/core/agent_manager.py:157-172 | the loop body computes `TaskFromConfig` |
| AgentManagerModel.AgentManager.ResolveIds | wingman/core/agent_manager.py:187-201 | the id loops compute `Resolve` |
| AgentManagerModel.AgentManager.CreateCrew | wingman/core/agent_manager.py:185-216 | the loop body computes `CrewFromConfig` |
| AgentManagerModel.AgentManager.CreateCrews | wingman/core/agent_manager.py:176-218 | the crew loop computes `CrewsFor` |
| AgentManagerModel.AgentManager.UpdateTaskContext | wingman/core/agent_manager.py:245-259 | the context is replaced, not merged. Tasks are rebuilt with it, then crews from the new tasks; a failure leaves the fields assigned before it |
| AgentManagerModel.AgentManager.GetCrew | wingman/core/agent_manager.py:233-243 | `self.crews.get(crew_id)`: a crew is returned exactly when some registry entry carries the id, and the crew returned is one stored under that id |
| AgentManagerModel.AgentManager.RunCrew | wingman/core/agent_manager.py:261-275 | an unknown crew raises `Crew '…' not found`; otherwise the result is the crew's kickoff |
| ConfigLoader.RefAt | wingman/core/config_loader.py:49 | `\${([^}]+)}` matches at a position with `${`, a non-empty run without `}`, and the closing `}` |
| ConfigLoader.FindRefs | wingman/core/config_loader.py:50 | every name `re.findall` returns is non-empty and free of `}` |
| ConfigLoader.FindRefsEmpty | wingman/core/config_loader.py:50-52 | `findall` returns nothing exactly when the pattern matches nowhere |
| ConfigLoader.RefAtReference | wingman/core/config_loader.py:49 | a written `${NAME}` is matched there and captures `NAME` |
| ConfigLoader.ProcessEnvVars | wingman/core/config_loader.py:33-61 | dicts keep their keys and lists their length. Strings are expanded, and all other values are returned unchanged |
| ConfigLoader.ProcessEnvVarsPointwise | wingman/core/config_loader.py:43-46 | each list item and dict value is processed independently |
| ConfigLoader.NoReferenceUnchanged | wingman/core/config_loader.py:52-59 | a string without a reference is returned unchanged |
| ConfigLoader.UnsetNamesLeftInPlace | wingman/core/config_loader.py:55-56 | references whose variables are all unset stay in the text |
| ConfigLoader.SingleReferenceExpands | wingman/core/config_loader.py:49-58 | a lone `${NAME}` is found. It is replaced by the variable's value when set, and left as written when unset |
| ConfigLoader.EmptyEnvUnchanged | wingman/core/config_loader.py:33-61 | with no environment variables set, a configuration tree is returned unchanged |
| ConfigLoader.ExpandString | wingman/core/config_loader.py:52-58 | the replacement loop computes `ExpandRefs` |
| ConfigLoader.ConfigNameDropsExtension | wingman/core/config_loader.py:77-79 | `stem.yml` and `stem.yaml` are YAML names whose config name is `stem` |
| ConfigLoader.LastDot | wingman/core/config_loader.py:79 | the extension split finds the last `.` |
| ConfigLoader.Unwrap | wingman/core/config_loader.py:84-88 | a dict holding the config name gives that entry and any other dict gives itself. A list raises TypeError exactly when the name is one of its items, a string exactly when the name occurs in it (or is empty); None, booleans and numbers raise TypeError. The result differs from the document only in the first case |
| ConfigLoader.LoadedKeys | wingman/core/config_loader.py:76-88 | the loaded configurations have exactly the config names of the YAML files as keys |
| ConfigLoader.LoadedEntry | wingman/core/config_loader.py:79-88 | the entry under a name is the expanded, unwrapped document of the last file with that name |
| ConfigLoader.LoadedConfigsStopsAtFailure | wingman/core/config_loader.py:76-88 | a failing file ends the load with its error |
| ConfigLoader.LoadAllConfigs | wingman/core/config_loader.py:64-91 | the directory loop computes `LoadedConfigs` |

## Left out

- File and process I/O are parameters:
  - the directory listing, as `fileNames`;
  - `yaml.safe_load` of each file, as `documents`;
  - `os.environ`, as `Env`.
- `os.path.exists` and the `FileNotFoundError` of `load_yaml_config` are not modelled, because every listed file is taken to exist. Directory entries that are not readable files are not modelled either.
- JSON parsing is the parameter `parse`. Only the part of pydantic the code relies on is modelled (`Schemas.Validate`: presence and kind of each field); pydantic's coercions are not.
- The crew run (`Crew.kickoff()`) is the parameter `kickoff`. The LLM client (`ChatOpenAI`) and crewai's `Agent`, `Task` and `Crew` are plain records of their constructor arguments.
- `print` calls are left out because they do not affect results.
- Float scores are kept as their literal text. `float()` is modelled only as accepting or rejecting a `[0-9.]+` literal (`Patterns.IsFloatLiteral`), because values are never compared numerically.
- `repr` inside `str()` of a list or dict always quotes strings with single quotes (`Values.Repr`). Python switches to double quotes for a string holding a single quote, and escapes other characters; that is not modelled.
- Patterns.FindPairs: `re.findall` is defined as its scanner, and what it returns is stated by lemmas for written pairs (`Patterns.FindPairsHere`, `Patterns.OnePair`, `Patterns.TwoPairs`, `Patterns.NoColonNoPairs`) rather than for every input.
- Case-insensitive matching, `\w` and `str.capitalize` are modelled on ASCII only. Unicode case folding is not modelled.
- Field names are taken to be regular-expression literals: the four models' names contain only letters and `_`, so interpolating them into the patterns adds no metacharacters.
- The `agent_filter` text is likewise taken literally inside `rf'{agent_filter}…'`.
- `TherapeuticInteraction` (`session_manager.py:46-53`) is declared but never instantiated by the core, so it has no model.
- `SessionManager.__init__` locating its default configuration directory is not modelled. The session manager is given its agent manager.
- `wingman/check_env.py`, the FastAPI layer under `app/` and the example scripts are not part of this model.
- Exceptions other than `TypeError`, `AttributeError` and `ValueError` are not modelled. Out-of-memory and interrupts are examples.

=== FILE: agent_manager.dfy ===
/** `AgentManager`: the registry of agents, tasks and crews built from the loaded
    configuration, the run-time context that task texts are formatted with, and crew
    lookup. crewai's `Agent`, `Task` and `Crew` objects are plain records here and
    `crew.kickoff()` is a function parameter. */
module AgentManagerModel {
  import opened Base
  import opened Text
  import opened Values

  datatype Llm = Llm(apiKey: Value, model: Value, temperature: Value, maxTokens: Value)

  datatype Agent = Agent(role: Value, goal: Value, backstory: Value, verbose: Value,
                         allowDelegation: Value, tools: Value, llm: Llm)

  datatype Task = Task(description: Value, expectedOutput: Value, agent: Agent, asyncExecution: Value)

  datatype Crew = Crew(agents: seq<Agent>, tasks: seq<Task>, verbose: Value, process: Value, maxRpm: Value)

  /** What the constructor leaves in the registry fields. */
  datatype Registry = Registry(llm: Llm, agents: seq<(string, Agent)>, tasks: seq<(string, Task)>,
                               crews: seq<(string, Crew)>)

  const ApiKeyMissing := "OpenAI API key not found. Please set the OPENAI_API_KEY environment variable "
                         + "or create a .env file in the project root with OPENAI_API_KEY=your_api_key_here"

  // ---------------------------------------------------------------------------
  // Python dict operations on a configuration value

  /** `v.get(key, default)`: only a dict has `.get`. */
  function Get(v: Value, key: string, default: Value): (r: Outcome<Value>)
    ensures r.Ok? <==> v.VDict?
    ensures v.VDict? && !HasKey(v.entries, key) ==> r == Ok(default)
    ensures v.VDict? && HasKey(v.entries, key) ==> r == Ok(Lookup(v.entries, key).value)
  {
    if v.VDict? then Ok(GetOr(v.entries, key, default)) else Raise(AttributeError)
  }

  /** `v.items()`: only a dict has `.items`. */
  function Items(v: Value): (r: Outcome<Dict>)
    ensures r.Ok? <==> v.VDict?
    ensures v.VDict? ==> r.value == v.entries
  {
    if v.VDict? then Ok(v.entries) else Raise(AttributeError)
  }

  /** The string key that a value can find in a dict with string keys: lists and dicts
      are unhashable (TypeError); any other non-string finds nothing. */
  function HashKey(id: Value): (r: Outcome<Option<string>>)
    ensures r.Raise? <==> id.VList? || id.VDict?
    ensures r.Ok? && r.value.Some? <==> id.VStr?
    ensures id.VStr? ==> r == Ok(Some(id.s))
  {
    match id
    case VStr(s) => Ok(Some(s))
    case VList(_) => Raise(TypeError)
    case VDict(_) => Raise(TypeError)
    case _ => Ok(None)
  }

  /** `table.get(id)`. */
  function GetEntry<T>(table: seq<(string, T)>, id: Value): (r: Outcome<Option<T>>)
    ensures r.Raise? <==> id.VList? || id.VDict?
    ensures r.Ok? && r.value.Some? <==> id.VStr? && HasKey(table, id.s)
    ensures r.Ok? && r.value.Some? ==> Lookup(table, id.s) == Some(r.value.value)
  {
    var key :- HashKey(id);
    if key.None? then Ok(None) else Ok(Lookup(table, key.value))
  }

  // ---------------------------------------------------------------------------
  // Building a dict entry by entry

  /** `out = {}; for key, data in entries: out[key] = f(env, key, data)`; the first
      entry whose construction raises ends the loop with its exception. */
  function MapEntries<E, T>(entries: Dict, env: E, f: (E, string, Value) -> Outcome<T>)
    : Outcome<seq<(string, T)>>
    decreases |entries|
  {
    if entries == [] then Ok([])
    else
      var built :- MapEntries(entries[..|entries| - 1], env, f);
      var last := entries[|entries| - 1];
      var v :- f(env, last.0, last.1);
      Ok(Insert(built, last.0, v))
  }

  /** Once a prefix of the entries fails, the whole loop fails with the same exception. */
  lemma {:induction false} MapEntriesStopsAtFailure<E, T>(entries: Dict, env: E, f: (E, string, Value) -> Outcome<T>,
                                                          j: nat)
    requires j <= |entries| && MapEntries(entries[..j], env, f).Raise?
    ensures MapEntries(entries, env, f) == MapEntries(entries[..j], env, f)
    decreases |entries| - j
  {
    if j < |entries| {
      assert entries[..j + 1][..j] == entries[..j];
      MapEntriesStopsAtFailure(entries, env, f, j + 1);
    } else {
      assert entries[..j] == entries;
    }
  }

  /** One step of the loop: the prefix, then the last entry. */
  lemma MapEntriesStep<E, T>(entries: Dict, env: E, f: (E, string, Value) -> Outcome<T>)
    requires entries != []
    ensures var init, last := entries[..|entries| - 1], entries[|entries| - 1];
            MapEntries(entries, env, f)
              == if MapEntries(init, env, f).Raise? then MapEntries(init, env, f)
                 else if f(env, last.0, last.1).Raise? then Raise(f(env, last.0, last.1).error)
                 else Ok(Insert(MapEntries(init, env, f).value, last.0, f(env, last.0, last.1).value))
  {
  }

  lemma MapEntriesStepOk<E, T>(entries: Dict, env: E, f: (E, string, Value) -> Outcome<T>)
    requires entries != []
    ensures var last := entries[|entries| - 1];
            MapEntries(entries, env, f).Ok? <==> MapEntries(entries[..|entries| - 1], env, f).Ok? && f(env, last.0, last.1).Ok?
  {
  }

  /** Every entry up to n succeeds. */
  predicate AllOkBefore<E, T>(entries: Dict, env: E, f: (E, string, Value) -> Outcome<T>, n: int)
    requires n <= |entries|
  {
    forall i :: 0 <= i < n ==> f(env, entries[i].0, entries[i].1).Ok?
  }

  /** The loop succeeds exactly when every entry does. */
  lemma {:induction false} MapEntriesAllOk<E, T>(entries: Dict, env: E, f: (E, string, Value) -> Outcome<T>)
    ensures MapEntries(entries, env, f).Ok? <==> AllOkBefore(entries, env, f, |entries|)
    decreases |entries|
  {
    if entries != [] {
      var init, n := entries[..|entries| - 1], |entries| - 1;
      var last := entries[n];
      MapEntriesAllOk(init, env, f);
      MapEntriesStepOk(entries, env, f);
      assert AllOkBefore(init, env, f, n) <==> AllOkBefore(entries, env, f, n) by {
        assert forall i :: 0 <= i < n ==> init[i] == entries[i];
      }
      assert AllOkBefore(entries, env, f, n + 1) <==> AllOkBefore(entries, env, f, n) && f(env, last.0, last.1).Ok?;
    }
  }

  /** Success of the first i entries does not depend on the entries after them. */
  lemma AllOkBeforeInit<E, T>(entries: Dict, env: E, f: (E, string, Value) -> Outcome<T>, i: nat)
    requires entries != [] && i < |entries|
    ensures AllOkBefore(entries[..|entries| - 1], env, f, i) <==> AllOkBefore(entries, env, f, i)
  {
    var init := entries[..|entries| - 1];
    assert forall k :: 0 <= k < i ==> init[k] == entries[k];
  }

  /** A failing loop raises what its first failing entry raises. */
  lemma {:induction false} MapEntriesFirstFailure<E, T>(entries: Dict, env: E, f: (E, string, Value) -> Outcome<T>)
    requires MapEntries(entries, env, f).Raise?
    ensures exists i :: 0 <= i < |entries| && f(env, entries[i].0, entries[i].1) == Raise(MapEntries(entries, env, f).error)
                        && AllOkBefore(entries, env, f, i)
    decreases |entries|
  {
    var init, n := entries[..|entries| - 1], |entries| - 1;
    MapEntriesStep(entries, env, f);
    var e := MapEntries(entries, env, f).error;
    if MapEntries(init, env, f).Raise? {
      MapEntriesFirstFailure(init, env, f);
      var i :| 0 <= i < n && f(env, init[i].0, init[i].1) == Raise(e) && AllOkBefore(init, env, f, i);
      AllOkBeforeInit(entries, env, f, i);
      assert init[i] == entries[i];
      assert f(env, entries[i].0, entries[i].1) == Raise(e) && AllOkBefore(entries, env, f, i);
    } else {
      MapEntriesAllOk(init, env, f);
      AllOkBeforeInit(entries, env, f, n);
      assert f(env, entries[n].0, entries[n].1) == Raise(e) && AllOkBefore(entries, env, f, n);
    }
  }

  /** When every entry before i succeeds and entry i raises, the loop raises that. */
  lemma MapEntriesFailsAt<E, T>(entries: Dict, env: E, f: (E, string, Value) -> Outcome<T>, i: nat)
    requires i < |entries| && AllOkBefore(entries, env, f, i) && f(env, entries[i].0, entries[i].1).Raise?
    ensures MapEntries(entries, env, f) == Raise(f(env, entries[i].0, entries[i].1).error)
  {
    var pre := entries[..i + 1];
    assert pre[..i] == entries[..i];
    assert AllOkBefore(entries[..i], env, f, i) by {
      forall k | 0 <= k < i
        ensures entries[..i][k] == entries[k]
      {
      }
    }
    MapEntriesAllOk(entries[..i], env, f);
    MapEntriesStep(pre, env, f);
    MapEntriesStopsAtFailure(entries, env, f, i + 1);
  }

  lemma {:induction false} MapEntriesKeys<E, T>(entries: Dict, env: E, f: (E, string, Value) -> Outcome<T>, k: string)
    requires MapEntries(entries, env, f).Ok?
    ensures HasKey(MapEntries(entries, env, f).value, k) <==> HasKey(entries, k)
    decreases |entries|
  {
    if entries != [] {
      var init, last := entries[..|entries| - 1], entries[|entries| - 1];
      MapEntriesStep(entries, env, f);
      MapEntriesKeys(init, env, f, k);
      HasKeyInit(entries, k);
    }
  }

  /** With distinct keys the result lists the entries in order, each with its value. */
  lemma {:induction false} MapEntriesInOrder<E, T>(entries: Dict, env: E, f: (E, string, Value) -> Outcome<T>)
    requires DistinctKeys(entries) && MapEntries(entries, env, f).Ok?
    ensures AllOkBefore(entries, env, f, |entries|)
    ensures |MapEntries(entries, env, f).value| == |entries|
    ensures forall i :: 0 <= i < |entries| ==>
              MapEntries(entries, env, f).value[i] == (entries[i].0, f(env, entries[i].0, entries[i].1).value)
    decreases |entries|
  {
    MapEntriesAllOk(entries, env, f);
    if entries != [] {
      var init, last := entries[..|entries| - 1], entries[|entries| - 1];
      DistinctKeysInit(entries);
      MapEntriesInOrder(init, env, f);
      MapEntriesKeys(init, env, f, last.0);
      var built := MapEntries(init, env, f).value;
      var v := f(env, last.0, last.1).value;
      var whole := MapEntries(entries, env, f).value;
      assert whole == built + [(last.0, v)] by {
        MapEntriesStep(entries, env, f);
      }
      forall i | 0 <= i < |entries|
        ensures whole[i] == (entries[i].0, f(env, entries[i].0, entries[i].1).value)
      {
        if i < |init| {
          assert whole[i] == built[i];
          assert init[i] == entries[i];
        } else {
          assert whole[i] == (last.0, v);
        }
      }
    }
  }

  // ---------------------------------------------------------------------------
  // `_create_llm`

  /** The API-key check: a missing or empty key raises ValueError; the other settings
      default to `gpt-4o-mini`, 0.7 and 4000. */
  function LlmFromConfig(configs: Dict): (r: Outcome<Llm>)
    ensures r.Ok? ==> Truthy(r.value.apiKey)
    ensures r.Raise? ==> r.error == AttributeError || r.error == ValueError(ApiKeyMissing)
    ensures !GetOr(configs, "api", VDict([])).VDict? ==> r == Raise(AttributeError)
    ensures var api := GetOr(configs, "api", VDict([]));
            api.VDict? && !GetOr(api.entries, "openai", VDict([])).VDict? ==> r == Raise(AttributeError)
    ensures var api := GetOr(configs, "api", VDict([]));
            var openai := if api.VDict? then GetOr(api.entries, "openai", VDict([])) else VNone;
            openai.VDict? ==>
              (r.Ok? <==> Truthy(GetOr(openai.entries, "api_key", VNone)))
              && (r.Ok? ==> r.value == Llm(GetOr(openai.entries, "api_key", VNone),
                                           GetOr(openai.entries, "model", VStr("gpt-4o-mini")),
                                           GetOr(openai.entries, "temperature", VNum("0.7")),
                                           GetOr(openai.entries, "max_tokens", VNum("4000"))))
  {
    var api := GetOr(configs, "api", VDict([]));
    var apiConfig :- Get(api, "openai", VDict([]));
    var apiKey :- Get(apiConfig, "api_key", VNone);
    if !Truthy(apiKey) then Raise(ValueError(ApiKeyMissing))
    else
      var d := apiConfig.entries;
      Ok(Llm(apiKey, GetOr(d, "model", VStr("gpt-4o-mini")), GetOr(d, "temperature", VNum("0.7")),
             GetOr(d, "max_tokens", VNum("4000"))))
  }

  /** A well-shaped `api.openai` section without a usable key is refused. */
  lemma MissingApiKeyRaises(configs: Dict, api: Dict, openai: Dict)
    requires Lookup(configs, "api") == Some(VDict(api)) && Lookup(api, "openai") == Some(VDict(openai))
    requires !Truthy(GetOr(openai, "api_key", VNone))
    ensures LlmFromConfig(configs) == Raise(ValueError(ApiKeyMissing))
  {
  }

  // ---------------------------------------------------------------------------
  // `_create_agents`

  /** The role rule: `role`, else (when it is falsy) `name` if present, else "Agent"
      when the result is still None. */
  function ChooseRole(d: Dict): (role: Value)
    ensures Truthy(GetOr(d, "role", VNone)) ==> role == GetOr(d, "role", VNone)
    ensures !Truthy(GetOr(d, "role", VNone)) && HasKey(d, "name") && GetOr(d, "name", VNone) != VNone ==>
              role == GetOr(d, "name", VNone)
    ensures GetOr(d, "role", VNone) == VNone && !HasKey(d, "name") ==> role == VStr("Agent")
    ensures !Truthy(GetOr(d, "role", VNone)) && HasKey(d, "name") && GetOr(d, "name", VNone) == VNone ==>
              role == VStr("Agent")
    ensures !Truthy(GetOr(d, "role", VNone)) && GetOr(d, "role", VNone) != VNone && !HasKey(d, "name") ==>
              role == GetOr(d, "role", VNone)
    ensures role != VNone
  {
    var role := GetOr(d, "role", VNone);
    var role' := if !Truthy(role) && HasKey(d, "name") then GetOr(d, "name", VNone) else role;
    if role' == VNone then VStr("Agent") else role'
  }

  /** One agent: the role rule, then a default goal and backstory naming the role when
      the configured ones are falsy; only a dict configuration has `.get`. */
  function AgentFromConfig(data: Value, llm: Llm): (r: Outcome<Agent>)
    ensures r.Ok? <==> data.VDict?
    ensures r.Ok? ==> r.value.role == ChooseRole(data.entries) && r.value.llm == llm
    ensures r.Ok? ==> Truthy(r.value.goal) && Truthy(r.value.backstory)
    ensures r.Ok? && Truthy(GetOr(data.entries, "goal", VNone)) ==> r.value.goal == GetOr(data.entries, "goal", VNone)
    ensures r.Ok? && !HasKey(data.entries, "verbose") ==> r.value.verbose == VBool(true)
    ensures r.Ok? && !HasKey(data.entries, "allow_delegation") ==> r.value.allowDelegation == VBool(true)
    ensures r.Ok? && !Truthy(GetOr(data.entries, "goal", VNone)) ==>
              r.value.goal == VStr("Perform tasks as a " + PyStr(r.value.role) + " agent")
    ensures r.Ok? && Truthy(GetOr(data.entries, "backstory", VNone)) ==>
              r.value.backstory == GetOr(data.entries, "backstory", VNone)
    ensures r.Ok? && !Truthy(GetOr(data.entries, "backstory", VNone)) ==>
              r.value.backstory == VStr("You are a " + PyStr(r.value.role) + " agent designed to help with various tasks.")
    ensures r.Ok? ==> r.value.verbose == GetOr(data.entries, "verbose", VBool(true))
                      && r.value.allowDelegation == GetOr(data.entries, "allow_delegation", VBool(true))
                      && r.value.tools == GetOr(data.entries, "tools", VList([]))
  {
    if !data.VDict? then Raise(AttributeError)
    else
      var d := data.entries;
      var role := ChooseRole(d);
      var goal := GetOr(d, "goal", VNone);
      var backstory := GetOr(d, "backstory", VNone);
      Ok(Agent(role,
               if Truthy(goal) then goal else VStr("Perform tasks as a " + PyStr(role) + " agent"),
               if Truthy(backstory) then backstory
               else VStr("You are a " + PyStr(role) + " agent designed to help with various tasks."),
               GetOr(d, "verbose", VBool(true)),
               GetOr(d, "allow_delegation", VBool(true)),
               GetOr(d, "tools", VList([])),
               llm))
  }

  function AgentEntry(llm: Llm, agentId: string, data: Value): Outcome<Agent> {
    AgentFromConfig(data, llm)
  }

  function BuildAgents(entries: Dict, llm: Llm): Outcome<seq<(string, Agent)>> {
    MapEntries(entries, llm, AgentEntry)
  }

  /** One step of the `_create_agents` loop. */
  lemma BuildAgentsStep(entries: Dict, llm: Llm, i: nat)
    requires i < |entries| && BuildAgents(entries[..i], llm).Ok?
    ensures var agent := AgentFromConfig(entries[i].1, llm);
            BuildAgents(entries[..i + 1], llm)
              == if agent.Raise? then Raise(agent.error)
                 else Ok(Insert(BuildAgents(entries[..i], llm).value, entries[i].0, agent.value))
  {
    assert entries[..i + 1][..i] == entries[..i];
    MapEntriesStep(entries[..i + 1], llm, AgentEntry);
  }

  /** `self.configs.get('agents', {})` turned into agents. */
  function AgentsFor(configs: Dict, llm: Llm): (r: Outcome<seq<(string, Agent)>>)
  {
    var section :- Items(GetOr(configs, "agents", VDict([])));
    BuildAgents(section, llm)
  }

  // ---------------------------------------------------------------------------
  // `_format_with_context`

  function Placeholder(key: string): (p: string)
    ensures |p| == |key| + 2
  {
    "{" + key + "}"
  }

  /** The replace loop: each key in insertion order, on the text the earlier keys
      produced. */
  function Substitute(context: Dict, text: string): string
    decreases |context|
  {
    if context == [] then text
    else Substitute(context[1..], Replace(text, Placeholder(context[0].0), PyStr(context[0].1)))
  }

  /** `_format_with_context(text)`: unchanged for an empty context; otherwise only a
      string has `.replace`. */
  function Format(context: Dict, text: Value): (r: Outcome<Value>)
    ensures context == [] ==> r == Ok(text)
    ensures context != [] && !text.VStr? ==> r == Raise(AttributeError)
    ensures text.VStr? ==> r.Ok? && r.value.VStr?
    ensures context != [] && text.VStr? ==> r == Ok(VStr(Substitute(context, text.s)))
  {
    if context == [] then Ok(text)
    else if text.VStr? then Ok(VStr(Substitute(context, text.s)))
    else Raise(AttributeError)
  }

  /** A text holding no placeholder of any context key comes back unchanged. */
  lemma {:induction false} SubstituteWithoutPlaceholders(context: Dict, text: string)
    requires forall i :: 0 <= i < |context| ==> !Occurs(text, Placeholder(context[i].0))
    ensures Substitute(context, text) == text
    decreases |context|
  {
    if context != [] {
      ReplaceAbsent(text, Placeholder(context[0].0), PyStr(context[0].1));
      assert forall i :: 0 <= i < |context| - 1 ==> context[1..][i] == context[i + 1];
      SubstituteWithoutPlaceholders(context[1..], text);
    }
  }

  /** Later keys work on the text the earlier keys produced, so a value that itself
      holds a placeholder is rewritten by a later key. */
  lemma {:induction false} SubstituteInSequence(c1: Dict, c2: Dict, text: string)
    ensures Substitute(c1 + c2, text) == Substitute(c2, Substitute(c1, text))
    decreases |c1|
  {
    if c1 == [] {
      assert c1 + c2 == c2;
    } else {
      assert (c1 + c2)[1..] == c1[1..] + c2;
      SubstituteInSequence(c1[1..], c2, Replace(text, Placeholder(c1[0].0), PyStr(c1[0].1)));
    }
  }

  /** One key: every occurrence of `{key}` becomes `str(value)`. */
  lemma SubstituteOneKey(key: string, value: Value, text: string)
    ensures Substitute([(key, value)], text) == Join(SplitOn(text, Placeholder(key)), PyStr(value))
  {
    ReplaceIsSplitJoin(text, Placeholder(key), PyStr(value));
  }

  /** A placeholder after brace-free text and before text without the placeholder is
      the one substituted. */
  lemma SubstituteSingle(pre: string, key: string, value: Value, post: string)
    requires '{' !in pre && !Occurs(post, Placeholder(key))
    ensures Substitute([(key, value)], pre + Placeholder(key) + post) == pre + PyStr(value) + post
  {
    assert Placeholder(key)[0] == '{';
    ReplaceOnce(pre, Placeholder(key), post, PyStr(value));
    assert [(key, value)][1..] == [];
  }

  /** `'Test {topic}'` with `{'topic': 'AI Ethics'}` gives `'Test AI Ethics'`. */
  lemma TopicExample()
    ensures Format([("topic", VStr("AI Ethics"))], VStr("Test {topic}")) == Ok(VStr("Test AI Ethics"))
  {
    var context := [("topic", VStr("AI Ethics"))];
    var text := "Test {topic}";
    assert "Test " + "AI Ethics" + "" == "Test AI Ethics";
    assert text == "Test " + Placeholder("topic") + "";
    assert PyStr(VStr("AI Ethics")) == "AI Ethics";
    assert Substitute(context, text) == "Test AI Ethics" by {
      assert !Occurs("", Placeholder("topic"));
      SubstituteSingle("Test ", "topic", VStr("AI Ethics"), "");
    }
  }

  // ---------------------------------------------------------------------------
  // `_create_tasks`

  /** One task: its agent must be a built agent (ValueError otherwise); description and
      expected output are formatted with the context; `async_execution` defaults to
      False. */
  function TaskFromConfig(taskId: string, data: Value, agents: seq<(string, Agent)>, context: Dict)
    : (r: Outcome<Task>)
    ensures !data.VDict? ==> r == Raise(AttributeError)
    ensures r.Ok? ==> exists key :: GetOr(data.entries, "agent", VNone) == VStr(key)
                                    && Lookup(agents, key) == Some(r.value.agent)
    ensures data.VDict? && GetEntry(agents, GetOr(data.entries, "agent", VNone)) == Ok(None) ==>
              r == Raise(ValueError("Agent '" + PyStr(GetOr(data.entries, "agent", VNone))
                                    + "' not found for task '" + taskId + "'"))
    ensures r.Ok? ==> Format(context, GetOr(data.entries, "description", VStr(""))) == Ok(r.value.description)
    ensures r.Ok? ==> Format(context, GetOr(data.entries, "expected_output", VStr(""))) == Ok(r.value.expectedOutput)
    ensures r.Ok? && !HasKey(data.entries, "async_execution") ==> r.value.asyncExecution == VBool(false)
    ensures r.Ok? ==> r.value.asyncExecution == GetOr(data.entries, "async_execution", VBool(false))
    ensures r.Ok? <==> data.VDict? && GetOr(data.entries, "agent", VNone).VStr?
                       && HasKey(agents, GetOr(data.entries, "agent", VNone).s)
                       && Format(context, GetOr(data.entries, "description", VStr(""))).Ok?
                       && Format(context, GetOr(data.entries, "expected_output", VStr(""))).Ok?
    ensures data.VDict? && (GetOr(data.entries, "agent", VNone).VList? || GetOr(data.entries, "agent", VNone).VDict?)
            ==> r == Raise(TypeError)
    ensures r.Raise? ==> r.error == AttributeError || r.error == TypeError
                         || r.error == ValueError("Agent '" + PyStr(GetOr(data.entries, "agent", VNone))
                                                  + "' not found for task '" + taskId + "'")
  {
    if !data.VDict? then Raise(AttributeError)
    else
    var agentId := GetOr(data.entries, "agent", VNone);
    var agent :- GetEntry(agents, agentId);
    if agent.None? then Raise(ValueError("Agent '" + PyStr(agentId) + "' not found for task '" + taskId + "'"))
    else
      var description :- Format(context, GetOr(data.entries, "description", VStr("")));
      var expectedOutput :- Format(context, GetOr(data.entries, "expected_output", VStr("")));
      Ok(Task(description, expectedOutput, agent.value, GetOr(data.entries, "async_execution", VBool(false))))
  }

  function TaskEntry(env: (seq<(string, Agent)>, Dict), taskId: string, data: Value): Outcome<Task> {
    TaskFromConfig(taskId, data, env.0, env.1)
  }

  function BuildTasks(entries: Dict, agents: seq<(string, Agent)>, context: Dict): Outcome<seq<(string, Task)>> {
    MapEntries(entries, (agents, context), TaskEntry)
  }

  /** One step of the `_create_tasks` loop. */
  lemma BuildTasksStep(entries: Dict, agents: seq<(string, Agent)>, context: Dict, i: nat)
    requires i < |entries| && BuildTasks(entries[..i], agents, context).Ok?
    ensures var task := TaskFromConfig(entries[i].0, entries[i].1, agents, context);
            BuildTasks(entries[..i + 1], agents, context)
              == if task.Raise? then Raise(task.error)
                 else Ok(Insert(BuildTasks(entries[..i], agents, context).value, entries[i].0, task.value))
  {
    assert entries[..i + 1][..i] == entries[..i];
    MapEntriesStep(entries[..i + 1], (agents, context), TaskEntry);
  }

  function TasksFor(configs: Dict, agents: seq<(string, Agent)>, context: Dict): Outcome<seq<(string, Task)>> {
    var section :- Items(GetOr(configs, "tasks", VDict([])));
    BuildTasks(section, agents, context)
  }

  // ---------------------------------------------------------------------------
  // `_create_crews`

  /** `for id in ids: item = table.get(id); if not item: raise ValueError(...)`. */
  function Resolve<T>(ids: seq<Value>, table: seq<(string, T)>, kind: string, crewId: string)
    : (r: Outcome<seq<T>>)
    ensures r.Ok? <==> forall k :: 0 <= k < |ids| ==> ids[k].VStr? && HasKey(table, ids[k].s)
    ensures r.Ok? ==> |r.value| == |ids|
    ensures r.Ok? ==> forall k :: 0 <= k < |ids| ==> Lookup(table, ids[k].s) == Some(r.value[k])
    decreases |ids|
  {
    if ids == [] then Ok([])
    else
      var init, id := ids[..|ids| - 1], ids[|ids| - 1];
      assert forall k :: 0 <= k < |init| ==> init[k] == ids[k];
      var found :- Resolve(init, table, kind, crewId);
      var item :- GetEntry(table, id);
      if item.None? then Raise(ValueError(kind + " '" + PyStr(id) + "' not found for crew '" + crewId + "'"))
      else Ok(found + [item.value])
  }

  /** Once a prefix of the ids fails, resolving all of them fails with the same exception. */
  lemma {:induction false} ResolveStopsAtFailure<T>(ids: seq<Value>, table: seq<(string, T)>, kind: string,
                                                    crewId: string, j: nat)
    requires j <= |ids| && Resolve(ids[..j], table, kind, crewId).Raise?
    ensures Resolve(ids, table, kind, crewId) == Resolve(ids[..j], table, kind, crewId)
    decreases |ids| - j
  {
    if j < |ids| {
      assert ids[..j + 1][..j] == ids[..j];
      ResolveStopsAtFailure(ids, table, kind, crewId, j + 1);
    } else {
      assert ids[..j] == ids;
    }
  }

  /** The exception for the first id that does not resolve: TypeError for an unhashable
      id, ValueError naming the id and the crew otherwise. */
  lemma {:induction false} ResolveFirstFailure<T>(ids: seq<Value>, table: seq<(string, T)>, kind: string, crewId: string)
    requires Resolve(ids, table, kind, crewId).Raise?
    ensures exists k :: 0 <= k < |ids| && (forall j :: 0 <= j < k ==> ids[j].VStr? && HasKey(table, ids[j].s))
              && Resolve(ids, table, kind, crewId).error
                 == (if ids[k].VList? || ids[k].VDict? then TypeError
                     else ValueError(kind + " '" + PyStr(ids[k]) + "' not found for crew '" + crewId + "'"))
    decreases |ids|
  {
    var init := ids[..|ids| - 1];
    assert forall k :: 0 <= k < |init| ==> init[k] == ids[k];
    if Resolve(init, table, kind, crewId).Raise? {
      ResolveFirstFailure(init, table, kind, crewId);
    } else {
      assert forall j :: 0 <= j < |init| ==> ids[j].VStr? && HasKey(table, ids[j].s);
    }
  }

  /** `crew_data.get('process', 'sequential')`, with a dict reduced to its
      `sequential` entry (True when absent). */
  function ProcessOf(param: Value): Value {
    if param.VDict? then GetOr(param.entries, "sequential", VBool(true)) else param
  }

  /** One crew: its agents and tasks in configuration order, every id resolved;
      `process`, `verbose` and `max_rpm` with their defaults. */
  function CrewFromConfig(crewId: string, data: Value, agents: seq<(string, Agent)>, tasks: seq<(string, Task)>)
    : (r: Outcome<Crew>)
    ensures !data.VDict? ==> r == Raise(AttributeError)
    ensures r.Ok? ==> Iterate(GetOr(data.entries, "agents", VList([]))).Ok?
                      && Resolve(Iterate(GetOr(data.entries, "agents", VList([]))).value, agents, "Agent", crewId)
                         == Ok(r.value.agents)
    ensures r.Ok? ==> Iterate(GetOr(data.entries, "tasks", VList([]))).Ok?
                      && Resolve(Iterate(GetOr(data.entries, "tasks", VList([]))).value, tasks, "Task", crewId)
                         == Ok(r.value.tasks)
    ensures r.Ok? && !HasKey(data.entries, "process") ==> r.value.process == VStr("sequential")
    ensures r.Ok? && GetOr(data.entries, "process", VNone).VDict? ==>
              r.value.process == GetOr(GetOr(data.entries, "process", VNone).entries, "sequential", VBool(true))
    ensures r.Ok? && !HasKey(data.entries, "verbose") ==> r.value.verbose == VBool(true)
    ensures r.Ok? && !HasKey(data.entries, "max_rpm") ==> r.value.maxRpm == VNum("20")
    ensures r.Ok? && HasKey(data.entries, "process") && !GetOr(data.entries, "process", VNone).VDict? ==>
              r.value.process == GetOr(data.entries, "process", VNone)
    ensures r.Ok? ==> r.value.verbose == GetOr(data.entries, "verbose", VBool(true))
                      && r.value.maxRpm == GetOr(data.entries, "max_rpm", VNum("20"))
    ensures data.VDict? ==>
              var agentList := Iterate(GetOr(data.entries, "agents", VList([])));
              var taskList := Iterate(GetOr(data.entries, "tasks", VList([])));
              (agentList.Raise? ==> r == Raise(TypeError))
              && (agentList.Ok? && Resolve(agentList.value, agents, "Agent", crewId).Raise? ==>
                    r == Raise(Resolve(agentList.value, agents, "Agent", crewId).error))
              && (agentList.Ok? && Resolve(agentList.value, agents, "Agent", crewId).Ok? && taskList.Raise? ==>
                    r == Raise(TypeError))
              && ((agentList.Ok? && Resolve(agentList.value, agents, "Agent", crewId).Ok? && taskList.Ok?
                   && Resolve(taskList.value, tasks, "Task", crewId).Raise?) ==>
                    r == Raise(Resolve(taskList.value, tasks, "Task", crewId).error))
              && ((agentList.Ok? && Resolve(agentList.value, agents, "Agent", crewId).Ok? && taskList.Ok?
                   && Resolve(taskList.value, tasks, "Task", crewId).Ok?) ==> r.Ok?)
  {
    if !data.VDict? then Raise(AttributeError)
    else
    var agentList :- Iterate(GetOr(data.entries, "agents", VList([])));
    var crewAgents :- Resolve(agentList, agents, "Agent", crewId);
    var taskList :- Iterate(GetOr(data.entries, "tasks", VList([])));
    var crewTasks :- Resolve(taskList, tasks, "Task", crewId);
    var process := ProcessOf(GetOr(data.entries, "process", VStr("sequential")));
    Ok(Crew(crewAgents, crewTasks, GetOr(data.entries, "verbose", VBool(true)), process,
            GetOr(data.entries, "max_rpm", VNum("20"))))
  }

  function CrewEntry(env: (seq<(string, Agent)>, seq<(string, Task)>), crewId: string, data: Value): Outcome<Crew> {
    CrewFromConfig(crewId, data, env.0, env.1)
  }

  function BuildCrews(entries: Dict, agents: seq<(string, Agent)>, tasks: seq<(string, Task)>)
    : Outcome<seq<(string, Crew)>>
  {
    MapEntries(entries, (agents, tasks), CrewEntry)
  }

  /** One step of the `_create_crews` loop. */
  lemma BuildCrewsStep(entries: Dict, agents: seq<(string, Agent)>, tasks: seq<(string, Task)>, i: nat)
    requires i < |entries| && BuildCrews(entries[..i], agents, tasks).Ok?
    ensures var crew := CrewFromConfig(entries[i].0, entries[i].1, agents, tasks);
            BuildCrews(entries[..i + 1], agents, tasks)
              == if crew.Raise? then Raise(crew.error)
                 else Ok(Insert(BuildCrews(entries[..i], agents, tasks).value, entries[i].0, crew.value))
  {
    assert entries[..i + 1][..i] == entries[..i];
    MapEntriesStep(entries[..i + 1], (agents, tasks), CrewEntry);
  }

  function CrewsFor(configs: Dict, agents: seq<(string, Agent)>, tasks: seq<(string, Task)>)
    : Outcome<seq<(string, Crew)>>
  {
    var section :- Items(GetOr(configs, "crew", VDict([])));
    BuildCrews(section, agents, tasks)
  }

  /** `__init__` after `load_all_configs`: the LLM, then agents, tasks (with the empty
      context) and crews. */
  function Startup(configs: Dict): Outcome<Registry> {
    var llm :- LlmFromConfig(configs);
    Registries(configs, llm)
  }

  /** The registries `__init__` builds once the LLM exists. */
  function Registries(configs: Dict, llm: Llm): Outcome<Registry> {
    var agents :- AgentsFor(configs, llm);
    var tasks :- TasksFor(configs, agents, []);
    var crews :- CrewsFor(configs, agents, tasks);
    Ok(Registry(llm, agents, tasks, crews))
  }

  /** Where start-up stops: the first stage that raises. */
  lemma StartupStages(configs: Dict, llm: Llm, agents: seq<(string, Agent)>, tasks: seq<(string, Task)>)
    ensures LlmFromConfig(configs).Raise? ==> Startup(configs) == Raise(LlmFromConfig(configs).error)
    ensures LlmFromConfig(configs) == Ok(llm) && AgentsFor(configs, llm).Raise? ==>
              Startup(configs) == Raise(AgentsFor(configs, llm).error)
    ensures LlmFromConfig(configs) == Ok(llm) && AgentsFor(configs, llm) == Ok(agents)
            && TasksFor(configs, agents, []).Raise? ==>
              Startup(configs) == Raise(TasksFor(configs, agents, []).error)
    ensures LlmFromConfig(configs) == Ok(llm) && AgentsFor(configs, llm) == Ok(agents)
            && TasksFor(configs, agents, []) == Ok(tasks) && CrewsFor(configs, agents, tasks).Raise? ==>
              Startup(configs) == Raise(CrewsFor(configs, agents, tasks).error)
    ensures LlmFromConfig(configs) == Ok(llm) && AgentsFor(configs, llm) == Ok(agents)
            && TasksFor(configs, agents, []) == Ok(tasks) && CrewsFor(configs, agents, tasks).Ok? ==>
              Startup(configs) == Ok(Registry(llm, agents, tasks, CrewsFor(configs, agents, tasks).value))
  {
  }

  // ---------------------------------------------------------------------------
  // The registries

  /** `_create_agents` builds one agent per entry of the `agents` section, in
      configuration order, each from its own entry. */
  lemma AgentsForEntries(configs: Dict, entries: Dict, llm: Llm)
    requires Lookup(configs, "agents") == Some(VDict(entries)) && DistinctKeys(entries)
    requires AgentsFor(configs, llm).Ok?
    ensures |AgentsFor(configs, llm).value| == |entries|
    ensures forall i :: 0 <= i < |entries| ==>
              AgentsFor(configs, llm).value[i].0 == entries[i].0
              && AgentFromConfig(entries[i].1, llm) == Ok(AgentsFor(configs, llm).value[i].1)
  {
    MapEntriesInOrder(entries, llm, AgentEntry);
  }

  /** `_create_tasks` builds one task per entry of the `tasks` section, in
      configuration order, each from its own entry. */
  lemma TasksForEntries(configs: Dict, entries: Dict, agents: seq<(string, Agent)>, context: Dict)
    requires Lookup(configs, "tasks") == Some(VDict(entries)) && DistinctKeys(entries)
    requires TasksFor(configs, agents, context).Ok?
    ensures |TasksFor(configs, agents, context).value| == |entries|
    ensures forall i :: 0 <= i < |entries| ==>
              TasksFor(configs, agents, context).value[i].0 == entries[i].0
              && TaskFromConfig(entries[i].0, entries[i].1, agents, context)
                 == Ok(TasksFor(configs, agents, context).value[i].1)
  {
    MapEntriesInOrder(entries, (agents, context), TaskEntry);
  }

  /** The first task whose agent id names no built agent stops `_create_tasks` with a
      ValueError naming both ids. */
  lemma TasksForDanglingAgent(configs: Dict, entries: Dict, agents: seq<(string, Agent)>, context: Dict, i: nat)
    requires Lookup(configs, "tasks") == Some(VDict(entries))
    requires i < |entries| && entries[i].1.VDict?
    requires forall j :: 0 <= j < i ==> TaskFromConfig(entries[j].0, entries[j].1, agents, context).Ok?
    requires GetEntry(agents, GetOr(entries[i].1.entries, "agent", VNone)) == Ok(None)
    ensures TasksFor(configs, agents, context)
              == Raise(ValueError("Agent '" + PyStr(GetOr(entries[i].1.entries, "agent", VNone))
                                  + "' not found for task '" + entries[i].0 + "'"))
  {
    MapEntriesFailsAt(entries, (agents, context), TaskEntry, i);
  }

  /** `_create_crews` builds one crew per entry of the `crew` section, in
      configuration order, each from its own entry. */
  lemma CrewsForEntries(configs: Dict, entries: Dict, agents: seq<(string, Agent)>, tasks: seq<(string, Task)>)
    requires Lookup(configs, "crew") == Some(VDict(entries)) && DistinctKeys(entries)
    requires CrewsFor(configs, agents, tasks).Ok?
    ensures |CrewsFor(configs, agents, tasks).value| == |entries|
    ensures forall i :: 0 <= i < |entries| ==>
              CrewsFor(configs, agents, tasks).value[i].0 == entries[i].0
              && CrewFromConfig(entries[i].0, entries[i].1, agents, tasks)
                 == Ok(CrewsFor(configs, agents, tasks).value[i].1)
  {
    MapEntriesInOrder(entries, (agents, tasks), CrewEntry);
  }

  /** At start-up the context is empty, so every task keeps its configured
      description and expected output, placeholders included. */
  lemma StartupKeepsTemplates(configs: Dict, entries: Dict)
    requires Lookup(configs, "tasks") == Some(VDict(entries)) && DistinctKeys(entries)
    requires Startup(configs).Ok?
    ensures |Startup(configs).value.tasks| == |entries|
    ensures forall i :: 0 <= i < |entries| ==>
              entries[i].1.VDict?
              && Startup(configs).value.tasks[i].1.description
                 == GetOr(entries[i].1.entries, "description", VStr(""))
              && Startup(configs).value.tasks[i].1.expectedOutput
                 == GetOr(entries[i].1.entries, "expected_output", VStr(""))
  {
    var llm := LlmFromConfig(configs).value;
    var agents := AgentsFor(configs, llm).value;
    var tasks := StartupTasks(configs);
    TasksForEntries(configs, entries, agents, []);
    forall i | 0 <= i < |entries|
      ensures entries[i].1.VDict?
      ensures tasks[i].1.description == GetOr(entries[i].1.entries, "description", VStr(""))
      ensures tasks[i].1.expectedOutput == GetOr(entries[i].1.entries, "expected_output", VStr(""))
    {
      var r := TaskFromConfig(entries[i].0, entries[i].1, agents, []);
      assert r == Ok(tasks[i].1);
    }
  }

  /** The tasks that start-up registers: built with the empty context. */
  lemma StartupTasks(configs: Dict) returns (tasks: seq<(string, Task)>)
    requires Startup(configs).Ok?
    ensures LlmFromConfig(configs).Ok? && AgentsFor(configs, LlmFromConfig(configs).value).Ok?
    ensures TasksFor(configs, AgentsFor(configs, LlmFromConfig(configs).value).value, []) == Ok(tasks)
    ensures Startup(configs).value.tasks == tasks
  {
    tasks := TasksFor(configs, AgentsFor(configs, LlmFromConfig(configs).value).value, []).value;
  }

  // ---------------------------------------------------------------------------
  // The manager

  class AgentManager {
    var configs: Dict
    var llm: Llm
    var agents: seq<(string, Agent)>
    var tasks: seq<(string, Task)>
    var crews: seq<(string, Crew)>
    var context: Dict

    function State(): Registry
      reads this
    {
      Registry(llm, agents, tasks, crews)
    }

    constructor(configs: Dict, llm: Llm)
      ensures this.configs == configs && this.llm == llm
      ensures agents == [] && tasks == [] && crews == [] && context == []
    {
      this.configs := configs;
      this.llm := llm;
      agents := [];
      tasks := [];
      crews := [];
      context := [];
    }

    /** `AgentManager(config_dir)` given the loaded configurations. */
    static method Create(configs: Dict) returns (r: Outcome<AgentManager>)
      ensures Startup(configs).Raise? ==> r == Raise(Startup(configs).error)
      ensures Startup(configs).Ok? ==>
                r.Ok? && fresh(r.value) && r.value.State() == Startup(configs).value
                && r.value.configs == configs && r.value.context == []
    {
      var llm := LlmFromConfig(configs);
      if llm.Raise? {
        return Raise(llm.error);
      }
      var m := new AgentManager(configs, llm.value);
      var built := m.Initialize();
      if built.Raise? {
        return Raise(built.error);
      }
      return Ok(m);
    }

    /** `_initialize`: agents, then tasks with the (empty) context, then crews,
        each stored as soon as it is built. */
    method Initialize() returns (r: Outcome<()>)
      requires context == []
      modifies this
      ensures configs == old(configs) && llm == old(llm) && context == old(context)
      ensures Registries(configs, llm).Raise? ==> r == Raise(Registries(configs, llm).error)
      ensures Registries(configs, llm).Ok? ==> r == Ok(()) && State() == Registries(configs, llm).value
    {
      var agents := CreateAgents();
      if agents.Raise? {
        return Raise(agents.error);
      }
      this.agents := agents.value;
      var tasks := CreateTasks();
      if tasks.Raise? {
        return Raise(tasks.error);
      }
      this.tasks := tasks.value;
      var crews := CreateCrews();
      if crews.Raise? {
        return Raise(crews.error);
      }
      this.crews := crews.value;
      return Ok(());
    }

    /** `_create_agents`. */
    method CreateAgents() returns (r: Outcome<seq<(string, Agent)>>)
      ensures r == AgentsFor(configs, llm)
    {
      var section := GetOr(configs, "agents", VDict([]));
      if !section.VDict? {
        return Raise(AttributeError);
      }
      var entries := section.entries;
      var built: seq<(string, Agent)> := [];
      for i := 0 to |entries|
        invariant BuildAgents(entries[..i], llm) == Ok(built)
      {
        var agent := AgentFromConfig(entries[i].1, llm);
        BuildAgentsStep(entries, llm, i);
        if agent.Raise? {
          MapEntriesStopsAtFailure(entries, llm, AgentEntry, i + 1);
          return Raise(agent.error);
        }
        built := Insert(built, entries[i].0, agent.value);
      }
      assert entries[..|entries|] == entries;
      return Ok(built);
    }

    /** `_format_with_context`. */
    method FormatWithContext(text: Value) returns (r: Outcome<Value>)
      ensures r == Format(context, text)
    {
      if context == [] {
        return Ok(text);
      }
      if !text.VStr? {
        return Raise(AttributeError);
      }
      var t := text.s;
      for i := 0 to |context|
        invariant Substitute(context[i..], t) == Substitute(context, text.s)
      {
        assert context[i..][1..] == context[i + 1..];
        t := Replace(t, Placeholder(context[i].0), PyStr(context[i].1));
      }
      return Ok(VStr(t));
    }

    /** `_create_tasks`. */
    method CreateTasks() returns (r: Outcome<seq<(string, Task)>>)
      ensures r == TasksFor(configs, agents, context)
    {
      var section := GetOr(configs, "tasks", VDict([]));
      if !section.VDict? {
        return Raise(AttributeError);
      }
      var entries := section.entries;
      var built: seq<(string, Task)> := [];
      for i := 0 to |entries|
        invariant BuildTasks(entries[..i], agents, context) == Ok(built)
      {
        var task := CreateTask(entries[i].0, entries[i].1);
        BuildTasksStep(entries, agents, context, i);
        if task.Raise? {
          MapEntriesStopsAtFailure(entries, (agents, context), TaskEntry, i + 1);
          return Raise(task.error);
        }
        built := Insert(built, entries[i].0, task.value);
      }
      assert entries[..|entries|] == entries;
      return Ok(built);
    }

    /** The body of the `_create_tasks` loop. */
    method CreateTask(taskId: string, data: Value) returns (r: Outcome<Task>)
      ensures r == TaskFromConfig(taskId, data, agents, context)
    {
      if !data.VDict? {
        return Raise(AttributeError);
      }
      var agentId := GetOr(data.entries, "agent", VNone);
      var agent := GetEntry(agents, agentId);
      if agent.Raise? {
        return Raise(agent.error);
      }
      if agent.value.None? {
        return Raise(ValueError("Agent '" + PyStr(agentId) + "' not found for task '" + taskId + "'"));
      }
      var description := FormatWithContext(GetOr(data.entries, "description", VStr("")));
      if description.Raise? {
        return Raise(description.error);
      }
      var expectedOutput := FormatWithContext(GetOr(data.entries, "expected_output", VStr("")));
      if expectedOutput.Raise? {
        return Raise(expectedOutput.error);
      }
      return Ok(Task(description.value, expectedOutput.value, agent.value.value,
                     GetOr(data.entries, "async_execution", VBool(false))));
    }

    /** The id loops of `_create_crews`. */
    static method ResolveIds<T>(ids: seq<Value>, table: seq<(string, T)>, kind: string, crewId: string)
      returns (r: Outcome<seq<T>>)
      ensures r == Resolve(ids, table, kind, crewId)
    {
      var found: seq<T> := [];
      for i := 0 to |ids|
        invariant Resolve(ids[..i], table, kind, crewId) == Ok(found)
      {
        assert ids[..i + 1][..i] == ids[..i];
        var item := GetEntry(table, ids[i]);
        if item.Raise? {
          ResolveStopsAtFailure(ids, table, kind, crewId, i + 1);
          return Raise(item.error);
        }
        if item.value.None? {
          ResolveStopsAtFailure(ids, table, kind, crewId, i + 1);
          return Raise(ValueError(kind + " '" + PyStr(ids[i]) + "' not found for crew '" + crewId + "'"));
        }
        found := found + [item.value.value];
      }
      assert ids[..|ids|] == ids;
      return Ok(found);
    }

    /** The body of the `_create_crews` loop. */
    method CreateCrew(crewId: string, data: Value) returns (r: Outcome<Crew>)
      ensures r == CrewFromConfig(crewId, data, agents, tasks)
    {
      if !data.VDict? {
        return Raise(AttributeError);
      }
      var agentIds := Iterate(GetOr(data.entries, "agents", VList([])));
      if agentIds.Raise? {
        return Raise(agentIds.error);
      }
      var crewAgents := ResolveIds(agentIds.value, agents, "Agent", crewId);
      if crewAgents.Raise? {
        return Raise(crewAgents.error);
      }
      var taskIds := Iterate(GetOr(data.entries, "tasks", VList([])));
      if taskIds.Raise? {
        return Raise(taskIds.error);
      }
      var crewTasks := ResolveIds(taskIds.value, tasks, "Task", crewId);
      if crewTasks.Raise? {
        return Raise(crewTasks.error);
      }
      var processParam := GetOr(data.entries, "process", VStr("sequential"));
      var process := if processParam.VDict? then GetOr(processParam.entries, "sequential", VBool(true))
                     else processParam;
      return Ok(Crew(crewAgents.value, crewTasks.value, GetOr(data.entries, "verbose", VBool(true)), process,
                     GetOr(data.entries, "max_rpm", VNum("20"))));
    }

    /** `_create_crews`. */
    method CreateCrews() returns (r: Outcome<seq<(string, Crew)>>)
      ensures r == CrewsFor(configs, agents, tasks)
    {
      var section := GetOr(configs, "crew", VDict([]));
      if !section.VDict? {
        return Raise(AttributeError);
      }
      var entries := section.entries;
      var built: seq<(string, Crew)> := [];
      for i := 0 to |entries|
        invariant BuildCrews(entries[..i], agents, tasks) == Ok(built)
      {
        var crew := CreateCrew(entries[i].0, entries[i].1);
        BuildCrewsStep(entries, agents, tasks, i);
        if crew.Raise? {
          MapEntriesStopsAtFailure(entries, (agents, tasks), CrewEntry, i + 1);
          return Raise(crew.error);
        }
        built := Insert(built, entries[i].0, crew.value);
      }
      assert entries[..|entries|] == entries;
      return Ok(built);
    }

    /** `get_crew`. */
    function GetCrew(crewId: string): (r: Option<Crew>)
      reads this
      ensures r.Some? <==> HasKey(crews, crewId)
      ensures r.Some? <==> exists i :: 0 <= i < |crews| && crews[i].0 == crewId
      ensures r.Some? ==> exists i :: 0 <= i < |crews| && crews[i] == (crewId, r.value)
    {
      Lookup(crews, crewId)
    }

    /** `update_task_context`: the context is replaced, not merged, and tasks and crews
        are rebuilt from the configuration with it; an exception leaves the fields
        assigned so far. */
    method UpdateTaskContext(newContext: Dict) returns (r: Outcome<()>)
      modifies this
      ensures context == newContext
      ensures configs == old(configs) && llm == old(llm) && agents == old(agents)
      ensures TasksFor(configs, agents, newContext).Raise? ==>
                r == Raise(TasksFor(configs, agents, newContext).error) && tasks == old(tasks) && crews == old(crews)
      ensures TasksFor(configs, agents, newContext).Ok? ==> tasks == TasksFor(configs, agents, newContext).value
      ensures TasksFor(configs, agents, newContext).Ok? && CrewsFor(configs, agents, tasks).Raise? ==>
                r == Raise(CrewsFor(configs, agents, tasks).error) && crews == old(crews)
      ensures TasksFor(configs, agents, newContext).Ok? && CrewsFor(configs, agents, tasks).Ok? ==>
                r == Ok(()) && crews == CrewsFor(configs, agents, tasks).value
      ensures r.Ok? ==> TasksFor(configs, agents, newContext).Ok? && CrewsFor(configs, agents, tasks).Ok?
    {
      context := newContext;
      var newTasks := CreateTasks();
      if newTasks.Raise? {
        return Raise(newTasks.error);
      }
      tasks := newTasks.value;
      var newCrews := CreateCrews();
      if newCrews.Raise? {
        return Raise(newCrews.error);
      }
      crews := newCrews.value;
      return Ok(());
    }

    /** `run_crew`: ValueError for an unknown crew id, otherwise what the crew's
        kickoff returns. */
    method RunCrew(crewId: string, kickoff: Crew -> Value) returns (r: Outcome<Value>)
      ensures GetCrew(crewId).None? ==> r == Raise(ValueError("Crew '" + crewId + "' not found"))
      ensures GetCrew(crewId).Some? ==> r == Ok(kickoff(GetCrew(crewId).value))
    {
      var crew := GetCrew(crewId);
      if crew.None? {
        return Raise(ValueError("Crew '" + crewId + "' not found"));
      }
      return Ok(kickoff(crew.value));
    }
  }
}

=== FILE: base.dfy ===
/** Small building blocks shared by every module: optional values, Python-style
    exceptions as a failure-compatible outcome, and the two searches that the
    hand-coded regular expressions are built from. */
module Base {

  datatype Option<+T> = None | Some(value: T)

  /** The Python exceptions that the modelled code lets escape. */
  datatype Error =
    | TypeError            // an operand of the wrong type (`re.search` on a dict, `**` of a list, ...)
    | AttributeError       // `.get`, `.items` or `.replace` on a value that has no such method
    | ValueError(message: string)

  /** Either the value a Python call returns or the exception it raises. */
  datatype Outcome<+T> = Ok(value: T) | Raise(error: Error) {
    predicate IsFailure() { Raise? }
    function PropagateFailure<U>(): Outcome<U> requires Raise? { Raise(error) }
    function Extract(): T requires Ok? { value }
  }

  /** The least index in [lo, hi) where P holds, if any: the position at which
      `re.search` reports a match when P says "the pattern matches here". */
  function FirstWhere(P: nat -> bool, lo: nat, hi: nat): (r: Option<nat>)
    requires lo <= hi
    ensures r.Some? ==> lo <= r.value < hi && P(r.value)
    ensures r.Some? ==> forall k :: lo <= k < r.value ==> !P(k)
    ensures r.None? ==> forall k :: lo <= k < hi ==> !P(k)
    decreases hi - lo
  {
    if lo == hi then None
    else if P(lo) then Some(lo)
    else FirstWhere(P, lo + 1, hi)
  }

  /** The least index k in [lo, hi] where `stop` holds, knowing that it holds at hi:
      where a lazy `(.*?)` that starts at lo stops. */
  function ScanTo(stop: nat -> bool, lo: nat, hi: nat): (k: nat)
    requires lo <= hi && stop(hi)
    ensures lo <= k <= hi && stop(k)
    ensures forall j :: lo <= j < k ==> !stop(j)
    decreases hi - lo
  {
    if stop(lo) then lo else ScanTo(stop, lo + 1, hi)
  }
}

=== FILE: config_loader.dfy ===
/** The configuration loader: `${NAME}` substitution throughout a parsed YAML
    document, and the loop that turns a directory listing into the configuration
    registry. The directory listing, the parsed documents and `os.environ` are
    parameters. */
module ConfigLoader {
  import opened Base
  import opened Text
  import opened Values

  /** `os.environ`. */
  type Env = map<string, string>

  // ---------------------------------------------------------------------------
  // The pattern `\$\{([^}]+)\}`

  /** The first `}` at or after i, or the end of the text. */
  function CloseBrace(s: string, i: nat): (k: nat)
    requires i <= |s|
    ensures i <= k <= |s|
    ensures k < |s| ==> s[k] == '}'
    ensures forall j :: i <= j < k ==> s[j] != '}'
    decreases |s| - i
  {
    if i == |s| || s[i] == '}' then i else CloseBrace(s, i + 1)
  }

  /** The pattern tried at p: `${`, a non-empty run without `}` (greedy, so it runs
      to the first `}`), then `}`. The result is the index of that closing brace. */
  function RefAt(s: string, p: nat): (e: Option<nat>)
    requires p <= |s|
    ensures e.Some? ==> p + 2 < e.value < |s| && HasAt(s, p, "${") && s[e.value] == '}'
    ensures e.Some? ==> forall j :: p + 2 <= j < e.value ==> s[j] != '}'
  {
    if HasAt(s, p, "${") then
      var k := CloseBrace(s, p + 2);
      if p + 2 < k < |s| then Some(k) else None
    else None
  }

  /** The pattern matches somewhere in s. */
  predicate HasRef(s: string) {
    exists p :: 0 <= p <= |s| && RefAt(s, p).Some?
  }

  /** `re.findall(pattern, s[from:])`: the group of each match, left to right; after a
      match the scan resumes behind it. */
  function FindRefs(s: string, from: nat): (names: seq<string>)
    requires from <= |s|
    ensures forall i :: 0 <= i < |names| ==> |names[i]| > 0 && '}' !in names[i]
    decreases |s| - from
  {
    if from == |s| then []
    else
      match RefAt(s, from)
      case Some(k) => [s[from + 2..k]] + FindRefs(s, k + 1)
      case None => FindRefs(s, from + 1)
  }

  /** Positions where the pattern does not match are passed over. */
  lemma {:induction false} FindRefsSkip(s: string, from: nat, q: nat)
    requires from <= q <= |s|
    requires forall p :: from <= p < q ==> RefAt(s, p).None?
    ensures FindRefs(s, from) == FindRefs(s, q)
    decreases q - from
  {
    if from < q {
      FindRefsSkip(s, from + 1, q);
    }
  }

  /** `findall` finds nothing exactly when the pattern matches nowhere. */
  lemma {:induction false} FindRefsEmpty(s: string, from: nat)
    requires from <= |s|
    ensures FindRefs(s, from) == [] <==> forall p :: from <= p <= |s| ==> RefAt(s, p).None?
    decreases |s| - from
  {
    if from < |s| {
      FindRefsEmpty(s, from + 1);
    }
  }

  /** The characters of `${name}` written at p. */
  lemma ReferenceChars(s: string, p: nat, name: string)
    requires p + |name| + 3 <= |s| && s[p..p + |name| + 3] == "${" + name + "}"
    ensures s[p] == '$' && s[p + 1] == '{' && s[p + 2 + |name|] == '}'
    ensures forall j :: 0 <= j < |name| ==> s[p + 2 + j] == name[j]
  {
    var w := s[p..p + |name| + 3];
    assert s[p] == w[0] && s[p + 1] == w[1] && s[p + 2 + |name|] == w[|name| + 2];
    forall j | 0 <= j < |name|
      ensures s[p + 2 + j] == name[j]
    {
      assert s[p + 2 + j] == w[j + 2];
    }
  }

  /** Where the text at p reads `${name}`, the pattern matches there with group name. */
  lemma RefAtReference(s: string, p: nat, name: string)
    requires |name| > 0 && '}' !in name
    requires p + |name| + 3 <= |s| && s[p..p + |name| + 3] == "${" + name + "}"
    ensures RefAt(s, p) == Some(p + 2 + |name|)
    ensures s[p + 2..p + 2 + |name|] == name
  {
    ReferenceChars(s, p, name);
    assert s[p..p + 2] == "${";
    forall j | p + 2 <= j < p + 2 + |name|
      ensures s[j] != '}'
    {
      assert s[j] == name[j - p - 2];
    }
    CloseBraceAt(s, p + 2, p + 2 + |name|);
    assert s[p + 2..p + 2 + |name|] == name;
  }

  lemma {:induction false} CloseBraceAt(s: string, i: nat, k: nat)
    requires i <= k < |s| && s[k] == '}'
    requires forall j :: i <= j < k ==> s[j] != '}'
    ensures CloseBrace(s, i) == k
    decreases k - i
  {
    if i < k {
      CloseBraceAt(s, i + 1, k);
    }
  }

  // ---------------------------------------------------------------------------
  // `_process_env_vars`

  /** The reference `${name}`. */
  function Reference(name: string): (r: string)
    ensures |r| == |name| + 3 && r[0] == '$'
  {
    "${" + name + "}"
  }

  /** The replace loop: for each found name that is set, every occurrence of
      `${name}` in the text built so far becomes its value. */
  function ReplaceRefs(text: string, names: seq<string>, env: Env): string
    decreases |names|
  {
    if names == [] then text
    else
      var next := if names[0] in env then Replace(text, Reference(names[0]), env[names[0]]) else text;
      ReplaceRefs(next, names[1..], env)
  }

  /** The string case: unchanged when the pattern finds nothing, else the loop. */
  function ExpandRefs(s: string, env: Env): string {
    var names := FindRefs(s, 0);
    if names == [] then s else ReplaceRefs(s, names, env)
  }

  /** `_process_env_vars(config)`: dicts keep their keys and order, lists their length
      and order, strings are expanded and every other value is returned as is. */
  function ProcessEnvVars(v: Value, env: Env): (r: Value)
    ensures v.VDict? ==> r.VDict? && Keys(r.entries) == Keys(v.entries)
    ensures v.VList? ==> r.VList? && |r.items| == |v.items|
    ensures v.VStr? ==> r == VStr(ExpandRefs(v.s, env))
    ensures !(v.VDict? || v.VList? || v.VStr?) ==> r == v
    decreases v
  {
    match v
    case VDict(es) => VDict(seq(|es|, i requires 0 <= i < |es| => (es[i].0, ProcessEnvVars(es[i].1, env))))
    case VList(xs) => VList(seq(|xs|, i requires 0 <= i < |xs| => ProcessEnvVars(xs[i], env)))
    case VStr(s) => VStr(ExpandRefs(s, env))
    case _ => v
  }

  /** Each item of a list, and each value of a dict, is processed on its own. */
  lemma ProcessEnvVarsPointwise(v: Value, env: Env)
    ensures v.VList? ==> forall i :: 0 <= i < |v.items| ==>
                           ProcessEnvVars(v, env).items[i] == ProcessEnvVars(v.items[i], env)
    ensures v.VDict? ==> forall i :: 0 <= i < |v.entries| ==>
                           ProcessEnvVars(v, env).entries[i] == (v.entries[i].0, ProcessEnvVars(v.entries[i].1, env))
  {
  }

  /** The loop changes nothing when none of the names is set. */
  lemma {:induction false} ReplaceRefsUnset(text: string, names: seq<string>, env: Env)
    requires forall i :: 0 <= i < |names| ==> names[i] !in env
    ensures ReplaceRefs(text, names, env) == text
    decreases |names|
  {
    if names != [] {
      ReplaceRefsUnset(text, names[1..], env);
    }
  }

  /** A text in which the pattern matches nowhere comes back unchanged. */
  lemma NoReferenceUnchanged(s: string, env: Env)
    requires !HasRef(s)
    ensures ExpandRefs(s, env) == s
  {
    FindRefsEmpty(s, 0);
  }

  /** In particular, a text without `${` comes back unchanged. */
  lemma NoDollarBraceUnchanged(s: string, env: Env)
    requires !Occurs(s, "${")
    ensures ExpandRefs(s, env) == s
  {
    assert forall p :: 0 <= p <= |s| ==> !HasAt(s, p, "${");
    NoReferenceUnchanged(s, env);
  }

  /** References to unset variables are left literally in place. */
  lemma UnsetNamesLeftInPlace(s: string, env: Env)
    requires forall i :: 0 <= i < |FindRefs(s, 0)| ==> FindRefs(s, 0)[i] !in env
    ensures ExpandRefs(s, env) == s
  {
    ReplaceRefsUnset(s, FindRefs(s, 0), env);
  }

  /** A text without `$` holds no reference. */
  lemma NoReferenceWithoutDollar(s: string, name: string)
    requires '$' !in s
    ensures !Occurs(s, Reference(name))
  {
    forall k | 0 <= k < |s|
      ensures !HasAt(s, k, Reference(name))
    {
      if k + |name| + 3 <= |s| {
        assert s[k..k + |name| + 3][0] == s[k];
      }
    }
  }

  /** `findall` passes over a stretch without `$`. */
  lemma NoDollarSkipped(s: string, lo: nat, hi: nat)
    requires lo <= hi <= |s|
    requires '$' !in s[lo..hi]
    ensures FindRefs(s, lo) == FindRefs(s, hi)
  {
    forall p | lo <= p < hi
      ensures RefAt(s, p).None?
    {
      assert s[lo..hi][p - lo] == s[p];
      if p + 2 <= |s| {
        assert s[p..p + 2][0] == s[p];
      }
    }
    FindRefsSkip(s, lo, hi);
  }

  /** A reference `${name}` at q contributes its name, and the scan resumes behind it. */
  lemma FindRefsAtMatch(s: string, q: nat, name: string)
    requires |name| > 0 && '}' !in name
    requires q + |name| + 3 <= |s| && s[q..q + |name| + 3] == "${" + name + "}"
    ensures FindRefs(s, q) == [name] + FindRefs(s, q + 3 + |name|)
  {
    RefAtReference(s, q, name);
  }

  /** A reference written after `pre` is matched there. */
  lemma FindRefsAtReference(pre: string, name: string, post: string)
    requires |name| > 0 && '}' !in name
    ensures FindRefs(pre + Reference(name) + post, |pre|)
              == [name] + FindRefs(pre + Reference(name) + post, |pre| + 3 + |name|)
  {
    var s := pre + Reference(name) + post;
    assert s[|pre|..|pre| + |name| + 3] == "${" + name + "}";
    FindRefsAtMatch(s, |pre|, name);
  }

  /** `findall` reports the name of a single reference in a text with no other `$`. */
  lemma SingleReferenceFound(pre: string, name: string, post: string)
    requires |name| > 0 && '}' !in name
    requires '$' !in pre && '$' !in post
    ensures FindRefs(pre + Reference(name) + post, 0) == [name]
  {
    var a := pre + Reference(name);
    var s := a + post;
    var q, e := |pre|, |a|;
    assert e == q + 3 + |name|;
    assert FindRefs(s, 0) == FindRefs(s, q) by {
      assert s[0..q] == pre;
      NoDollarSkipped(s, 0, q);
    }
    FindRefsAtReference(pre, name, post);
    assert FindRefs(s, e) == [] by {
      assert s[e..|s|] == post;
      NoDollarSkipped(s, e, |s|);
    }
  }

  /** Replacing the single reference puts the value in its place. */
  lemma ReplaceSingleReference(pre: string, name: string, post: string, repl: string)
    requires '$' !in pre && '$' !in post
    ensures Replace(pre + Reference(name) + post, Reference(name), repl) == pre + repl + post
  {
    NoReferenceWithoutDollar(post, name);
    ReplaceOnce(pre, Reference(name), post, repl);
  }

  /** A single reference in a text that has no other `$`: `findall` reports its name,
      and the name's value takes its place when the variable is set. */
  lemma SingleReferenceExpands(pre: string, name: string, post: string, env: Env)
    requires |name| > 0 && '}' !in name
    requires '$' !in pre && '$' !in post
    ensures FindRefs(pre + Reference(name) + post, 0) == [name]
    ensures name in env ==> ExpandRefs(pre + Reference(name) + post, env) == pre + env[name] + post
    ensures name !in env ==> ExpandRefs(pre + Reference(name) + post, env) == pre + Reference(name) + post
  {
    var s := pre + Reference(name) + post;
    SingleReferenceFound(pre, name, post);
    assert ExpandRefs(s, env) == ReplaceRefs(s, [name], env);
    assert [name][1..] == [];
    if name in env {
      ReplaceSingleReference(pre, name, post, env[name]);
      assert ReplaceRefs(s, [name], env) == ReplaceRefs(pre + env[name] + post, [], env);
    } else {
      assert ReplaceRefs(s, [name], env) == ReplaceRefs(s, [], env);
    }
  }

  /** With an empty environment a configuration comes back unchanged. */
  lemma {:induction false} EmptyEnvUnchanged(v: Value)
    ensures ProcessEnvVars(v, map[]) == v
    decreases v
  {
    match v
    case VDict(es) =>
      forall i | 0 <= i < |es|
        ensures ProcessEnvVars(es[i].1, map[]) == es[i].1
      {
        EmptyEnvUnchanged(es[i].1);
      }
      assert ProcessEnvVars(v, map[]).entries == es;
    case VList(xs) =>
      forall i | 0 <= i < |xs|
        ensures ProcessEnvVars(xs[i], map[]) == xs[i]
      {
        EmptyEnvUnchanged(xs[i]);
      }
      assert ProcessEnvVars(v, map[]).items == xs;
    case VStr(s) =>
      ReplaceRefsUnset(s, FindRefs(s, 0), map[]);
    case _ =>
  }

  /** The string loop as the source writes it. */
  method ExpandString(s: string, env: Env) returns (result: string)
    ensures result == ExpandRefs(s, env)
  {
    var matches := FindRefs(s, 0);
    if matches == [] {
      return s;
    }
    result := s;
    for i := 0 to |matches|
      invariant ReplaceRefs(result, matches[i..], env) == ReplaceRefs(s, matches, env)
    {
      assert matches[i..][1..] == matches[i + 1..];
      var m := matches[i];
      if m in env {
        result := Replace(result, Reference(m), env[m]);
      }
    }
  }

  // ---------------------------------------------------------------------------
  // `load_all_configs`

  /** `file_name.endswith('.yml') or file_name.endswith('.yaml')`. */
  predicate IsYamlName(fileName: string) {
    EndsWith(fileName, ".yml") || EndsWith(fileName, ".yaml")
  }

  /** The index of the last `.`, if any. */
  function LastDot(s: string): (r: Option<nat>)
    ensures r.Some? ==> r.value < |s| && s[r.value] == '.'
    ensures r.Some? ==> forall k :: r.value < k < |s| ==> s[k] != '.'
    ensures r.None? ==> forall k :: 0 <= k < |s| ==> s[k] != '.'
    decreases |s|
  {
    if s == [] then None
    else if s[|s| - 1] == '.' then Some(|s| - 1)
    else LastDot(s[..|s| - 1])
  }

  /** `os.path.splitext(file_name)[0]` for a name without a directory part: the text
      before the last dot, unless only dots precede it (a leading-dot name keeps its
      whole text). */
  function ConfigName(fileName: string): (name: string)
    ensures |name| <= |fileName|
  {
    match LastDot(fileName)
    case None => fileName
    case Some(d) =>
      if exists k :: 0 <= k < d && fileName[k] != '.' then fileName[..d] else fileName
  }

  /** A `.yml` or `.yaml` file is named by its stem, when the stem is not only dots. */
  lemma ConfigNameDropsExtension(stem: string, ext: string)
    requires ext == ".yml" || ext == ".yaml"
    requires exists k :: 0 <= k < |stem| && stem[k] != '.'
    ensures IsYamlName(stem + ext)
    ensures ConfigName(stem + ext) == stem
  {
    var f := stem + ext;
    assert f[|f| - |ext|..] == ext;
    assert LastDot(f) == Some(|stem|) by {
      LastDotAt(f, |stem|);
    }
    var k :| 0 <= k < |stem| && stem[k] != '.';
    assert f[k] != '.';
    assert f[..|stem|] == stem;
  }

  /** The last dot is found where it is. */
  lemma {:induction false} LastDotAt(s: string, d: nat)
    requires d < |s| && s[d] == '.'
    requires forall k :: d < k < |s| ==> s[k] != '.'
    ensures LastDot(s) == Some(d)
    decreases |s|
  {
    if d < |s| - 1 {
      var init := s[..|s| - 1];
      assert init[d] == '.';
      LastDotAt(init, d);
    }
  }

  /** `name in data` and `data[name]` on what `yaml.safe_load` returned: a dict
      holding the name gives that entry; a list or string holding it cannot be
      indexed by a string, and `in` on None or a scalar raises; otherwise the whole
      document. */
  function Unwrap(name: string, data: Value): (r: Outcome<Value>)
    ensures r.Raise? ==> r.error == TypeError
    ensures data.VDict? ==> r.Ok?
    ensures data.VDict? && HasKey(data.entries, name) ==> r == Ok(Lookup(data.entries, name).value)
    ensures r.Ok? && r.value != data ==> data.VDict? && HasKey(data.entries, name)
    ensures !(data.VDict? || data.VList? || data.VStr?) ==> r == Raise(TypeError)
    ensures data.VList? ==> (r.Raise? <==> VStr(name) in data.items)
    ensures data.VStr? ==> (r.Raise? <==> name == [] || Occurs(data.s, name))
  {
    match data
    case VDict(d) =>
      (match Lookup(d, name)
       case Some(v) => Ok(v)
       case None => Ok(data))
    case VList(xs) => if VStr(name) in xs then Raise(TypeError) else Ok(data)
    case VStr(s) => if |name| == 0 || Find(s, name).Some? then Raise(TypeError) else Ok(data)
    case _ => Raise(TypeError)
  }

  /** What one YAML file contributes: its document with the variables expanded,
      unwrapped under its config name. */
  function FileEntry(f: string, documents: string -> Value, env: Env): (r: Outcome<Value>)
    ensures r.Raise? ==> r.error == TypeError
    ensures documents(f).VDict? ==> r.Ok?
  {
    Unwrap(ConfigName(f), ProcessEnvVars(documents(f), env))
  }

  /** The loop over the directory listing: for each YAML file, its document with the
      variables expanded, unwrapped and stored under the config name; a later file
      with the same name overwrites. `documents(f)` is `yaml.safe_load` of file f. */
  function LoadedConfigs(fileNames: seq<string>, documents: string -> Value, env: Env): Outcome<Dict>
    decreases |fileNames|
  {
    if fileNames == [] then Ok([])
    else
      var configs :- LoadedConfigs(fileNames[..|fileNames| - 1], documents, env);
      var f := fileNames[|fileNames| - 1];
      if !IsYamlName(f) then Ok(configs)
      else
        var entry :- FileEntry(f, documents, env);
        Ok(Insert(configs, ConfigName(f), entry))
  }

  /** A failure of the listing without its last file is the failure of the whole. */
  lemma LoadedConfigsRaiseCarries(fileNames: seq<string>, documents: string -> Value, env: Env)
    requires fileNames != [] && LoadedConfigs(fileNames[..|fileNames| - 1], documents, env).Raise?
    ensures LoadedConfigs(fileNames, documents, env) == LoadedConfigs(fileNames[..|fileNames| - 1], documents, env)
  {
  }

  /** Once a prefix of the listing fails, the whole load fails with the same exception. */
  lemma {:induction false} LoadedConfigsStopsAtFailure(fileNames: seq<string>, documents: string -> Value,
                                                       env: Env, j: nat)
    requires j <= |fileNames| && LoadedConfigs(fileNames[..j], documents, env).Raise?
    ensures LoadedConfigs(fileNames, documents, env) == LoadedConfigs(fileNames[..j], documents, env)
    decreases |fileNames| - j
  {
    if j < |fileNames| {
      var longer := fileNames[..j + 1];
      assert longer[..j] == fileNames[..j];
      LoadedConfigsRaiseCarries(longer, documents, env);
      LoadedConfigsStopsAtFailure(fileNames, documents, env, j + 1);
    } else {
      assert fileNames[..j] == fileNames;
    }
  }

  /** Some YAML file of the listing has this config name. */
  predicate NamedBy(fileNames: seq<string>, name: string) {
    exists i :: 0 <= i < |fileNames| && IsYamlName(fileNames[i]) && ConfigName(fileNames[i]) == name
  }

  /** Peeling the last file off the listing. */
  lemma NamedByInit(fileNames: seq<string>, name: string)
    requires fileNames != []
    ensures var f := fileNames[|fileNames| - 1];
            NamedBy(fileNames, name) <==> NamedBy(fileNames[..|fileNames| - 1], name) || (IsYamlName(f) && ConfigName(f) == name)
  {
    var n := |fileNames| - 1;
    var init, f := fileNames[..n], fileNames[n];
    assert NamedBy(fileNames, name) ==> NamedBy(init, name) || (IsYamlName(f) && ConfigName(f) == name) by {
      if NamedBy(fileNames, name) {
        var i :| 0 <= i < |fileNames| && IsYamlName(fileNames[i]) && ConfigName(fileNames[i]) == name;
        if i < n {
          assert init[i] == fileNames[i];
        }
      }
    }
    assert NamedBy(init, name) ==> NamedBy(fileNames, name) by {
      if NamedBy(init, name) {
        var i :| 0 <= i < |init| && IsYamlName(init[i]) && ConfigName(init[i]) == name;
        assert fileNames[i] == init[i];
      }
    }
    assert IsYamlName(f) && ConfigName(f) == name ==> NamedBy(fileNames, name) by {
      if IsYamlName(f) && ConfigName(f) == name {
        assert 0 <= n < |fileNames|;
      }
    }
  }

  /** One step of the loop. */
  lemma LoadedConfigsStep(fileNames: seq<string>, documents: string -> Value, env: Env)
    requires fileNames != [] && LoadedConfigs(fileNames, documents, env).Ok?
    ensures var init, f := fileNames[..|fileNames| - 1], fileNames[|fileNames| - 1];
            LoadedConfigs(init, documents, env).Ok?
            && (!IsYamlName(f) ==> LoadedConfigs(fileNames, documents, env) == LoadedConfigs(init, documents, env))
            && (IsYamlName(f) ==>
                  FileEntry(f, documents, env).Ok?
                  && LoadedConfigs(fileNames, documents, env).value
                       == Insert(LoadedConfigs(init, documents, env).value, ConfigName(f),
                                 FileEntry(f, documents, env).value))
  {
  }

  /** The registry's keys are exactly the config names of the YAML files; other files
      contribute nothing. */
  lemma {:induction false} LoadedKeys(fileNames: seq<string>, documents: string -> Value, env: Env, name: string)
    requires LoadedConfigs(fileNames, documents, env).Ok?
    ensures HasKey(LoadedConfigs(fileNames, documents, env).value, name) <==> NamedBy(fileNames, name)
    decreases |fileNames|
  {
    if fileNames != [] {
      var init, f := fileNames[..|fileNames| - 1], fileNames[|fileNames| - 1];
      LoadedConfigsStep(fileNames, documents, env);
      LoadedKeys(init, documents, env, name);
      NamedByInit(fileNames, name);
    }
  }

  /** The last file leaves every other config name's entry as it was. */
  lemma LoadedLookupOther(fileNames: seq<string>, documents: string -> Value, env: Env, name: string)
    requires fileNames != [] && LoadedConfigs(fileNames, documents, env).Ok?
    requires var f := fileNames[|fileNames| - 1]; !(IsYamlName(f) && ConfigName(f) == name)
    ensures LoadedConfigs(fileNames[..|fileNames| - 1], documents, env).Ok?
    ensures Lookup(LoadedConfigs(fileNames, documents, env).value, name)
              == Lookup(LoadedConfigs(fileNames[..|fileNames| - 1], documents, env).value, name)
  {
    LoadedConfigsStep(fileNames, documents, env);
  }

  /** No YAML file after the i-th has the same config name. */
  predicate LastNamedAt(fileNames: seq<string>, i: nat)
    requires i < |fileNames|
  {
    forall j :: i < j < |fileNames| && IsYamlName(fileNames[j]) ==> ConfigName(fileNames[j]) != ConfigName(fileNames[i])
  }

  /** Dropping a later file keeps the i-th file the last with its name. */
  lemma LastNamedAtInit(fileNames: seq<string>, i: nat)
    requires i < |fileNames| - 1 && LastNamedAt(fileNames, i)
    ensures LastNamedAt(fileNames[..|fileNames| - 1], i)
  {
    var init := fileNames[..|fileNames| - 1];
    assert forall j :: 0 <= j < |init| ==> init[j] == fileNames[j];
  }

  /** In particular the last file does not have the i-th file's name. */
  lemma LastNamedAtLast(fileNames: seq<string>, i: nat)
    requires i < |fileNames| - 1 && LastNamedAt(fileNames, i)
    ensures var f := fileNames[|fileNames| - 1]; !(IsYamlName(f) && ConfigName(f) == ConfigName(fileNames[i]))
  {
    var n := |fileNames| - 1;
    assert i < n < |fileNames|;
  }

  /** The entry stored under a file's config name is that file's unwrapped document,
      when no later YAML file has the same name. */
  lemma {:induction false} LoadedEntry(fileNames: seq<string>, documents: string -> Value, env: Env, i: nat)
    requires LoadedConfigs(fileNames, documents, env).Ok?
    requires i < |fileNames| && IsYamlName(fileNames[i]) && LastNamedAt(fileNames, i)
    ensures FileEntry(fileNames[i], documents, env).Ok?
    ensures Lookup(LoadedConfigs(fileNames, documents, env).value, ConfigName(fileNames[i]))
              == Some(FileEntry(fileNames[i], documents, env).value)
    decreases |fileNames|
  {
    var n := |fileNames| - 1;
    var init := fileNames[..n];
    var name := ConfigName(fileNames[i]);
    if i < n {
      assert LoadedConfigs(init, documents, env).Ok?
             && Lookup(LoadedConfigs(fileNames, documents, env).value, name)
                == Lookup(LoadedConfigs(init, documents, env).value, name) by {
        LastNamedAtLast(fileNames, i);
        LoadedLookupOther(fileNames, documents, env, name);
      }
      assert init[i] == fileNames[i];
      LastNamedAtInit(fileNames, i);
      LoadedEntry(init, documents, env, i);
    } else {
      LoadedConfigsStep(fileNames, documents, env);
    }
  }

  /** `load_all_configs(config_dir)` over the listing `fileNames`. */
  method LoadAllConfigs(fileNames: seq<string>, documents: string -> Value, env: Env)
    returns (r: Outcome<Dict>)
    ensures r == LoadedConfigs(fileNames, documents, env)
  {
    var configs: Dict := [];
    for i := 0 to |fileNames|
      invariant LoadedConfigs(fileNames[..i], documents, env) == Ok(configs)
    {
      assert fileNames[..i + 1][..i] == fileNames[..i];
      var fileName := fileNames[i];
      if IsYamlName(fileName) {
        var configName := ConfigName(fileName);
        var configData := ProcessEnvVars(documents(fileName), env);
        var entry := Unwrap(configName, configData);
        if entry.Raise? {
          LoadedConfigsStopsAtFailure(fileNames, documents, env, i + 1);
          return Raise(entry.error);
        }
        configs := Insert(configs, configName, entry.value);
      }
    }
    assert fileNames[..|fileNames|] == fileNames;
    return Ok(configs);
  }
}

=== FILE: extract_and_parse.dfy ===
/** `SessionManager._extract_and_parse_task_result` as the method it is: the JSON
    attempt, then the capture loop, the post-processing loop and the defaults loop
    over the model's fields, then the default-synthesis loop. Each loop is proved to
    compute the specification function of its tier, and the whole method to compute
    `ExtractAndParse`. */
module ExtractAndParseMethod {
  import opened Base
  import opened Text
  import opened Values
  import opened Schemas
  import opened Patterns
  import opened Locator
  import opened Recovery

  /** `for pattern in patterns: ... if match: ...; break` for one field. */
  method CaptureField(s: string, fieldName: string) returns (c: Option<string>)
    ensures c == Capture(s, fieldName)
  {
    var pats := FieldPatterns(fieldName);
    var j := 0;
    while j < |pats|
      invariant 0 <= j <= |pats|
      invariant forall k :: 0 <= k < j ==> Group(s, pats[k]).None?
      decreases |pats| - j
    {
      var m := Group(s, pats[j]);
      if m.Some? {
        var first := FirstMatching(s, pats);
        assert first.Some?;
        assert !(first.value < j);
        assert !(j < first.value);
        return Some(Strip(m.value));
      }
      j := j + 1;
    }
    return None;
  }

  /** The first loop: `extracted_data[field_name] = match.group(1).strip()`. */
  method CaptureFields(s: string, fields: seq<Field>) returns (extracted: Dict)
    ensures extracted == Captured(s, fields)
  {
    extracted := [];
    for i := 0 to |fields|
      invariant extracted == Captured(s, fields[..i])
    {
      var c := CaptureField(s, fields[i].name);
      CapturedStep(s, fields, i);
      if c.Some? {
        extracted := Insert(extracted, fields[i].name, VStr(c.value));
      }
    }
    assert fields[..|fields|] == fields;
  }

  /** `for emotion, score in emotion_pairs: emotion_dict[emotion.strip()] = float(score)`;
      `None` when `float` raises. */
  method ParsePairs(pairs: seq<(string, string)>) returns (r: Option<Dict>)
    ensures r == PairsToDict(pairs)
  {
    var d: Dict := [];
    for i := 0 to |pairs|
      invariant PairsToDict(pairs[..i]) == Some(d)
    {
      if !IsFloatLiteral(pairs[i].1) {
        assert !ScoresParse(pairs);
        return None;
      }
      PairsToDictStep(pairs, i);
      d := Insert(d, Strip(pairs[i].0), VNum(pairs[i].1));
    }
    assert pairs[..|pairs|] == pairs;
    return Some(d);
  }

  /** One pass of the pairs loop with a score that `float` accepts. */
  lemma PairsToDictStep(pairs: seq<(string, string)>, i: nat)
    requires i < |pairs| && PairsToDict(pairs[..i]).Some? && IsFloatLiteral(pairs[i].1)
    ensures PairsToDict(pairs[..i + 1])
              == Some(Insert(PairsToDict(pairs[..i]).value, Strip(pairs[i].0), VNum(pairs[i].1)))
  {
    var p := pairs[..i + 1];
    assert p[..|p| - 1] == pairs[..i];
    assert p[|p| - 1] == pairs[i];
  }

  /** The dict branch of the second loop, with its inner `except` returning `{}`. */
  method DictField(v: Value, parse: Parser) returns (r: Value)
    ensures r == PostProcessValue(DictKind, v, parse)
  {
    if !v.VStr? {
      return VDict([]);
    }
    var t := v.s;
    if StartsWith(t, "{") && EndsWith(t, "}") {
      var data := parse(t);
      if data.None? {
        return VDict([]);
      }
      return data.value;
    }
    var emotionDict := ParsePairs(FindPairs(t, 0));
    if emotionDict.None? {
      return VDict([]);
    }
    if emotionDict.value != [] {
      return VDict(emotionDict.value);
    }
    return v;
  }

  /** `[item.strip() for item in pieces]`. */
  method StripPieces(pieces: seq<string>) returns (items: seq<Value>)
    ensures items == StripAll(pieces)
  {
    items := [];
    for i := 0 to |pieces|
      invariant |items| == i
      invariant forall k :: 0 <= k < i ==> items[k] == VStr(Strip(pieces[k]))
    {
      items := items + [VStr(Strip(pieces[i]))];
    }
  }

  /** The list branch of the second loop: `[item.strip() for item in text.split(',')]`. */
  method ListField(v: Value, parse: Parser) returns (r: Value)
    ensures r == PostProcessValue(ListKind, v, parse)
  {
    if !v.VStr? {
      return VList([]);
    }
    var t := v.s;
    assert PostProcessValue(ListKind, v, parse) == ListFromText(t, parse);
    if StartsWith(t, "[") && EndsWith(t, "]") {
      var data := parse(t);
      if data.None? {
        return VList([]);
      }
      return data.value;
    }
    // `if items:` always holds: `split` yields at least one piece.
    assert ListFromText(t, parse) == VList(StripAll(SplitOn(t, ",")));
    var items := StripPieces(SplitOn(t, ","));
    return VList(items);
  }

  /** The second loop over the fields. */
  method PostProcessFields(extracted: Dict, fields: seq<Field>, parse: Parser) returns (d: Dict)
    ensures d == PostProcessed(extracted, fields, parse)
  {
    d := extracted;
    for i := 0 to |fields|
      invariant d == PostProcessed(extracted, fields[..i], parse)
    {
      var f := fields[i];
      if f.kind == DictKind && HasKey(d, f.name) {
        var nv := DictField(Lookup(d, f.name).value, parse);
        d := Insert(d, f.name, nv);
      } else if f.kind == ListKind && HasKey(d, f.name) {
        var nv := ListField(Lookup(d, f.name).value, parse);
        d := Insert(d, f.name, nv);
      }
      assert fields[..i + 1][..i] == fields[..i];
    }
    assert fields[..|fields|] == fields;
  }

  /** The third loop: `if field_name not in extracted_data:` the empty value. */
  method FillDefaults(extracted: Dict, fields: seq<Field>) returns (d: Dict)
    ensures d == WithDefaults(extracted, fields)
  {
    d := extracted;
    for i := 0 to |fields|
      invariant d == WithDefaults(extracted, fields[..i])
    {
      if !HasKey(d, fields[i].name) {
        d := Insert(d, fields[i].name, EmptyValue(fields[i].kind));
      }
      assert fields[..i + 1][..i] == fields[..i];
    }
    assert fields[..|fields|] == fields;
  }

  /** The fallback loop that builds `default_values`. */
  method BuildDefaults(fields: seq<Field>, s: string) returns (d: Dict)
    ensures d == Defaults(fields, s)
  {
    d := [];
    for i := 0 to |fields|
      invariant d == Defaults(fields[..i], s)
    {
      var f := fields[i];
      var v: Value;
      if f.kind == StrKind {
        if f.name == "analysis" || f.name == "perspective" {
          v := VStr(if |s| > 500 then s[..500] else s);
        } else {
          v := VStr("");
        }
      } else {
        v := EmptyValue(f.kind);
      }
      d := Insert(d, f.name, v);
      assert fields[..i + 1][..i] == fields[..i];
    }
    assert fields[..|fields|] == fields;
  }

  /** The `try` block of Tier 2. */
  method TryPatterns(s: string, fields: seq<Field>, parse: Parser) returns (r: PatternOutcome)
    ensures r == PatternTier(s, fields, parse)
  {
    var extracted := CaptureFields(s, fields);
    extracted := PostProcessFields(extracted, fields, parse);
    if extracted == [] {
      return NoCapture;
    }
    extracted := FillDefaults(extracted, fields);
    var inst := Validate(fields, extracted);
    if inst.None? {
      return ConstructFailed;
    }
    return Built(inst.value);
  }

  /** Everything after `_extract_task_result`. */
  method RecoverResult(rawResult: Value, schema: Schema, parse: Parser) returns (r: Outcome<Option<Dict>>)
    ensures r == Recover(rawResult, schema, parse)
  {
    if !Truthy(rawResult) {
      return Ok(None);
    }
    if !rawResult.VStr? {
      return Raise(TypeError);       // re.search on a value that is not a string
    }
    var s := rawResult.s;
    var json := JsonTier(s, schema.fields, parse);
    if json.Raise? {
      return Raise(json.error);
    }
    if json.value.Parsed? {
      return Ok(Some(json.value.inst));
    }
    var patterns := TryPatterns(s, schema.fields, parse);
    match patterns
    case NoCapture =>
      return Ok(None);
    case Built(inst) =>
      return Ok(Some(inst));
    case ConstructFailed =>
      var defaults := BuildDefaults(schema.fields, s);
      return Ok(Validate(schema.fields, defaults));
  }

  /** The whole method; `None` in the result is Python's `None`, an instance is its
      `.dict()`. */
  method ExtractAndParseTaskResult(crewResult: Value, taskId: string, schema: Schema,
                                   agentFilter: Option<string>, parse: Parser)
    returns (r: Outcome<Option<Dict>>)
    ensures r == ExtractAndParse(crewResult, taskId, schema, agentFilter, parse)
  {
    var located := ExtractTaskResult(crewResult, taskId, agentFilter);
    if located.Raise? {
      return Raise(located.error);
    }
    r := RecoverResult(located.value, schema, parse);
  }
}

=== FILE: locator.dfy ===
/** `SessionManager._extract_task_result`: finds the output of one task inside
    a crew result whose shape is not fixed. Each shape is a strategy tried in
    order: a dict with `task_results`, a dict with `tasks`, a dict keyed by task
    id, a list of records, and a text blob with `=== LABEL ===` sections. */
module Locator {
  import opened Base
  import opened Text
  import opened Values
  import opened Patterns

  /** The record layouts the scanning branches understand. */
  datatype RecordShape =
    | TaskResults   // `{"task_results": [{task_id, agent, result}, ...]}`
    | Tasks         // `{"tasks": [{id | task_id, agent, output | result}, ...]}`
    | Records       // `[{task_id | id, agent, result | output}, ...]`

  /** `agent_filter` takes part only when it is a non-empty string. */
  predicate FilterActive(agentFilter: Option<string>) {
    agentFilter.Some? && agentFilter.value != ""
  }

  /** `agent_filter and record.get("agent") != agent_filter`: the record is skipped. */
  predicate WrongAgent(record: Dict, agentFilter: Option<string>) {
    FilterActive(agentFilter) && Lookup(record, "agent") != Some(VStr(agentFilter.value))
  }

  /** `record.get(key) == task_id`. */
  predicate IdIs(record: Dict, key: string, taskId: string) {
    Lookup(record, key) == Some(VStr(taskId))
  }

  predicate IdMatches(shape: RecordShape, record: Dict, taskId: string) {
    match shape
    case TaskResults => IdIs(record, "task_id", taskId)
    case _ => IdIs(record, "id", taskId) || IdIs(record, "task_id", taskId)
  }

  /** The record the scan returns from. */
  predicate Selected(shape: RecordShape, record: Dict, taskId: string, agentFilter: Option<string>) {
    IdMatches(shape, record, taskId) && !WrongAgent(record, agentFilter)
  }

  /** What a selected record yields: `result`; `output or result`; `result or output`. */
  function Pick(shape: RecordShape, record: Dict): (v: Value)
    ensures shape == TaskResults ==> v == GetOr(record, "result", VStr(""))
    ensures shape == Tasks ==>
      v == if Truthy(GetOr(record, "output", VStr(""))) then GetOr(record, "output", VStr("")) else GetOr(record, "result", VStr(""))
    ensures shape == Records ==>
      v == if Truthy(GetOr(record, "result", VStr(""))) then GetOr(record, "result", VStr("")) else GetOr(record, "output", VStr(""))
  {
    match shape
    case TaskResults => GetOr(record, "result", VStr(""))
    case Tasks => Or(GetOr(record, "output", VStr("")), GetOr(record, "result", VStr("")))
    case Records => Or(GetOr(record, "result", VStr("")), GetOr(record, "output", VStr("")))
  }

  /** The scan stops at a selected record, and at a non-dict record unless the shape
      skips those (only the list branch checks `isinstance(task_result, dict)`). */
  predicate Stops(shape: RecordShape, record: Value, taskId: string, agentFilter: Option<string>) {
    if record.VDict? then Selected(shape, record.entries, taskId, agentFilter) else shape != Records
  }

  /** The record loops: the first selected record's value, `""` when there is none,
      AttributeError when `.get` is called on a record that is not a dict. */
  function Scan(shape: RecordShape, records: seq<Value>, taskId: string, agentFilter: Option<string>)
    : (r: Outcome<Value>)
    ensures shape == Records ==> r.Ok?
    ensures r.Raise? ==> r.error == AttributeError
  {
    if records == [] then Ok(VStr(""))
    else if records[0].VDict? then
      if Selected(shape, records[0].entries, taskId, agentFilter) then Ok(Pick(shape, records[0].entries))
      else Scan(shape, records[1..], taskId, agentFilter)
    else if shape == Records then Scan(shape, records[1..], taskId, agentFilter)
    else Raise(AttributeError)
  }

  /** The fixed table from task id to section label of the text branch. */
  function SectionLabel(taskId: string): (r: Option<string>)
    ensures r.Some? ==> |r.value| > 0 && !IsSpace(r.value[0])
  {
    if taskId == "analyze_emotions_task" then Some("EMOTION ANALYSIS")
    else if taskId == "simulate_partners_task" then Some("PARTNER SIMULATION")
    else if taskId == "provide_counseling_task" then Some("COUNSELING")
    else if taskId == "provide_encouragement_task" then Some("ENCOURAGEMENT")
    else if taskId == "generate_interaction_task" then Some("INTEGRATED DIALOGUE")
    else None
  }

  /** `===\s*LABEL\s*===` matched at i: where the section body starts. */
  function HeaderEnd(s: string, i: nat, lbl: string): (e: Option<nat>)
    ensures e.Some? ==> i < e.value <= |s|
  {
    if HasAt(s, i, "===") then
      var a := SkipSpaces(s, i + 3);
      if HasAt(s, a, lbl) then
        var b := SkipSpaces(s, a + |lbl|);
        if HasAt(s, b, "===") then Some(b + 3) else None
      else None
    else None
  }

  /** Python's `$` without MULTILINE: the end, or just before a final newline. */
  predicate EndAnchor(s: string, k: nat) {
    k == |s| || (k + 1 == |s| && s[k] == '\n')
  }

  /** Where a lazy `(.*?)` followed by `(?:===|$)` stops. */
  predicate SectionStop(s: string, k: nat) {
    HasAt(s, k, "===") || EndAnchor(s, k)
  }

  /** Where the lazy `(.*?)` that starts at `from` stops: the next `===`, or the end. */
  function DelimiterAt(s: string, from: nat): (e: nat)
    requires from <= |s|
    ensures from <= e <= |s| && SectionStop(s, e)
    ensures forall k :: from <= k < e ==> !SectionStop(s, k)
  {
    var stop := (k: nat) => SectionStop(s, k);
    assert forall k: nat :: stop(k) == SectionStop(s, k);
    ScanTo(stop, from, |s|)
  }

  /** The text from `from` up to the next `===` or the end; it holds no `===`. */
  function UpToDelimiter(s: string, from: nat): (t: string)
    requires from <= |s|
    ensures !Occurs(t, "===")
  {
    var e := DelimiterAt(s, from);
    assert !Occurs(s[from..e], "===") by {
      forall j | 0 <= j < e - from
        ensures !HasAt(s[from..e], j, "===")
      {
        assert !SectionStop(s, from + j);
        if j + 3 <= e - from {
          assert s[from..e][j..j + 3] == s[from + j..from + j + 3];
        }
      }
    }
    s[from..e]
  }

  /** `re.search(r"===\s*LABEL\s*===(.*?)(?:===|$)", s, re.DOTALL)`: the leftmost
      header. The lazy body always matches, so the header alone decides. */
  function FindHeader(s: string, lbl: string): (r: Option<nat>)
    ensures r.Some? ==> r.value <= |s| && HeaderEnd(s, r.value, lbl).Some?
    ensures r.Some? ==> forall i :: 0 <= i < r.value ==> HeaderEnd(s, i, lbl).None?
    ensures r.None? ==> forall i :: 0 <= i <= |s| ==> HeaderEnd(s, i, lbl).None?
  {
    var header := (i: nat) => HeaderEnd(s, i, lbl).Some?;
    assert forall i: nat :: header(i) == HeaderEnd(s, i, lbl).Some?;
    FirstWhere(header, 0, |s| + 1)
  }

  /** `re.search(rf"{agent}\s*[:=]\s*(.*?)(?:===|$)", section, re.IGNORECASE | re.DOTALL)`:
      the leftmost place where the agent's name is followed by `:` or `=`. */
  function FindAgent(section: string, agent: string): (r: Option<nat>)
    ensures r.Some? ==> r.value <= |section| && ValueAfterLabel(section, r.value, agent).Some?
    ensures r.Some? ==> forall p :: 0 <= p < r.value ==> ValueAfterLabel(section, p, agent).None?
    ensures r.None? ==> forall p :: 0 <= p <= |section| ==> ValueAfterLabel(section, p, agent).None?
  {
    var agentAt := (p: nat) => ValueAfterLabel(section, p, agent).Some?;
    assert forall p: nat :: agentAt(p) == ValueAfterLabel(section, p, agent).Some?;
    FirstWhere(agentAt, 0, |section| + 1)
  }

  /** The body of the leftmost `=== LABEL ===` section, unstripped, if there is one. */
  function SectionBody(s: string, lbl: string): (r: Option<string>)
    ensures r.Some? ==> !Occurs(r.value, "===")
  {
    match FindHeader(s, lbl)
    case None => None
    case Some(i) => Some(UpToDelimiter(s, HeaderEnd(s, i, lbl).value))
  }

  /** Inside a section, the agent's own text when the filter is given and found,
      otherwise the whole section; stripped either way. */
  function NarrowToAgent(section: string, agentFilter: Option<string>): (r: string)
    requires !Occurs(section, "===")
    ensures !Occurs(r, "===")
  {
    if FilterActive(agentFilter) then
      match FindAgent(section, agentFilter.value)
      case Some(p) =>
        var value := UpToDelimiter(section, ValueAfterLabel(section, p, agentFilter.value).value);
        StripKeepsAbsence(value, "===");
        Strip(value)
      case None =>
        StripKeepsAbsence(section, "===");
        Strip(section)
    else
      StripKeepsAbsence(section, "===");
      Strip(section)
  }

  /** The text branch: the task's section narrowed to the agent, or `""`. */
  function LocateInText(s: string, taskId: string, agentFilter: Option<string>): (r: string)
    ensures !Occurs(r, "===")
  {
    match SectionLabel(taskId)
    case None => ""
    case Some(lbl) =>
      match SectionBody(s, lbl)
      case None => ""
      case Some(section) => NarrowToAgent(section, agentFilter)
  }

  /** `_extract_task_result(crew_result, task_id, agent_filter)`. */
  function ExtractTaskResult(crewResult: Value, taskId: string, agentFilter: Option<string>)
    : (r: Outcome<Value>)
    ensures !(crewResult.VDict? || crewResult.VList? || crewResult.VStr?) ==> r == Ok(VStr(""))
    ensures crewResult.VList? || crewResult.VStr? ==> r.Ok?
    ensures crewResult.VStr? ==> r.Ok? && r.value.VStr? && !Occurs(r.value.s, "===")
    ensures crewResult.VStr? ==> r == Ok(VStr(LocateInText(crewResult.s, taskId, agentFilter)))
    ensures crewResult.VDict? && !HasKey(crewResult.entries, "task_results") && !HasKey(crewResult.entries, "tasks")
            ==> r == (if HasKey(crewResult.entries, taskId) then Ok(Lookup(crewResult.entries, taskId).value)
                      else Ok(VStr("")))
    ensures crewResult.VList? ==> r == Scan(Records, crewResult.items, taskId, agentFilter)
    ensures crewResult.VDict? && HasKey(crewResult.entries, "task_results") ==>
              var records := Iterate(GetOr(crewResult.entries, "task_results", VList([])));
              (records.Raise? ==> r == Raise(records.error))
              && (records.Ok? ==> r == Scan(TaskResults, records.value, taskId, agentFilter))
    ensures crewResult.VDict? && !HasKey(crewResult.entries, "task_results")
            && HasKey(crewResult.entries, "tasks") ==>
              var records := Iterate(GetOr(crewResult.entries, "tasks", VList([])));
              (records.Raise? ==> r == Raise(records.error))
              && (records.Ok? ==> r == Scan(Tasks, records.value, taskId, agentFilter))
    ensures r.Raise? ==> r.error == TypeError || r.error == AttributeError
  {
    match crewResult
    case VDict(d) =>
      if HasKey(d, "task_results") then
        var records :- Iterate(GetOr(d, "task_results", VList([])));
        Scan(TaskResults, records, taskId, agentFilter)
      else if HasKey(d, "tasks") then
        var records :- Iterate(GetOr(d, "tasks", VList([])));
        Scan(Tasks, records, taskId, agentFilter)
      else if HasKey(d, taskId) then Ok(GetOr(d, taskId, VStr("")))
      else Ok(VStr(""))
    case VList(items) => Scan(Records, items, taskId, agentFilter)
    case VStr(s) => Ok(VStr(LocateInText(s, taskId, agentFilter)))
    case _ => Ok(VStr(""))
  }

  // ---------------------------------------------------------------------------
  // Properties of the locator

  /** The record loops return the pick of the first selected record: records with
      another id, and records with the right id but another agent, are passed over. */
  lemma {:induction false} ScanFirstSelected(shape: RecordShape, records: seq<Value>, taskId: string,
                                             agentFilter: Option<string>, i: nat)
    requires i < |records| && records[i].VDict? && Selected(shape, records[i].entries, taskId, agentFilter)
    requires forall j :: 0 <= j < i ==> !Stops(shape, records[j], taskId, agentFilter)
    ensures Scan(shape, records, taskId, agentFilter) == Ok(Pick(shape, records[i].entries))
  {
    if i > 0 {
      assert !Stops(shape, records[0], taskId, agentFilter);
      ScanFirstSelected(shape, records[1..], taskId, agentFilter, i - 1);
    }
  }

  /** When no record stops the loop, the result is the empty string. */
  lemma {:induction false} ScanNoneSelected(shape: RecordShape, records: seq<Value>, taskId: string,
                                            agentFilter: Option<string>)
    requires forall j :: 0 <= j < |records| ==> !Stops(shape, records[j], taskId, agentFilter)
    ensures Scan(shape, records, taskId, agentFilter) == Ok(VStr(""))
  {
    if records != [] {
      assert !Stops(shape, records[0], taskId, agentFilter);
      ScanNoneSelected(shape, records[1..], taskId, agentFilter);
    }
  }

  /** In the `task_results` and `tasks` branches a record that is not a dict, reached
      before any selected record, raises AttributeError (`.get` on it). */
  lemma {:induction false} ScanNonDictRaises(shape: RecordShape, records: seq<Value>, taskId: string,
                                             agentFilter: Option<string>, i: nat)
    requires shape != Records && i < |records| && !records[i].VDict?
    requires forall j :: 0 <= j < i ==> !Stops(shape, records[j], taskId, agentFilter)
    ensures Scan(shape, records, taskId, agentFilter) == Raise(AttributeError)
  {
    if i > 0 {
      assert !Stops(shape, records[0], taskId, agentFilter);
      ScanNonDictRaises(shape, records[1..], taskId, agentFilter, i - 1);
    }
  }

  /** Once a dict has a `task_results` key, nothing else in it matters: the `tasks`
      and direct-key branches are never consulted, even when the scan misses. */
  lemma TaskResultsShadowsOtherShapes(d1: Dict, d2: Dict, taskId: string, agentFilter: Option<string>)
    requires HasKey(d1, "task_results")
    requires Lookup(d1, "task_results") == Lookup(d2, "task_results")
    ensures ExtractTaskResult(VDict(d1), taskId, agentFilter) == ExtractTaskResult(VDict(d2), taskId, agentFilter)
  {
  }

  /** A task id without a section label finds nothing in a text result. */
  lemma UnlabelledTaskMissesText(s: string, taskId: string, agentFilter: Option<string>)
    requires SectionLabel(taskId).None?
    ensures ExtractTaskResult(VStr(s), taskId, agentFilter) == Ok(VStr(""))
  {
  }

  /** The per-partner task ids have no section label, so a text result never yields
      anything for them. */
  lemma PartnerTasksMissText(s: string, agentFilter: Option<string>)
    ensures ExtractTaskResult(VStr(s), "simulate_partner_a_task", agentFilter) == Ok(VStr(""))
    ensures ExtractTaskResult(VStr(s), "simulate_partner_b_task", agentFilter) == Ok(VStr(""))
  {
    assert SectionLabel("simulate_partner_a_task").None? by {
      assert "simulate_partner_a_task"[0] != "provide_counseling_task"[0];
    }
    assert SectionLabel("simulate_partner_b_task").None? by {
      assert "simulate_partner_b_task"[0] != "provide_counseling_task"[0];
    }
    UnlabelledTaskMissesText(s, "simulate_partner_a_task", agentFilter);
    UnlabelledTaskMissesText(s, "simulate_partner_b_task", agentFilter);
  }

  /** A header `=== LABEL ===` written at the end of `pre` is matched there. */
  lemma HeaderMatches(pre: string, lbl: string, tail: string)
    requires |lbl| > 0 && !IsSpace(lbl[0])
    ensures HeaderEnd(pre + "=== " + lbl + " ===" + tail, |pre|, lbl) == Some(|pre| + |lbl| + 8)
  {
    var s := pre + "=== " + lbl + " ===" + tail;
    var h := |pre|;
    assert s[h..h + 3] == "===";
    assert s[h + 3] == ' ' && s[h + 4] == lbl[0];
    assert SkipSpaces(s, h + 3) == h + 4;
    assert s[h + 4..h + 4 + |lbl|] == lbl;
    assert s[h + 4 + |lbl|] == ' ' && s[h + 5 + |lbl|] == '=';
    assert SkipSpaces(s, h + 4 + |lbl|) == h + 5 + |lbl|;
    assert s[h + 5 + |lbl|..h + 8 + |lbl|] == "===";
  }

  /** A stop with no stop before it is where the lazy body ends. */
  lemma DelimiterIs(s: string, from: nat, e: nat)
    requires from <= e <= |s| && SectionStop(s, e)
    requires forall k :: from <= k < e ==> !SectionStop(s, k)
    ensures DelimiterAt(s, from) == e
  {
    var d := DelimiterAt(s, from);
    assert !(d < e);
    assert !(e < d);
  }

  /** No `===` starts inside a body free of `=`. */
  lemma NoDelimiterInBody(head: string, body: string, rest: string)
    requires '=' !in body
    ensures forall k :: |head| <= k < |head| + |body| ==> !HasAt(head + body + rest, k, "===")
  {
    var s := head + body + rest;
    forall k | |head| <= k < |head| + |body|
      ensures !HasAt(s, k, "===")
    {
      assert s[k] == body[k - |head|];
    }
  }

  /** A section body free of `=` runs to the delimiter that follows it, or to the end
      of the text; the one `$` subtlety, a final newline, is removed by `strip()`. */
  lemma BodyRunsToDelimiter(head: string, body: string, rest: string)
    requires '=' !in body
    requires rest == "" || StartsWith(rest, "===")
    ensures Strip(UpToDelimiter(head + body + rest, |head|)) == Strip(body)
  {
    var s := head + body + rest;
    var st, n := |head|, |head| + |body|;
    NoDelimiterInBody(head, body, rest);
    if rest != "" {
      assert HasAt(s, n, "===") by {
        assert s[n..n + 3] == rest[..3];
      }
      DelimiterIs(s, st, n);
      assert s[st..n] == body;
    } else if body != [] && body[|body| - 1] == '\n' {
      assert EndAnchor(s, n - 1);
      DelimiterIs(s, st, n - 1);
      assert s[st..n - 1] == body[..|body| - 1];
      StripDropTrailingSpace(body);
    } else {
      DelimiterIs(s, st, n);
      assert s[st..n] == body;
    }
  }

  /** With no `=` before it, that header is the leftmost one. */
  lemma FindHeaderAt(pre: string, lbl: string, tail: string)
    requires |lbl| > 0 && !IsSpace(lbl[0]) && '=' !in pre
    ensures FindHeader(pre + "=== " + lbl + " ===" + tail, lbl) == Some(|pre|)
  {
    var s := pre + "=== " + lbl + " ===" + tail;
    HeaderMatches(pre, lbl, tail);
    forall i | 0 <= i < |pre|
      ensures HeaderEnd(s, i, lbl).None?
    {
      assert s[i] == pre[i];
    }
    var r := FindHeader(s, lbl);
    assert r.Some?;
    assert !(r.value < |pre|);
    assert !(|pre| < r.value);
  }

  /** The body after a header with no `=` before it is found, up to the next
      delimiter or the end. */
  lemma SectionBodyFound(pre: string, lbl: string, body: string, rest: string)
    requires |lbl| > 0 && !IsSpace(lbl[0])
    requires '=' !in pre && '=' !in body
    requires rest == "" || StartsWith(rest, "===")
    ensures SectionBody(pre + "=== " + lbl + " ===" + body + rest, lbl).Some?
    ensures Strip(SectionBody(pre + "=== " + lbl + " ===" + body + rest, lbl).value) == Strip(body)
  {
    var head := pre + "=== " + lbl + " ===";
    var s := pre + "=== " + lbl + " ===" + body + rest;
    assert s == head + body + rest;
    assert s == pre + "=== " + lbl + " ===" + (body + rest);
    FindHeaderAt(pre, lbl, body + rest);
    HeaderMatches(pre, lbl, body + rest);
    BodyRunsToDelimiter(head, body, rest);
  }

  /** A section written as `=== LABEL ===` followed by its body and then another
      delimiter or the end of the text is found again, stripped. */
  lemma SectionRoundTrip(pre: string, taskId: string, lbl: string, body: string, rest: string)
    requires SectionLabel(taskId) == Some(lbl)
    requires '=' !in pre && '=' !in body
    requires rest == "" || StartsWith(rest, "===")
    ensures LocateInText(pre + "=== " + lbl + " ===" + body + rest, taskId, None) == Strip(body)
  {
    SectionBodyFound(pre, lbl, body, rest);
    var section := SectionBody(pre + "=== " + lbl + " ===" + body + rest, lbl).value;
    assert NarrowToAgent(section, None) == Strip(section);
  }

  /** Text without `=` holds no `===` delimiter. */
  lemma NoEqualsNoDelimiter(s: string)
    requires '=' !in s
    ensures !Occurs(s, "===")
  {
    forall k | 0 <= k < |s|
      ensures !HasAt(s, k, "===")
    {
      if k + 3 <= |s| {
        assert s[k..k + 3][0] == s[k];
      }
    }
  }

  /** Inside a section free of `=`, `agent: value` after a text with no `:` narrows
      the section to the value, stripped. */
  lemma NarrowFindsAgent(pre: string, agent: string, v: string)
    requires |agent| > 0 && !IsSpace(agent[|agent| - 1]) && ':' !in agent && '=' !in agent
    requires ':' !in pre && '=' !in pre
    requires |v| > 0 && !IsSpace(v[0]) && '=' !in v
    ensures !Occurs(pre + agent + ": " + v, "===")
    ensures NarrowToAgent(pre + agent + ": " + v, Some(agent)) == Strip(v)
  {
    var head := pre + agent + ": ";
    var section := pre + agent + ": " + v;
    assert section == head + v + "";
    assert '=' !in section;
    NoEqualsNoDelimiter(section);
    forall p | 0 <= p < |pre|
      ensures ValueAfterLabel(section, p, agent).None?
    {
      assert section == pre + agent + (": " + v);
      NoLabelBefore(pre, agent, ": " + v, p);
    }
    LabelValueAt(pre, agent, v);
    var f := FindAgent(section, agent);
    assert f.Some?;
    assert !(f.value < |pre|);
    assert !(|pre| < f.value);
    BodyRunsToDelimiter(head, v, "");
  }

  /** The agent's name is matched ignoring case. */
  lemma FindAgentIgnoresCase(section: string, f1: string, f2: string)
    requires SameIgnoringCase(f1, f2)
    ensures FindAgent(section, f1) == FindAgent(section, f2)
  {
    var r1, r2 := FindAgent(section, f1), FindAgent(section, f2);
    if r1.Some? {
      ValueAfterLabelIgnoresCase(section, r1.value, f1, f2);
    }
    if r2.Some? {
      ValueAfterLabelIgnoresCase(section, r2.value, f1, f2);
    }
  }

  lemma NarrowIgnoresCase(section: string, f1: string, f2: string)
    requires !Occurs(section, "===")
    requires SameIgnoringCase(f1, f2)
    ensures NarrowToAgent(section, Some(f1)) == NarrowToAgent(section, Some(f2))
  {
    if f1 != [] {
      FindAgentIgnoresCase(section, f1, f2);
      match FindAgent(section, f1)
      case None =>
        assert NarrowToAgent(section, Some(f1)) == Strip(section);
        assert NarrowToAgent(section, Some(f2)) == Strip(section);
      case Some(p) =>
        ValueAfterLabelIgnoresCase(section, p, f1, f2);
        var q := ValueAfterLabel(section, p, f1).value;
        assert NarrowToAgent(section, Some(f1)) == Strip(UpToDelimiter(section, q));
        assert NarrowToAgent(section, Some(f2)) == Strip(UpToDelimiter(section, q));
    }
  }

  /** Agent filters that differ only in ASCII case locate the same text. */
  lemma AgentFilterIgnoresCase(s: string, taskId: string, f1: string, f2: string)
    requires SameIgnoringCase(f1, f2)
    ensures LocateInText(s, taskId, Some(f1)) == LocateInText(s, taskId, Some(f2))
  {
    match SectionLabel(taskId)
    case None =>
    case Some(lbl) =>
      match SectionBody(s, lbl)
      case None =>
      case Some(section) =>
        NarrowIgnoresCase(section, f1, f2);
  }
}

=== FILE: patterns.dfy ===
/** The regular expressions of the structured-recovery tier, hand-coded for the
    few shapes the code uses: the four per-field capture patterns (searched with
    IGNORECASE and DOTALL) and the `key: number` pair scanner. */
module Patterns {
  import opened Base
  import opened Text
  import opened Values
  import opened Schemas

  predicate IsQuote(c: char) { c == '"' || c == '\'' }

  /** The first quote character at or after `from`: where `(.*?)["']` stops. */
  function FindQuote(s: string, from: nat): (r: Option<nat>)
    requires from <= |s|
    ensures r.Some? ==> from <= r.value < |s| && IsQuote(s[r.value])
    ensures r.Some? ==> forall k :: from <= k < r.value ==> !IsQuote(s[k])
    ensures r.None? ==> forall k :: from <= k < |s| ==> !IsQuote(s[k])
  {
    var quoteAt := (k: nat) => k < |s| && IsQuote(s[k]);
    assert forall k: nat :: quoteAt(k) == (k < |s| && IsQuote(s[k]));
    FirstWhere(quoteAt, from, |s|)
  }

  /** The first newline at or after `from`, or the end: where `(.*?)(?:\n|$)` stops. */
  function LineEnd(s: string, from: nat): (e: nat)
    requires from <= |s|
    ensures from <= e <= |s| && (e == |s| || s[e] == '\n')
    ensures forall k :: from <= k < e ==> s[k] != '\n'
  {
    var stop := (k: nat) => k == |s| || (k < |s| && s[k] == '\n');
    assert forall k: nat :: stop(k) == (k == |s| || (k < |s| && s[k] == '\n'));
    ScanTo(stop, from, |s|)
  }

  /** The two shapes of capture pattern, for a label (a field name or its Title Case form). */
  datatype Pattern =
    | Quoted(lbl: string)      // lbl\s*[:=]\s*["'](.*?)["']
    | ToLineEnd(lbl: string)   // lbl\s*[:=]\s*(.*?)(?:\n|$)

  /** The pattern matched at p: the bounds of group 1. */
  function MatchAt(s: string, p: nat, pat: Pattern): (g: Option<(nat, nat)>)
    ensures g.Some? ==> p < g.value.0 <= g.value.1 <= |s|
  {
    match ValueAfterLabel(s, p, pat.lbl)
    case None => None
    case Some(v) =>
      match pat
      case Quoted(_) =>
        if v < |s| && IsQuote(s[v]) then
          match FindQuote(s, v + 1)
          case Some(e) => Some((v + 1, e))
          case None => None
        else None
      case ToLineEnd(_) => Some((v, LineEnd(s, v)))
  }

  /** `re.search(pattern, s)`: the leftmost position where the pattern matches. */
  function Search(s: string, pat: Pattern): (r: Option<nat>)
    ensures r.Some? ==> r.value <= |s| && MatchAt(s, r.value, pat).Some?
    ensures r.Some? ==> forall p :: 0 <= p < r.value ==> MatchAt(s, p, pat).None?
    ensures r.None? ==> forall p :: 0 <= p <= |s| ==> MatchAt(s, p, pat).None?
  {
    var at := (p: nat) => MatchAt(s, p, pat).Some?;
    assert forall p: nat :: at(p) == MatchAt(s, p, pat).Some?;
    FirstWhere(at, 0, |s| + 1)
  }

  /** `match.group(1)` when the search succeeds. */
  function Group(s: string, pat: Pattern): Option<string> {
    match Search(s, pat)
    case None => None
    case Some(p) =>
      var g := MatchAt(s, p, pat).value;
      Some(s[g.0..g.1])
  }

  /** The patterns tried for a field, in order: the snake name with a quoted value,
      the snake name to the end of the line, then the same two with the Title Case name. */
  function FieldPatterns(fieldName: string): seq<Pattern> {
    var display := DisplayName(fieldName);
    [Quoted(fieldName), ToLineEnd(fieldName), Quoted(display), ToLineEnd(display)]
  }

  /** The index of the first pattern that matches: the loop over patterns breaks there. */
  function FirstMatching(s: string, pats: seq<Pattern>): (r: Option<nat>)
    ensures r.Some? ==> r.value < |pats| && Group(s, pats[r.value]).Some?
    ensures r.Some? ==> forall j :: 0 <= j < r.value ==> Group(s, pats[j]).None?
    ensures r.None? ==> forall j :: 0 <= j < |pats| ==> Group(s, pats[j]).None?
  {
    var hit := (j: nat) => j < |pats| && Group(s, pats[j]).Some?;
    assert forall j: nat :: hit(j) == (j < |pats| && Group(s, pats[j]).Some?);
    FirstWhere(hit, 0, |pats|)
  }

  /** What Tier 2 stores for a field before post-processing, if anything: the group of
      the first of the field's patterns that matches, stripped. */
  function Capture(s: string, fieldName: string): Option<string> {
    var pats := FieldPatterns(fieldName);
    match FirstMatching(s, pats)
    case None => None
    case Some(j) => Some(Strip(Group(s, pats[j]).value))
  }

  // ---------------------------------------------------------------------------
  // `re.findall(r'([\w\s]+):\s*([0-9.]+)', text)`

  predicate IsWordChar(c: char) { IsAsciiLetter(c) || IsDigit(c) || c == '_' }

  /** `[\w\s]` */
  predicate InNameClass(c: char) { IsWordChar(c) || IsSpace(c) }

  /** `[0-9.]` */
  predicate InScoreClass(c: char) { IsDigit(c) || c == '.' }

  /** The end of the longest run of `[\w\s]` characters starting at i. */
  function NameRunEnd(s: string, i: nat): (j: nat)
    requires i <= |s|
    ensures i <= j <= |s| && (j == |s| || !InNameClass(s[j]))
    ensures forall k :: i <= k < j ==> InNameClass(s[k])
    decreases |s| - i
  {
    if i == |s| || !InNameClass(s[i]) then i else NameRunEnd(s, i + 1)
  }

  /** The end of the longest run of `[0-9.]` characters starting at i. */
  function ScoreRunEnd(s: string, i: nat): (j: nat)
    requires i <= |s|
    ensures i <= j <= |s| && (j == |s| || !InScoreClass(s[j]))
    ensures forall k :: i <= k < j ==> InScoreClass(s[k])
    decreases |s| - i
  {
    if i == |s| || !InScoreClass(s[i]) then i else ScoreRunEnd(s, i + 1)
  }

  /** The pair pattern matched at p: the end of the name group and the bounds of the
      score group. `:` is in neither class, so each greedy run is the only choice. */
  function PairAt(s: string, p: nat): (r: Option<(nat, nat, nat)>)
    ensures r.Some? ==> p < r.value.0 < r.value.1 < r.value.2 <= |s|
  {
    if p < |s| && InNameClass(s[p]) then
      var m := NameRunEnd(s, p);
      if m < |s| && s[m] == ':' then
        var a := SkipSpaces(s, m + 1);
        var b := ScoreRunEnd(s, a);
        if a < b then Some((m, a, b)) else None
      else None
    else None
  }

  /** `re.findall`: the (name, score) groups of every match from `from` on, left to
      right and not overlapping. */
  function FindPairs(s: string, from: nat): (r: seq<(string, string)>)
    requires from <= |s|
    decreases |s| - from
  {
    if from == |s| then []
    else
      match PairAt(s, from)
      case Some(g) => [(s[from..g.0], s[g.1..g.2])] + FindPairs(s, g.2)
      case None => FindPairs(s, from + 1)
  }

  /** Each name found is a non-empty `[\w\s]` run, each score a non-empty `[0-9.]` run. */
  lemma {:induction false} FindPairsClasses(s: string, from: nat)
    requires from <= |s|
    ensures forall i :: 0 <= i < |FindPairs(s, from)| ==>
              |FindPairs(s, from)[i].0| > 0 && forall k :: 0 <= k < |FindPairs(s, from)[i].0| ==> InNameClass(FindPairs(s, from)[i].0[k])
    ensures forall i :: 0 <= i < |FindPairs(s, from)| ==>
              |FindPairs(s, from)[i].1| > 0 && forall k :: 0 <= k < |FindPairs(s, from)[i].1| ==> InScoreClass(FindPairs(s, from)[i].1[k])
    decreases |s| - from
  {
    if from < |s| {
      match PairAt(s, from)
      case Some(g) =>
        FindPairsClasses(s, g.2);
        var name, score := s[from..g.0], s[g.1..g.2];
        assert forall k :: 0 <= k < |name| ==> name[k] == s[from + k];
        assert forall k :: 0 <= k < |score| ==> score[k] == s[g.1 + k];
        assert FindPairs(s, from) == [(name, score)] + FindPairs(s, g.2);
      case None =>
        FindPairsClasses(s, from + 1);
    }
  }

  /** Without a colon there is nothing to find. */
  lemma {:induction false} NoColonNoPairs(s: string, from: nat)
    requires from <= |s| && forall k :: from <= k < |s| ==> s[k] != ':'
    ensures FindPairs(s, from) == []
    decreases |s| - from
  {
    if from < |s| {
      assert PairAt(s, from).None?;
      NoColonNoPairs(s, from + 1);
    }
  }

  /** `name: score` written at p, and not followed by another score character. */
  predicate WrittenAt(s: string, p: nat, name: string, score: string) {
    p + |name| + 2 + |score| <= |s|
    && (forall k {:trigger name[k]} :: 0 <= k < |name| ==> s[p + k] == name[k])
    && s[p + |name|] == ':' && s[p + |name| + 1] == ' '
    && (forall k {:trigger score[k]} :: 0 <= k < |score| ==> s[p + |name| + 2 + k] == score[k])
    && (p + |name| + 2 + |score| == |s| || !InScoreClass(s[p + |name| + 2 + |score|]))
  }

  lemma {:induction false} NameRunEndIs(s: string, i: nat, j: nat)
    requires i <= j < |s| && !InNameClass(s[j])
    requires forall k :: i <= k < j ==> InNameClass(s[k])
    ensures NameRunEnd(s, i) == j
  {
    var r := NameRunEnd(s, i);
    assert !(r < j);
    assert !(j < r);
  }

  lemma {:induction false} ScoreRunEndIs(s: string, i: nat, j: nat)
    requires i <= j <= |s| && (j == |s| || !InScoreClass(s[j]))
    requires forall k :: i <= k < j ==> InScoreClass(s[k])
    ensures ScoreRunEnd(s, i) == j
  {
    var r := ScoreRunEnd(s, i);
    assert !(r < j);
    assert !(j < r);
  }

  /** A pair written at p is the match at p. */
  lemma {:induction false} PairAtHere(s: string, p: nat, name: string, score: string)
    requires |name| > 0 && forall k :: 0 <= k < |name| ==> InNameClass(name[k])
    requires |score| > 0 && forall k :: 0 <= k < |score| ==> InScoreClass(score[k])
    requires WrittenAt(s, p, name, score)
    ensures PairAt(s, p) == Some((p + |name|, p + |name| + 2, p + |name| + 2 + |score|))
  {
    var m := p + |name|;
    var e := m + 2 + |score|;
    assert InNameClass(s[p]) by {
      assert s[p] == name[0];
    }
    forall k | p <= k < m
      ensures InNameClass(s[k])
    {
      assert s[p + (k - p)] == name[k - p];
    }
    assert !InNameClass(s[m]);
    NameRunEndIs(s, p, m);
    assert SkipSpaces(s, m + 1) == m + 2 by {
      assert s[m + 2] == score[0];
    }
    forall k | m + 2 <= k < e
      ensures InScoreClass(s[k])
    {
      assert s[m + 2 + (k - m - 2)] == score[k - m - 2];
    }
    ScoreRunEndIs(s, m + 2, e);
  }

  /** ... and its groups are the name and the score. */
  lemma {:induction false} GroupsHere(s: string, p: nat, name: string, score: string)
    requires WrittenAt(s, p, name, score)
    ensures s[p..p + |name|] == name && s[p + |name| + 2..p + |name| + 2 + |score|] == score
  {
    var m := p + |name|;
    assert forall k :: 0 <= k < |name| ==> s[p..m][k] == name[k];
    assert forall k :: 0 <= k < |score| ==> s[m + 2..m + 2 + |score|][k] == score[k];
  }

  /** So the scan from p yields that pair first, then carries on after the score. */
  lemma {:induction false} FindPairsHere(s: string, p: nat, name: string, score: string)
    requires |name| > 0 && forall k :: 0 <= k < |name| ==> InNameClass(name[k])
    requires |score| > 0 && forall k :: 0 <= k < |score| ==> InScoreClass(score[k])
    requires WrittenAt(s, p, name, score)
    ensures FindPairs(s, p) == [(name, score)] + FindPairs(s, p + |name| + 2 + |score|)
  {
    FindPairsStep(s, p, name, score);
    GroupsHere(s, p, name, score);
    SameGroups(s, p, name, score);
  }

  lemma {:induction false} FindPairsStep(s: string, p: nat, name: string, score: string)
    requires |name| > 0 && forall k :: 0 <= k < |name| ==> InNameClass(name[k])
    requires |score| > 0 && forall k :: 0 <= k < |score| ==> InScoreClass(score[k])
    requires WrittenAt(s, p, name, score)
    ensures FindPairs(s, p) == [(s[p..p + |name|], s[p + |name| + 2..p + |name| + 2 + |score|])]
                               + FindPairs(s, p + |name| + 2 + |score|)
  {
    var m, e := p + |name|, p + |name| + 2 + |score|;
    PairAtHere(s, p, name, score);
    FindPairsAtMatch(s, p, m, m + 2, e);
  }

  lemma {:induction false} SameGroups(s: string, p: nat, name: string, score: string)
    requires p + |name| + 2 + |score| <= |s|
    requires s[p..p + |name|] == name && s[p + |name| + 2..p + |name| + 2 + |score|] == score
    requires FindPairs(s, p) == [(s[p..p + |name|], s[p + |name| + 2..p + |name| + 2 + |score|])]
                                + FindPairs(s, p + |name| + 2 + |score|)
    ensures FindPairs(s, p) == [(name, score)] + FindPairs(s, p + |name| + 2 + |score|)
  {
  }

  /** One step of the scan where the pattern matches. */
  lemma {:induction false} FindPairsAtMatch(s: string, p: nat, m: nat, a: nat, b: nat)
    requires p < |s| && PairAt(s, p) == Some((m, a, b))
    ensures p < m <= a <= b <= |s|
    ensures FindPairs(s, p) == [(s[p..m], s[a..b])] + FindPairs(s, b)
  {
  }

  /** `pre + name + ": " + score + post` has the pair written right after `pre`. */
  lemma {:induction false} WrittenAfter(pre: string, name: string, score: string, post: string)
    requires post == [] || !InScoreClass(post[0])
    ensures WrittenAt(pre + name + ": " + score + post, |pre|, name, score)
  {
    var s := pre + name + ": " + score + post;
    var m := |pre| + |name|;
    assert forall k :: 0 <= k < |name| ==> s[|pre| + k] == name[k];
    assert s[m] == ':' && s[m + 1] == ' ';
    assert forall k :: 0 <= k < |score| ==> s[m + 2 + k] == score[k];
    assert m + 2 + |score| < |s| ==> s[m + 2 + |score|] == post[0];
  }

  /** A single `name: score` is found as one pair. */
  lemma {:induction false} OnePair(name: string, score: string)
    requires |name| > 0 && forall k :: 0 <= k < |name| ==> InNameClass(name[k])
    requires |score| > 0 && forall k :: 0 <= k < |score| ==> InScoreClass(score[k])
    ensures FindPairs(name + ": " + score, 0) == [(name, score)]
  {
    var s := name + ": " + score;
    assert s == [] + name + ": " + score + [];
    WrittenAfter([], name, score, []);
    FindPairsHere(s, 0, name, score);
    assert FindPairs(s, |s|) == [];
  }

  /** Two pairs written at 0 and right after a comma are both found, in order. */
  lemma {:induction false} TwoPairsIn(s: string, name1: string, score1: string, name2: string, score2: string)
    requires |name1| > 0 && forall k :: 0 <= k < |name1| ==> InNameClass(name1[k])
    requires |score1| > 0 && forall k :: 0 <= k < |score1| ==> InScoreClass(score1[k])
    requires |name2| > 0 && forall k :: 0 <= k < |name2| ==> InNameClass(name2[k])
    requires |score2| > 0 && forall k :: 0 <= k < |score2| ==> InScoreClass(score2[k])
    requires |s| == |name1| + |score1| + |name2| + |score2| + 5
    requires WrittenAt(s, 0, name1, score1) && s[|name1| + 2 + |score1|] == ','
    requires WrittenAt(s, |name1| + 3 + |score1|, name2, score2)
    ensures FindPairs(s, 0) == [(name1, score1), (name2, score2)]
  {
    var e := |name1| + 2 + |score1|;
    FindPairsHere(s, e + 1, name2, score2);
    FindPairsSkip(s, e);
    FindPairsHere(s, 0, name1, score1);
    assert FindPairs(s, |s|) == [];
  }

  /** Where no name starts, the scan moves on by one character. */
  lemma {:induction false} FindPairsSkip(s: string, p: nat)
    requires p < |s| && !InNameClass(s[p])
    ensures FindPairs(s, p) == FindPairs(s, p + 1)
  {
  }

  /** Two pairs separated by `, ` are both found, in order; the space after the comma
      is in the name class, so the second name keeps it (the loop's `.strip()` drops
      it). */
  lemma {:induction false} TwoPairs(name1: string, score1: string, name2: string, score2: string)
    requires |name1| > 0 && forall k :: 0 <= k < |name1| ==> InNameClass(name1[k])
    requires |score1| > 0 && forall k :: 0 <= k < |score1| ==> InScoreClass(score1[k])
    requires |name2| > 0 && forall k :: 0 <= k < |name2| ==> InNameClass(name2[k])
    requires |score2| > 0 && forall k :: 0 <= k < |score2| ==> InScoreClass(score2[k])
    ensures FindPairs(name1 + ": " + score1 + ", " + name2 + ": " + score2, 0)
            == [(name1, score1), (" " + name2, score2)]
  {
    var name2' := " " + name2;
    var head := name1 + ": " + score1 + ",";
    var s := name1 + ": " + score1 + ", " + name2 + ": " + score2;
    assert forall k :: 0 <= k < |name2'| ==> InNameClass(name2'[k]) by {
      assert forall k :: 1 <= k < |name2'| ==> name2'[k] == name2[k - 1];
    }
    assert s == [] + name1 + ": " + score1 + (", " + name2 + ": " + score2);
    assert s == head + name2' + ": " + score2 + [];
    WrittenAfter([], name1, score1, ", " + name2 + ": " + score2);
    WrittenAfter(head, name2', score2, []);
    assert s[|name1| + 2 + |score1|] == head[|head| - 1] == ',';
    TwoPairsIn(s, name1, score1, name2', score2);
  }

  /** `float(score)` on a `[0-9.]` run succeeds when it holds a digit and at most one dot. */
  predicate IsFloatLiteral(lit: string) {
    (exists k :: 0 <= k < |lit| && IsDigit(lit[k])) && multiset(lit)['.'] <= 1
  }

  /** Every score of the pairs is accepted by `float`. */
  predicate ScoresParse(pairs: seq<(string, string)>) {
    forall i :: 0 <= i < |pairs| ==> IsFloatLiteral(pairs[i].1)
  }

  lemma ScoresParseInit(pairs: seq<(string, string)>)
    requires pairs != []
    ensures ScoresParse(pairs) <==> ScoresParse(pairs[..|pairs| - 1]) && IsFloatLiteral(pairs[|pairs| - 1].1)
  {
    assert forall i :: 0 <= i < |pairs| - 1 ==> pairs[..|pairs| - 1][i] == pairs[i];
  }

  /** The loop `emotion_dict[emotion.strip()] = float(score)`: `None` when some `float`
      raises ValueError; a repeated name keeps its first position and its last score.
      The result is empty only when there were no pairs, and every value is a number. */
  function PairsToDict(pairs: seq<(string, string)>): (r: Option<Dict>)
    ensures r.Some? <==> ScoresParse(pairs)
    ensures r.Some? ==> (r.value == [] <==> pairs == [])
    ensures r.Some? ==> forall k :: 0 <= k < |r.value| ==> r.value[k].1.VNum?
    decreases |pairs|
  {
    if pairs == [] then Some([])
    else
      var init, last := pairs[..|pairs| - 1], pairs[|pairs| - 1];
      ScoresParseInit(pairs);
      match PairsToDict(init)
      case None => None
      case Some(d) =>
        if IsFloatLiteral(last.1) then
          InsertKeepsNumbers(d, Strip(last.0), last.1);
          Some(Insert(d, Strip(last.0), VNum(last.1)))
        else None
  }

  lemma InsertKeepsNumbers(d: Dict, k: string, lit: string)
    requires forall j :: 0 <= j < |d| ==> d[j].1.VNum?
    ensures forall j :: 0 <= j < |Insert(d, k, VNum(lit))| ==> Insert(d, k, VNum(lit))[j].1.VNum?
    ensures Insert(d, k, VNum(lit)) != []
  {
    if d != [] && d[0].0 != k {
      InsertKeepsNumbers(d[1..], k, lit);
    }
  }

  /** Some pair's name, stripped, is k. */
  predicate NamedIn(pairs: seq<(string, string)>, k: string) {
    exists i :: 0 <= i < |pairs| && Strip(pairs[i].0) == k
  }

  lemma NamedInInit(pairs: seq<(string, string)>, k: string)
    requires pairs != []
    ensures NamedIn(pairs, k) <==> NamedIn(pairs[..|pairs| - 1], k) || Strip(pairs[|pairs| - 1].0) == k
  {
    var init := pairs[..|pairs| - 1];
    if NamedIn(pairs, k) && Strip(pairs[|pairs| - 1].0) != k {
      var i :| 0 <= i < |pairs| && Strip(pairs[i].0) == k;
      assert init[i] == pairs[i];
    }
    if NamedIn(init, k) {
      var i :| 0 <= i < |init| && Strip(init[i].0) == k;
      assert pairs[i] == init[i];
    }
  }

  /** The keys of the dict are exactly the stripped names. */
  lemma {:induction false} PairsToDictKeys(pairs: seq<(string, string)>, k: string)
    requires ScoresParse(pairs)
    ensures PairsToDict(pairs).Some?
    ensures HasKey(PairsToDict(pairs).value, k) <==> NamedIn(pairs, k)
    decreases |pairs|
  {
    if pairs != [] {
      var init, last := pairs[..|pairs| - 1], pairs[|pairs| - 1];
      ScoresParseInit(pairs);
      PairsToDictKeys(init, k);
      NamedInInit(pairs, k);
      var d := PairsToDict(init).value;
      assert PairsToDict(pairs).value == Insert(d, Strip(last.0), VNum(last.1));
    }
  }

  /** `emotion_dict[emotion.strip()] = float(score)`: a name maps to the score of its
      last pair. */
  lemma {:induction false} PairsToDictLookup(pairs: seq<(string, string)>, i: nat)
    requires ScoresParse(pairs)
    requires i < |pairs|
    requires forall j :: i < j < |pairs| ==> Strip(pairs[j].0) != Strip(pairs[i].0)
    ensures PairsToDict(pairs).Some?
    ensures Lookup(PairsToDict(pairs).value, Strip(pairs[i].0)) == Some(VNum(pairs[i].1))
    decreases |pairs|
  {
    var init, last := pairs[..|pairs| - 1], pairs[|pairs| - 1];
    ScoresParseInit(pairs);
    var d := PairsToDict(init).value;
    assert PairsToDict(pairs).value == Insert(d, Strip(last.0), VNum(last.1));
    if i < |pairs| - 1 {
      assert init[i] == pairs[i];
      assert forall j :: i < j < |init| ==> init[j] == pairs[j];
      PairsToDictLookup(init, i);
    }
  }

  // ---------------------------------------------------------------------------
  // Properties of the capture patterns

  /** A label followed by a colon right after `pre` cannot also be matched inside
      `pre`, when `pre` has no `:` or `=` and the label does not end in white space. */
  lemma NoLabelBefore(pre: string, lbl: string, tail: string, p: nat)
    requires |lbl| > 0 && !IsSpace(lbl[|lbl| - 1]) && ':' !in lbl && '=' !in lbl
    requires ':' !in pre && '=' !in pre
    requires p < |pre|
    ensures ValueAfterLabel(pre + lbl + tail, p, lbl).None?
  {
    var s := pre + lbl + tail;
    if HasAtIgnoreCase(s, p, lbl) {
      var c := SkipSpaces(s, p + |lbl|);
      assert s[|pre| + |lbl| - 1] == lbl[|lbl| - 1];
      assert c < |pre| + |lbl|;
      if c < |pre| {
        assert s[c] == pre[c];
      } else {
        assert s[c] == lbl[c - |pre|];
      }
    }
  }

  /** At the position of `lbl: ` the value starts right after the colon's spaces. */
  lemma LabelValueAt(pre: string, lbl: string, rest: string)
    requires |lbl| > 0 && ':' !in lbl
    requires |rest| > 0 && !IsSpace(rest[0])
    ensures ValueAfterLabel(pre + lbl + ": " + rest, |pre|, lbl) == Some(|pre| + |lbl| + 2)
  {
    var s := pre + lbl + ": " + rest;
    var c := |pre| + |lbl|;
    assert s[|pre|..c] == lbl;
    assert HasAtIgnoreCase(s, |pre|, lbl);
    assert s[c] == ':' && s[c + 1] == ' ' && s[c + 2] == rest[0];
    assert SkipSpaces(s, c) == c;
    assert SkipSpaces(s, c + 1) == c + 2;
  }

  /** The leftmost match is at the label written right after `pre`. */
  lemma SearchFindsLabel(pre: string, lbl: string, tail: string, pat: Pattern)
    requires pat.lbl == lbl
    requires |lbl| > 0 && !IsSpace(lbl[|lbl| - 1]) && ':' !in lbl && '=' !in lbl
    requires ':' !in pre && '=' !in pre
    requires MatchAt(pre + lbl + tail, |pre|, pat).Some?
    ensures Search(pre + lbl + tail, pat) == Some(|pre|)
  {
    forall p | 0 <= p < |pre|
      ensures MatchAt(pre + lbl + tail, p, pat).None?
    {
      NoLabelBefore(pre, lbl, tail, p);
    }
    var r := Search(pre + lbl + tail, pat);
    assert r.Some?;
    assert !(r.value < |pre|);
    assert !(|pre| < r.value);
  }

  /** `lbl: "value"` matches the quoted pattern at the label. */
  lemma QuotedMatchAt(pre: string, lbl: string, v: string, post: string)
    requires |lbl| > 0 && ':' !in lbl
    requires '"' !in v && '\'' !in v
    ensures MatchAt(pre + lbl + ": \"" + v + "\"" + post, |pre|, Quoted(lbl))
            == Some((|pre| + |lbl| + 3, |pre| + |lbl| + 3 + |v|))
  {
    var s := pre + lbl + ": \"" + v + "\"" + post;
    var c := |pre| + |lbl|;
    assert s == pre + lbl + ": " + ("\"" + v + "\"" + post);
    LabelValueAt(pre, lbl, "\"" + v + "\"" + post);
    assert s[c + 2] == '"';
    forall k | c + 3 <= k < c + 3 + |v|
      ensures !IsQuote(s[k])
    {
      assert s[k] == v[k - c - 3];
    }
    assert s[c + 3 + |v|] == '"';
    assert FindQuote(s, c + 3) == Some(c + 3 + |v|);
  }

  /** `lbl: value` up to a newline matches the line pattern at the label. */
  lemma LineMatchAt(pre: string, lbl: string, v: string, post: string)
    requires |lbl| > 0 && ':' !in lbl
    requires |v| > 0 && !IsSpace(v[0]) && '\n' !in v
    ensures MatchAt(pre + lbl + ": " + v + "\n" + post, |pre|, ToLineEnd(lbl))
            == Some((|pre| + |lbl| + 2, |pre| + |lbl| + 2 + |v|))
  {
    var s := pre + lbl + ": " + v + "\n" + post;
    var c := |pre| + |lbl|;
    assert s == pre + lbl + ": " + (v + "\n" + post);
    LabelValueAt(pre, lbl, v + "\n" + post);
    forall k | c + 2 <= k < c + 2 + |v|
      ensures s[k] != '\n'
    {
      assert s[k] == v[k - c - 2];
    }
    assert s[c + 2 + |v|] == '\n';
    assert LineEnd(s, c + 2) == c + 2 + |v|;
  }

  /** The pattern loop breaks at j when pattern j matches and no earlier one does. */
  lemma FirstMatchingIs(s: string, pats: seq<Pattern>, j: nat)
    requires j < |pats| && Group(s, pats[j]).Some?
    requires forall k :: 0 <= k < j ==> Group(s, pats[k]).None?
    ensures FirstMatching(s, pats) == Some(j)
  {
    var m := FirstMatching(s, pats);
    assert m.Some?;
    assert !(m.value < j);
    assert !(j < m.value);
  }

  /** When the quoted snake-case pattern matches, it decides the capture. */
  lemma CaptureByQuoted(s: string, fieldName: string)
    requires Group(s, Quoted(fieldName)).Some?
    ensures Capture(s, fieldName) == Some(Strip(Group(s, Quoted(fieldName)).value))
  {
    var pats := FieldPatterns(fieldName);
    assert pats[0] == Quoted(fieldName);
    FirstMatchingIs(s, pats, 0);
  }

  /** When only the line pattern matches among the snake-case ones, it decides the
      capture. */
  lemma CaptureByLine(s: string, fieldName: string)
    requires Group(s, Quoted(fieldName)).None? && Group(s, ToLineEnd(fieldName)).Some?
    ensures Capture(s, fieldName) == Some(Strip(Group(s, ToLineEnd(fieldName)).value))
  {
    var pats := FieldPatterns(fieldName);
    assert pats[0] == Quoted(fieldName) && pats[1] == ToLineEnd(fieldName);
    FirstMatchingIs(s, pats, 1);
  }

  /** The quoted pattern's group at the label written right after `pre`. */
  lemma QuotedGroup(pre: string, fieldName: string, v: string, post: string)
    requires |fieldName| > 0 && !IsSpace(fieldName[|fieldName| - 1]) && ':' !in fieldName && '=' !in fieldName
    requires ':' !in pre && '=' !in pre
    requires '"' !in v && '\'' !in v
    ensures Group(pre + fieldName + ": \"" + v + "\"" + post, Quoted(fieldName)) == Some(v)
  {
    var s := pre + fieldName + ": \"" + v + "\"" + post;
    var c := |pre| + |fieldName|;
    assert MatchAt(s, |pre|, Quoted(fieldName)) == Some((c + 3, c + 3 + |v|)) by {
      QuotedMatchAt(pre, fieldName, v, post);
    }
    assert Search(s, Quoted(fieldName)) == Some(|pre|) by {
      var tail := ": \"" + v + "\"" + post;
      assert s == pre + fieldName + tail;
      SearchFindsLabel(pre, fieldName, tail, Quoted(fieldName));
    }
    assert s[c + 3..c + 3 + |v|] == v;
  }

  /** A field written as `field_name: "value"`, with no `:` or `=` before it, is
      captured by the first pattern: the value, stripped. */
  lemma CaptureQuotedRoundTrip(pre: string, fieldName: string, v: string, post: string)
    requires |fieldName| > 0 && !IsSpace(fieldName[|fieldName| - 1]) && ':' !in fieldName && '=' !in fieldName
    requires ':' !in pre && '=' !in pre
    requires '"' !in v && '\'' !in v
    ensures Capture(pre + fieldName + ": \"" + v + "\"" + post, fieldName) == Some(Strip(v))
  {
    QuotedGroup(pre, fieldName, v, post);
    CaptureByQuoted(pre + fieldName + ": \"" + v + "\"" + post, fieldName);
  }

  /** In a text without quote characters the quoted patterns never match. */
  lemma NoQuoteNoQuotedGroup(s: string, lbl: string)
    requires forall k :: 0 <= k < |s| ==> !IsQuote(s[k])
    ensures Group(s, Quoted(lbl)).None?
  {
    forall p | 0 <= p <= |s|
      ensures MatchAt(s, p, Quoted(lbl)).None?
    {
    }
  }

  /** The line pattern's group at the label written right after `pre`. */
  lemma LineGroup(pre: string, fieldName: string, v: string, post: string)
    requires |fieldName| > 0 && !IsSpace(fieldName[|fieldName| - 1]) && ':' !in fieldName && '=' !in fieldName
    requires ':' !in pre && '=' !in pre
    requires |v| > 0 && !IsSpace(v[0]) && '\n' !in v
    ensures Group(pre + fieldName + ": " + v + "\n" + post, ToLineEnd(fieldName)) == Some(v)
  {
    var s := pre + fieldName + ": " + v + "\n" + post;
    var c := |pre| + |fieldName|;
    assert MatchAt(s, |pre|, ToLineEnd(fieldName)) == Some((c + 2, c + 2 + |v|)) by {
      LineMatchAt(pre, fieldName, v, post);
    }
    assert Search(s, ToLineEnd(fieldName)) == Some(|pre|) by {
      var tail := ": " + v + "\n" + post;
      assert s == pre + fieldName + tail;
      SearchFindsLabel(pre, fieldName, tail, ToLineEnd(fieldName));
    }
    assert s[c + 2..c + 2 + |v|] == v;
  }

  /** A field written as `field_name: value` on its own line, in a text without
      quote characters, is captured by the second pattern: the value, stripped. */
  lemma CaptureLineRoundTrip(pre: string, fieldName: string, v: string, post: string)
    requires |fieldName| > 0 && !IsSpace(fieldName[|fieldName| - 1]) && ':' !in fieldName && '=' !in fieldName
    requires ':' !in pre && '=' !in pre
    requires |v| > 0 && !IsSpace(v[0]) && '\n' !in v
    requires forall k :: 0 <= k < |pre + fieldName + ": " + v + "\n" + post| ==> !IsQuote((pre + fieldName + ": " + v + "\n" + post)[k])
    ensures Capture(pre + fieldName + ": " + v + "\n" + post, fieldName) == Some(Strip(v))
  {
    var s := pre + fieldName + ": " + v + "\n" + post;
    NoQuoteNoQuotedGroup(s, fieldName);
    LineGroup(pre, fieldName, v, post);
    CaptureByLine(s, fieldName);
  }
}

=== FILE: recovery.dfy ===
/** The three tiers of `SessionManager._extract_and_parse_task_result`, as
    specification functions: a JSON span validated against the schema, per-field
    pattern capture with post-processing and defaults, and default synthesis when
    building the model from the captures fails. `json.loads` is the parameter
    `parse`: the decoded value, or `None` for a JSONDecodeError. */
module Recovery {
  import opened Base
  import opened Text
  import opened Values
  import opened Schemas
  import opened Patterns
  import opened Locator

  type Parser = string -> Option<Value>

  /** The first index of c in s. */
  function FirstIndexOf(s: string, c: char): (r: Option<nat>)
    ensures r.Some? ==> r.value < |s| && s[r.value] == c
    ensures r.Some? ==> forall k :: 0 <= k < r.value ==> s[k] != c
    ensures r.None? ==> forall k :: 0 <= k < |s| ==> s[k] != c
  {
    var at := (k: nat) => k < |s| && s[k] == c;
    assert forall k: nat :: at(k) == (k < |s| && s[k] == c);
    FirstWhere(at, 0, |s|)
  }

  /** The last index of c in s. */
  function LastIndexOf(s: string, c: char): (r: Option<nat>)
    ensures r.Some? ==> r.value < |s| && s[r.value] == c
    ensures r.Some? ==> forall k :: r.value < k < |s| ==> s[k] != c
    ensures r.None? ==> forall k :: 0 <= k < |s| ==> s[k] != c
  {
    if s == [] then None
    else if s[|s| - 1] == c then Some(|s| - 1)
    else LastIndexOf(s[..|s| - 1], c)
  }

  /** `re.search(r'\{.*\}', s, re.DOTALL)`: greedy, so the match runs from the first
      `{` to the last `}`, and there is one exactly when some `{` precedes some `}`. */
  function JsonSpan(s: string): (r: Option<(nat, nat)>)
    ensures r.Some? ==> r.value.0 < r.value.1 < |s| && s[r.value.0] == '{' && s[r.value.1] == '}'
    ensures r.Some? ==> forall k :: 0 <= k < r.value.0 ==> s[k] != '{'
    ensures r.Some? ==> forall k :: r.value.1 < k < |s| ==> s[k] != '}'
    ensures r.None? ==> forall i, j :: 0 <= i < j < |s| && s[i] == '{' ==> s[j] != '}'
  {
    match (FirstIndexOf(s, '{'), LastIndexOf(s, '}'))
    case (Some(i), Some(j)) => if i < j then Some((i, j)) else None
    case _ => None
  }

  /** What the JSON tier hands on: an instance, or control to the pattern tier. */
  datatype JsonOutcome = Parsed(inst: Dict) | Fallthrough

  /** The text Tier 1 decodes: the span when there is one, the whole text otherwise. */
  function JsonText(s: string): (t: string)
    ensures JsonSpan(s).Some? ==> t == s[JsonSpan(s).value.0..JsonSpan(s).value.1 + 1]
    ensures JsonSpan(s).None? ==> t == s
  {
    match JsonSpan(s) case Some(span) => s[span.0..span.1 + 1] case None => s
  }

  /** Tier 1. Only the span is parsed when there is one; the whole text otherwise.
      A decode error or a ValidationError (a ValueError) falls through to Tier 2; a
      decoded value that is not an object makes `model_class(**data)` raise TypeError,
      which nothing catches. */
  function JsonTier(s: string, fields: seq<Field>, parse: Parser): (r: Outcome<JsonOutcome>)
    ensures parse(JsonText(s)).None? ==> r == Ok(Fallthrough)
    ensures r.Raise? <==> parse(JsonText(s)).Some? && !parse(JsonText(s)).value.VDict?
    ensures r.Raise? ==> r.error == TypeError
    ensures r.Ok? && r.value.Parsed? <==>
              parse(JsonText(s)).Some? && parse(JsonText(s)).value.VDict?
              && Validate(fields, parse(JsonText(s)).value.entries).Some?
    ensures r.Ok? && r.value.Parsed? ==>
              r.value.inst == Validate(fields, parse(JsonText(s)).value.entries).value
              && IsInstance(fields, r.value.inst)
  {
    match parse(JsonText(s))
    case None => Ok(Fallthrough)
    case Some(v) =>
      if !v.VDict? then Raise(TypeError)
      else
        match Validate(fields, v.entries)
        case Some(inst) => Ok(Parsed(inst))
        case None => Ok(Fallthrough)
  }

  // ---------------------------------------------------------------------------
  // Tier 2

  /** The first loop: each field, in declaration order, that one of its patterns
      captures is stored as its stripped text. */
  function Captured(s: string, fields: seq<Field>): Dict
    decreases |fields|
  {
    if fields == [] then []
    else
      var d := Captured(s, fields[..|fields| - 1]);
      var f := fields[|fields| - 1];
      match Capture(s, f.name)
      case None => d
      case Some(v) => Insert(d, f.name, VStr(v))
  }

  /** One step of the first loop. */
  lemma CapturedStep(s: string, fields: seq<Field>, i: nat)
    requires i < |fields|
    ensures Captured(s, fields[..i + 1])
              == match Capture(s, fields[i].name)
                 case None => Captured(s, fields[..i])
                 case Some(v) => Insert(Captured(s, fields[..i]), fields[i].name, VStr(v))
  {
    assert fields[..i + 1][..i] == fields[..i];
  }

  function StripAll(parts: seq<string>): (r: seq<Value>)
    ensures |r| == |parts|
    ensures forall i :: 0 <= i < |parts| ==> r[i] == VStr(Strip(parts[i]))
  {
    if parts == [] then [] else [VStr(Strip(parts[0]))] + StripAll(parts[1..])
  }

  /** A captured dict field: a `{...}` text is decoded (`{}` when that fails); any
      other text becomes its `name: number` pairs, `{}` when some number does not
      parse, and stays the text itself when there are no pairs. */
  function DictFromText(t: string, parse: Parser): Value {
    if StartsWith(t, "{") && EndsWith(t, "}") then
      match parse(t)
      case Some(x) => x
      case None => VDict([])
    else
      match PairsToDict(FindPairs(t, 0))
      case None => VDict([])
      case Some(d) => if d == [] then VStr(t) else VDict(d)
  }

  /** A captured list field: a `[...]` text is decoded (`[]` when that fails); any other
      text is split at commas and each piece stripped. */
  function ListFromText(t: string, parse: Parser): Value {
    if StartsWith(t, "[") && EndsWith(t, "]") then
      match parse(t)
      case Some(x) => x
      case None => VList([])
    else VList(StripAll(SplitOn(t, ",")))
  }

  /** The second loop's rewrite of one stored value. A value that is no longer a string
      (a field named twice) fails `.startswith` with AttributeError, which the inner
      handler turns into the empty dict or list. */
  function PostProcessValue(kind: FieldKind, v: Value, parse: Parser): Value {
    match kind
    case DictKind => if v.VStr? then DictFromText(v.s, parse) else VDict([])
    case ListKind => if v.VStr? then ListFromText(v.s, parse) else VList([])
    case _ => v
  }

  /** The second loop: dict and list fields that were captured are rewritten. */
  function PostProcessed(d: Dict, fields: seq<Field>, parse: Parser): Dict
    decreases |fields|
  {
    if fields == [] then d
    else
      var d' := PostProcessed(d, fields[..|fields| - 1], parse);
      var f := fields[|fields| - 1];
      if (f.kind == DictKind || f.kind == ListKind) && HasKey(d', f.name) then
        Insert(d', f.name, PostProcessValue(f.kind, Lookup(d', f.name).value, parse))
      else d'
  }

  /** The third loop: each field still missing gets the empty value of its type. */
  function WithDefaults(d: Dict, fields: seq<Field>): Dict
    decreases |fields|
  {
    if fields == [] then d
    else
      var d' := WithDefaults(d, fields[..|fields| - 1]);
      var f := fields[|fields| - 1];
      if HasKey(d', f.name) then d' else Insert(d', f.name, EmptyValue(f.kind))
  }

  /** How Tier 2 ends: nothing captured (the function returns `None`), a model built,
      or a ValidationError from `model_class(**extracted_data)` (Tier 3 runs). */
  datatype PatternOutcome = NoCapture | Built(inst: Dict) | ConstructFailed

  function PatternTier(s: string, fields: seq<Field>, parse: Parser): (r: PatternOutcome)
    ensures r.Built? ==> IsInstance(fields, r.inst)
  {
    var d := PostProcessed(Captured(s, fields), fields, parse);
    if d == [] then NoCapture
    else
      match Validate(fields, WithDefaults(d, fields))
      case Some(inst) => Built(inst)
      case None => ConstructFailed
  }

  // ---------------------------------------------------------------------------
  // Tier 3

  /** The text a `str` field gets in the fallback: the first 500 characters of the raw
      text for `analysis` and `perspective`, nothing for the others. */
  function FallbackText(name: string, s: string): (t: string)
    ensures |t| <= 500 && t <= s
    ensures (name == "analysis" || name == "perspective") && |s| <= 500 ==> t == s
    ensures (name == "analysis" || name == "perspective") && |s| > 500 ==> |t| == 500 && t == s[..500]
    ensures !(name == "analysis" || name == "perspective") ==> t == ""
  {
    if name == "analysis" || name == "perspective" then (if |s| > 500 then s[..500] else s)
    else ""
  }

  function DefaultValue(f: Field, s: string): (v: Value)
    ensures Conforms(f.kind, v)
    ensures f.kind == StrKind ==> v == VStr(FallbackText(f.name, s))
    ensures f.kind != StrKind ==> !Truthy(v)
  {
    if f.kind == StrKind then VStr(FallbackText(f.name, s)) else EmptyValue(f.kind)
  }

  /** The default-synthesis loop. */
  function Defaults(fields: seq<Field>, s: string): Dict
    decreases |fields|
  {
    if fields == [] then []
    else
      var f := fields[|fields| - 1];
      Insert(Defaults(fields[..|fields| - 1], s), f.name, DefaultValue(f, s))
  }

  // ---------------------------------------------------------------------------
  // The whole engine

  /** Recovery from the located raw value: `None` for a falsy value, TypeError from
      `re.search` for a truthy value that is not a string, then the three tiers. Every
      instance it returns is an instance of the schema. */
  function Recover(raw: Value, schema: Schema, parse: Parser): (r: Outcome<Option<Dict>>)
    ensures !Truthy(raw) ==> r == Ok(None)
    ensures Truthy(raw) && !raw.VStr? ==> r == Raise(TypeError)
    ensures r.Raise? ==> r.error == TypeError
    ensures r.Ok? && r.value.Some? ==> IsInstance(schema.fields, r.value.value)
    ensures raw.VStr? && raw.s != [] ==>
              var tier1 := JsonTier(raw.s, schema.fields, parse);
              var tier2 := PatternTier(raw.s, schema.fields, parse);
              (tier1.Raise? ==> r == Raise(TypeError))
              && (tier1.Ok? && tier1.value.Parsed? ==> r == Ok(Some(tier1.value.inst)))
              && (tier1 == Ok(Fallthrough) && tier2.NoCapture? ==> r == Ok(None))
              && (tier1 == Ok(Fallthrough) && tier2.Built? ==> r == Ok(Some(tier2.inst)))
              && (tier1 == Ok(Fallthrough) && tier2.ConstructFailed? ==>
                    r == Ok(Validate(schema.fields, Defaults(schema.fields, raw.s))))
  {
    if !Truthy(raw) then Ok(None)
    else if !raw.VStr? then Raise(TypeError)
    else
      var s := raw.s;
      var t1 :- JsonTier(s, schema.fields, parse);
      match t1
      case Parsed(inst) => Ok(Some(inst))
      case Fallthrough =>
        match PatternTier(s, schema.fields, parse)
        case NoCapture => Ok(None)
        case Built(inst) => Ok(Some(inst))
        case ConstructFailed => Ok(Validate(schema.fields, Defaults(schema.fields, s)))
  }

  /** `_extract_and_parse_task_result(crew_result, task_id, model_class, agent_filter)`. */
  function ExtractAndParse(crewResult: Value, taskId: string, schema: Schema, agentFilter: Option<string>,
                           parse: Parser): (r: Outcome<Option<Dict>>)
    ensures r.Ok? && r.value.Some? ==> IsInstance(schema.fields, r.value.value)
    ensures ExtractTaskResult(crewResult, taskId, agentFilter).Raise? ==>
              r == Raise(ExtractTaskResult(crewResult, taskId, agentFilter).error)
    ensures ExtractTaskResult(crewResult, taskId, agentFilter).Ok? ==>
              r == Recover(ExtractTaskResult(crewResult, taskId, agentFilter).value, schema, parse)
  {
    var raw :- ExtractTaskResult(crewResult, taskId, agentFilter);
    Recover(raw, schema, parse)
  }

  // ---------------------------------------------------------------------------
  // Properties of the tiers

  /** What the first loop stores for a field called `name`. */
  function StoredText(s: string, name: string): Option<Value> {
    match Capture(s, name)
    case None => None
    case Some(v) => Some(VStr(v))
  }

  /** The value a field ends Tier 2 with: its captured text after post-processing, or
      the empty value of its type when no pattern captured it. */
  function FieldValue(s: string, f: Field, parse: Parser): Value {
    match Capture(s, f.name)
    case None => EmptyValue(f.kind)
    case Some(v) => PostProcessValue(f.kind, VStr(v), parse)
  }

  /** The first loop stores exactly the captured fields, each as its captured text. */
  lemma {:induction false} CapturedLookup(s: string, fields: seq<Field>, name: string)
    ensures Lookup(Captured(s, fields), name) == (if NameIn(fields, name) then StoredText(s, name) else None)
    decreases |fields|
  {
    if fields != [] {
      var init, f := fields[..|fields| - 1], fields[|fields| - 1];
      CapturedLookup(s, init, name);
      NameInInit(fields, name);
    }
  }

  /** No pattern of any field matches s. */
  predicate NoneCaptured(s: string, fields: seq<Field>) {
    forall i :: 0 <= i < |fields| ==> Capture(s, fields[i].name).None?
  }

  lemma AllMissedInit(s: string, fields: seq<Field>)
    requires fields != []
    ensures NoneCaptured(s, fields) <==>
            NoneCaptured(s, fields[..|fields| - 1]) && Capture(s, fields[|fields| - 1].name).None?
  {
    assert forall i :: 0 <= i < |fields| - 1 ==> fields[..|fields| - 1][i] == fields[i];
  }

  /** Nothing is stored exactly when no field is captured. */
  lemma {:induction false} CapturedEmpty(s: string, fields: seq<Field>)
    ensures Captured(s, fields) == [] <==> NoneCaptured(s, fields)
    decreases |fields|
  {
    if fields != [] {
      var init, f := fields[..|fields| - 1], fields[|fields| - 1];
      CapturedEmpty(s, init);
      AllMissedInit(s, fields);
      if Capture(s, f.name).Some? {
        assert Lookup(Captured(s, fields), f.name).Some?;
      } else {
        assert Captured(s, fields) == Captured(s, init);
      }
    }
  }

  lemma {:induction false} PostProcessedOther(d: Dict, fields: seq<Field>, parse: Parser, name: string)
    requires !NameIn(fields, name)
    ensures Lookup(PostProcessed(d, fields, parse), name) == Lookup(d, name)
    ensures |PostProcessed(d, fields, parse)| == |d|
    decreases |fields|
  {
    if fields != [] {
      NameInInit(fields, name);
      PostProcessedOther(d, fields[..|fields| - 1], parse, name);
    }
  }

  /** The second loop rewrites each stored dict or list field and keeps everything else. */
  lemma {:induction false} PostProcessedField(d: Dict, fields: seq<Field>, parse: Parser, i: nat)
    requires DistinctNames(fields) && i < |fields|
    ensures Lookup(PostProcessed(d, fields, parse), fields[i].name) ==
              match Lookup(d, fields[i].name)
              case None => None
              case Some(v) => Some(PostProcessValue(fields[i].kind, v, parse))
    decreases |fields|
  {
    var init, f := fields[..|fields| - 1], fields[|fields| - 1];
    DistinctInit(fields);
    if i < |fields| - 1 {
      assert init[i] == fields[i];
      PostProcessedField(d, init, parse, i);
    } else {
      PostProcessedOther(d, init, parse, f.name);
    }
  }

  lemma {:induction false} WithDefaultsOther(d: Dict, fields: seq<Field>, name: string)
    requires !NameIn(fields, name)
    ensures Lookup(WithDefaults(d, fields), name) == Lookup(d, name)
    decreases |fields|
  {
    if fields != [] {
      NameInInit(fields, name);
      WithDefaultsOther(d, fields[..|fields| - 1], name);
    }
  }

  /** The third loop leaves stored fields alone and fills in the missing ones. */
  lemma {:induction false} WithDefaultsField(d: Dict, fields: seq<Field>, i: nat)
    requires DistinctNames(fields) && i < |fields|
    ensures Lookup(WithDefaults(d, fields), fields[i].name) ==
              match Lookup(d, fields[i].name)
              case None => Some(EmptyValue(fields[i].kind))
              case Some(v) => Some(v)
    decreases |fields|
  {
    var init, f := fields[..|fields| - 1], fields[|fields| - 1];
    DistinctInit(fields);
    if i < |fields| - 1 {
      assert init[i] == fields[i];
      WithDefaultsField(d, init, i);
    } else {
      WithDefaultsOther(d, init, f.name);
    }
  }

  /** After the three loops every field holds its FieldValue. */
  lemma FieldValueStored(s: string, fields: seq<Field>, parse: Parser, i: nat)
    requires DistinctNames(fields) && i < |fields|
    ensures Lookup(WithDefaults(PostProcessed(Captured(s, fields), fields, parse), fields), fields[i].name)
            == Some(FieldValue(s, fields[i], parse))
  {
    assert NameIn(fields, fields[i].name);
    CapturedLookup(s, fields, fields[i].name);
    PostProcessedField(Captured(s, fields), fields, parse, i);
    WithDefaultsField(PostProcessed(Captured(s, fields), fields, parse), fields, i);
  }

  lemma {:induction false} PostProcessedKeepsLength(d: Dict, fields: seq<Field>, parse: Parser)
    ensures |PostProcessed(d, fields, parse)| == |d|
    decreases |fields|
  {
    if fields != [] {
      PostProcessedKeepsLength(d, fields[..|fields| - 1], parse);
    }
  }

  /** Tier 2 against its reference: it gives up when no field is captured, and
      otherwise builds the instance whose fields hold their FieldValues exactly when
      each of them has the field's type. */
  lemma PatternTierSpec(s: string, fields: seq<Field>, parse: Parser)
    requires DistinctNames(fields)
    ensures PatternTier(s, fields, parse).NoCapture? <==> NoneCaptured(s, fields)
    ensures PatternTier(s, fields, parse).Built? <==>
              !NoneCaptured(s, fields)
              && forall i :: 0 <= i < |fields| ==> Conforms(fields[i].kind, FieldValue(s, fields[i], parse))
    ensures PatternTier(s, fields, parse).Built? ==>
              forall i :: 0 <= i < |fields| ==>
                PatternTier(s, fields, parse).inst[i] == (fields[i].name, FieldValue(s, fields[i], parse))
  {
    var c := Captured(s, fields);
    var d := PostProcessed(c, fields, parse);
    CapturedEmpty(s, fields);
    PostProcessedKeepsLength(c, fields, parse);
    assert d == [] <==> NoneCaptured(s, fields);
    var w := WithDefaults(d, fields);
    forall i | 0 <= i < |fields|
      ensures Lookup(w, fields[i].name) == Some(FieldValue(s, fields[i], parse))
    {
      FieldValueStored(s, fields, parse, i);
    }
    ValidateAgainst(fields, w, (f: Field) => FieldValue(s, f, parse));
  }

  /** Validation of a dict that holds value(f) under each field f. */
  lemma ValidateAgainst(fields: seq<Field>, w: Dict, value: Field -> Value)
    requires forall i :: 0 <= i < |fields| ==> Lookup(w, fields[i].name) == Some(value(fields[i]))
    ensures Validate(fields, w).Some? <==> forall i :: 0 <= i < |fields| ==> Conforms(fields[i].kind, value(fields[i]))
    ensures Validate(fields, w).Some? ==> forall i :: 0 <= i < |fields| ==>
              Validate(fields, w).value[i] == (fields[i].name, value(fields[i]))
  {
  }

  /** A model whose fields are all `str` never reaches Tier 3: every captured or
      missing field has a string value, so building the model cannot fail. */
  lemma TextSchemasNeverFallBack(s: string, schema: Schema, parse: Parser)
    requires WellFormed(schema) && AllText(schema)
    ensures !PatternTier(s, schema.fields, parse).ConstructFailed?
  {
    PatternTierSpec(s, schema.fields, parse);
    forall i | 0 <= i < |schema.fields|
      ensures FieldValue(s, schema.fields[i], parse).VStr?
    {
      assert schema.fields[i].kind == StrKind;
    }
  }

  lemma {:induction false} DefaultsOther(fields: seq<Field>, s: string, name: string)
    requires !NameIn(fields, name)
    ensures Lookup(Defaults(fields, s), name) == None
    decreases |fields|
  {
    if fields != [] {
      NameInInit(fields, name);
      DefaultsOther(fields[..|fields| - 1], s, name);
    }
  }

  lemma {:induction false} DefaultsField(fields: seq<Field>, s: string, i: nat)
    requires DistinctNames(fields) && i < |fields|
    ensures Lookup(Defaults(fields, s), fields[i].name) == Some(DefaultValue(fields[i], s))
    decreases |fields|
  {
    var init := fields[..|fields| - 1];
    DistinctInit(fields);
    if i < |fields| - 1 {
      assert init[i] == fields[i];
      DefaultsField(init, s, i);
    }
  }

  /** Tier 3 always builds the model of a well-formed schema: each `str` field gets its
      fallback text and every other field the empty value of its type. */
  lemma DefaultsValid(schema: Schema, s: string)
    requires WellFormed(schema)
    ensures Validate(schema.fields, Defaults(schema.fields, s)).Some?
    ensures forall i :: 0 <= i < |schema.fields| ==>
              Validate(schema.fields, Defaults(schema.fields, s)).value[i]
              == (schema.fields[i].name, DefaultValue(schema.fields[i], s))
  {
    var d := Defaults(schema.fields, s);
    forall i | 0 <= i < |schema.fields|
      ensures Lookup(d, schema.fields[i].name) == Some(DefaultValue(schema.fields[i], s))
      ensures HasKey(d, schema.fields[i].name) && Conforms(schema.fields[i].kind, Lookup(d, schema.fields[i].name).value)
    {
      DefaultsField(schema.fields, s, i);
    }
  }

  /** For a well-formed schema, a non-empty text yields `None` only when the JSON tier
      fell through and no field pattern captured anything. */
  lemma NoneOnlyWithoutCaptures(s: string, schema: Schema, parse: Parser)
    requires WellFormed(schema)
    ensures Recover(VStr(s), schema, parse) == Ok(None) <==>
              s == [] || (JsonTier(s, schema.fields, parse) == Ok(Fallthrough)
                          && forall i :: 0 <= i < |schema.fields| ==> Capture(s, schema.fields[i].name).None?)
  {
    if s != [] {
      PatternTierSpec(s, schema.fields, parse);
      DefaultsValid(schema, s);
    }
  }

  /** A JSON object embedded in prose, with no other braces before or after it, is
      decoded and validated on its own. */
  lemma JsonRoundTrip(pre: string, body: string, post: string, schema: Schema, parse: Parser, d: Dict)
    requires '{' !in pre && '}' !in post
    requires parse("{" + body + "}") == Some(VDict(d))
    requires Validate(schema.fields, d).Some?
    ensures Recover(VStr(pre + "{" + body + "}" + post), schema, parse) == Ok(Validate(schema.fields, d))
  {
    var s := pre + "{" + body + "}" + post;
    var i, j := |pre|, |pre| + |body| + 1;
    assert s[i] == '{' && s[j] == '}';
    assert forall k :: 0 <= k < i ==> s[k] == pre[k];
    assert forall k :: j < k < |s| ==> s[k] == post[k - j - 1];
    var span := JsonSpan(s);
    assert span == Some((i, j));
    assert s[i..j + 1] == "{" + body + "}";
  }

  /** Keys that are not fields do not matter to validation. */
  lemma {:induction false} ValidateIgnoresOtherKeys(fields: seq<Field>, d1: Dict, d2: Dict)
    requires forall i :: 0 <= i < |fields| ==> Lookup(d1, fields[i].name) == Lookup(d2, fields[i].name)
    ensures Validate(fields, d1) == Validate(fields, d2)
    decreases |fields|
  {
    if fields != [] {
      assert forall i :: 0 <= i < |fields| - 1 ==> fields[1..][i] == fields[i + 1];
      ValidateIgnoresOtherKeys(fields[1..], d1, d2);
    }
  }
}

=== FILE: schemas.dfy ===
/** The four pydantic models that task outputs are parsed into, as ordered field
    lists, and the part of pydantic validation the recovery code relies on. */
module Schemas {
  import opened Base
  import opened Text
  import opened Values

  /** The annotation of a field, as `str(field_type)` classifies it: `Dict[str, float]`,
      `List[str]`, `str`, or a number type. */
  datatype FieldKind = DictKind | ListKind | StrKind | NumberKind

  datatype Field = Field(name: string, kind: FieldKind)

  /** A model class: its fields in declaration order (`__annotations__`). */
  datatype Schema = Schema(name: string, fields: seq<Field>)

  const EmotionAnalysis := Schema("EmotionAnalysis", [
    Field("partner_a_emotions", DictKind),
    Field("partner_b_emotions", DictKind),
    Field("emotional_triggers", ListKind),
    Field("recommendations", StrKind)])

  const PartnerResponse := Schema("PartnerResponse", [
    Field("emotional_state", StrKind),
    Field("perspective", StrKind),
    Field("potential_dialogue", StrKind)])

  const CounselorResponse := Schema("CounselorResponse", [
    Field("analysis", StrKind),
    Field("mediation_dialogue", StrKind),
    Field("guidance", StrKind)])

  const EncouragerResponse := Schema("EncouragerResponse", [
    Field("positive_observations", StrKind),
    Field("reinforcement_dialogue", StrKind),
    Field("motivation_strategies", StrKind)])

  /** No two fields share a name. */
  predicate DistinctNames(fields: seq<Field>) {
    forall i, j :: 0 <= i < j < |fields| ==> fields[i].name != fields[j].name
  }

  /** A model class declares each field once. */
  predicate WellFormed(schema: Schema) {
    DistinctNames(schema.fields)
  }

  /** Some field is called `name`. */
  predicate NameIn(fields: seq<Field>, name: string) {
    exists i :: 0 <= i < |fields| && fields[i].name == name
  }

  /** Peeling the last field off a field list. */
  lemma NameInInit(fields: seq<Field>, name: string)
    requires fields != []
    ensures NameIn(fields, name) <==> NameIn(fields[..|fields| - 1], name) || fields[|fields| - 1].name == name
  {
    var init := fields[..|fields| - 1];
    if NameIn(fields, name) && fields[|fields| - 1].name != name {
      var i :| 0 <= i < |fields| && fields[i].name == name;
      assert init[i].name == name;
    }
    if NameIn(init, name) {
      var i :| 0 <= i < |init| && init[i].name == name;
      assert fields[i].name == name;
    }
  }

  /** With distinct names, the last field's name is not among the others. */
  lemma DistinctInit(fields: seq<Field>)
    requires fields != [] && DistinctNames(fields)
    ensures DistinctNames(fields[..|fields| - 1])
    ensures !NameIn(fields[..|fields| - 1], fields[|fields| - 1].name)
  {
    var init := fields[..|fields| - 1];
    forall i | 0 <= i < |init|
      ensures init[i].name != fields[|fields| - 1].name
    {
      assert init[i] == fields[i];
    }
  }

  /** A schema whose every field is a `str`. */
  predicate AllText(schema: Schema) {
    forall i :: 0 <= i < |schema.fields| ==> schema.fields[i].kind == StrKind
  }

  lemma ModelsAreWellFormed()
    ensures WellFormed(EmotionAnalysis) && WellFormed(PartnerResponse)
    ensures WellFormed(CounselorResponse) && WellFormed(EncouragerResponse)
    ensures AllText(PartnerResponse) && AllText(CounselorResponse) && AllText(EncouragerResponse)
    ensures !AllText(EmotionAnalysis)
  {
    assert EmotionAnalysis.fields[0].kind == DictKind;
  }

  /** A value of the field's declared type (no coercion). */
  predicate Conforms(kind: FieldKind, v: Value) {
    match kind
    case StrKind => v.VStr?
    case NumberKind => v.VNum?
    case ListKind => v.VList? && forall k :: 0 <= k < |v.items| ==> v.items[k].VStr?
    case DictKind => v.VDict? && forall k :: 0 <= k < |v.entries| ==> v.entries[k].1.VNum?
  }

  /** An instance of a model: its fields in order, each with a value of its type. */
  predicate IsInstance(fields: seq<Field>, inst: Dict) {
    |inst| == |fields|
    && forall i :: 0 <= i < |inst| ==> inst[i].0 == fields[i].name && Conforms(fields[i].kind, inst[i].1)
  }

  /** `model_class(**data).dict()`: every field must be present with a value of its
      type; keys that are not fields are ignored; the instance lists the fields in
      declaration order. `None` stands for a ValidationError. */
  function Validate(fields: seq<Field>, data: Dict): (r: Option<Dict>)
    ensures r.Some? <==> forall i :: 0 <= i < |fields| ==>
                           HasKey(data, fields[i].name) && Conforms(fields[i].kind, Lookup(data, fields[i].name).value)
    ensures r.Some? ==> |r.value| == |fields|
    ensures r.Some? ==> forall i :: 0 <= i < |fields| ==>
                          r.value[i] == (fields[i].name, Lookup(data, fields[i].name).value)
    ensures r.Some? ==> IsInstance(fields, r.value)
  {
    if fields == [] then Some([])
    else
      var f := fields[0];
      match Lookup(data, f.name)
      case None => None
      case Some(v) =>
        if !Conforms(f.kind, v) then None
        else
          match Validate(fields[1..], data)
          case None =>
            assert !forall i :: 0 <= i < |fields| - 1 ==>
                     HasKey(data, fields[1..][i].name) && Conforms(fields[1..][i].kind, Lookup(data, fields[1..][i].name).value);
            None
          case Some(rest) => Some([(f.name, v)] + rest)
  }

  /** The empty value that the fallbacks use for a field: `{}`, `[]`, `""` or `0`. */
  function EmptyValue(kind: FieldKind): (v: Value)
    ensures Conforms(kind, v)
    ensures !Truthy(v)
  {
    assert IsZeroLiteral("0") by {
      var lit := "0";
      var e := FirstWhere((k: nat) => k < |lit| && (lit[k] == 'e' || lit[k] == 'E'), 0, |lit|);
      assert e.None?;
      assert IsDigit(lit[0]);
    }
    match kind
    case DictKind => VDict([])
    case ListKind => VList([])
    case StrKind => VStr("")
    case NumberKind => VNum("0")
  }

  /** Python's `str.capitalize` on ASCII: the first letter upper-case, the rest lower. */
  function Capitalize(w: string): (r: string)
    ensures |r| == |w|
    ensures forall k :: 0 <= k < |w| ==> Lower(r[k]) == Lower(w[k])
  {
    if w == [] then [] else [Upper(w[0])] + seq(|w| - 1, k requires 0 <= k < |w| - 1 => Lower(w[k + 1]))
  }

  function CapitalizeAll(words: seq<string>): (r: seq<string>)
    ensures |r| == |words|
    ensures forall i :: 0 <= i < |words| ==> r[i] == Capitalize(words[i])
  {
    if words == [] then [] else [Capitalize(words[0])] + CapitalizeAll(words[1..])
  }

  /** `" ".join(word.capitalize() for word in field_name.split("_"))`. */
  function DisplayName(fieldName: string): string {
    Join(CapitalizeAll(SplitOn(fieldName, "_")), " ")
  }

  /** The field name with each underscore read as a space. */
  function Spaced(s: string): (r: string)
    ensures |r| == |s|
  {
    seq(|s|, k requires 0 <= k < |s| => if s[k] == '_' then ' ' else s[k])
  }

  lemma SameIgnoringCaseAround(a1: string, b1: string, a2: string, b2: string)
    requires SameIgnoringCase(a1, b1) && SameIgnoringCase(a2, b2)
    ensures SameIgnoringCase(a1 + " " + a2, b1 + " " + b2)
  {
    var a, b := a1 + " " + a2, b1 + " " + b2;
    forall k | 0 <= k < |a|
      ensures Lower(a[k]) == Lower(b[k])
    {
      if k > |a1| {
        assert a[k] == a2[k - |a1| - 1] && b[k] == b2[k - |b1| - 1];
      }
    }
  }

  /** Where the first underscore of s is at i, Spaced splits around it. */
  lemma SpacedAtFirstUnderscore(s: string, i: nat)
    requires Find(s, "_") == Some(i)
    ensures Spaced(s) == s[..i] + " " + Spaced(s[i + 1..])
    ensures SameIgnoringCase(Capitalize(s[..i]), Spaced(s[..i]))
  {
    assert s[i..i + 1] == "_";
    forall k | 0 <= k < i
      ensures s[k] != '_'
    {
      assert !HasAt(s, k, "_");
      assert s[k..k + 1] != "_";
    }
    assert Spaced(s[..i]) == s[..i];
  }

  lemma DisplayNameAtFirstUnderscore(s: string, i: nat)
    requires Find(s, "_") == Some(i)
    ensures DisplayName(s) == Capitalize(s[..i]) + " " + DisplayName(s[i + 1..])
  {
    var head, rest := s[..i], s[i + 1..];
    assert SplitOn(s, "_") == [head] + SplitOn(rest, "_");
    assert CapitalizeAll([head] + SplitOn(rest, "_")) == [Capitalize(head)] + CapitalizeAll(SplitOn(rest, "_"));
    JoinCons(Capitalize(head), CapitalizeAll(SplitOn(rest, "_")), " ");
  }

  /** The Title Case name differs from the field name only in letter case and in
      spaces where the field name has underscores. */
  lemma {:induction false} DisplayNameSpellsField(fieldName: string)
    ensures SameIgnoringCase(DisplayName(fieldName), Spaced(fieldName))
    decreases |fieldName|
  {
    var s := fieldName;
    match Find(s, "_")
    case None =>
      assert SplitOn(s, "_") == [s];
      assert CapitalizeAll([s]) == [Capitalize(s)];
      forall k | 0 <= k < |s|
        ensures Spaced(s)[k] == s[k]
      {
        assert !HasAt(s, k, "_");
        assert s[k..k + 1] != "_";
      }
    case Some(i) =>
      DisplayNameAtFirstUnderscore(s, i);
      SpacedAtFirstUnderscore(s, i);
      DisplayNameSpellsField(s[i + 1..]);
      SameIgnoringCaseAround(Capitalize(s[..i]), Spaced(s[..i]), DisplayName(s[i + 1..]), Spaced(s[i + 1..]));
  }
}

=== FILE: session.dfy ===
/** `SessionManager.process_conversation`: the four context entries, the crew run
    through the agent manager, and the six-slot result assembled from the locator
    and the recovery engine. The crew's `kickoff()` and JSON parsing are parameters. */
module Session {
  import opened Base
  import opened Text
  import opened Values
  import opened Schemas
  import opened Locator
  import opened Recovery
  import opened AgentManagerModel

  /** The crew that a session runs. */
  const SessionCrew := "ai_wingman_crew"

  /** The keys of the session result, in the order the dict literal lists them. */
  const SessionKeys := ["emotion_analysis", "partner_a_response", "partner_b_response",
                        "counselor_response", "encourager_response", "integrated_dialogue"]

  /** The task whose raw text fills `integrated_dialogue`. */
  const DialogueTask := "generate_interaction_task"

  /** `initial_context`: the transcript, the conflict types joined by ", " and the two
      backgrounds. */
  function InitialContext(transcript: string, conflictTypes: seq<string>,
                          partnerABackground: string, partnerBBackground: string): (c: Dict)
    ensures Keys(c) == ["transcript", "conflict_types", "partner_a_background", "partner_b_background"]
    ensures Lookup(c, "transcript") == Some(VStr(transcript))
    ensures Lookup(c, "conflict_types") == Some(VStr(Join(conflictTypes, ", ")))
    ensures Lookup(c, "partner_a_background") == Some(VStr(partnerABackground))
    ensures Lookup(c, "partner_b_background") == Some(VStr(partnerBBackground))
  {
    var c := [("transcript", VStr(transcript)),
              ("conflict_types", VStr(Join(conflictTypes, ", "))),
              ("partner_a_background", VStr(partnerABackground)),
              ("partner_b_background", VStr(partnerBBackground))];
    assert DistinctKeys(c);
    LookupDistinct(c, 0);
    LookupDistinct(c, 1);
    LookupDistinct(c, 2);
    LookupDistinct(c, 3);
    c
  }

  /** `x.dict() if x else {}`: a model instance is always truthy. */
  function Slot(parsed: Option<Dict>): Value {
    match parsed
    case None => VDict([])
    case Some(inst) => VDict(inst)
  }

  /** A parsed slot holds `{}` or an instance of its model. */
  predicate SlotHolds(v: Value, schema: Schema) {
    v == VDict([]) || (v.VDict? && IsInstance(schema.fields, v.entries))
  }

  /** One `_extract_and_parse_task_result` call and its conversion to a slot value. */
  function ParsedSlot(crewResult: Value, taskId: string, schema: Schema, parse: Parser): (r: Outcome<Value>)
    ensures r.Ok? ==> SlotHolds(r.value, schema)
    ensures r.Ok? <==> ExtractAndParse(crewResult, taskId, schema, None, parse).Ok?
    ensures r.Raise? ==> r.error == TypeError || r.error == AttributeError
    ensures r.Ok? ==> r.value == Slot(ExtractAndParse(crewResult, taskId, schema, None, parse).value)
    ensures r.Raise? ==> r == Raise(ExtractAndParse(crewResult, taskId, schema, None, parse).error)
  {
    var parsed :- ExtractAndParse(crewResult, taskId, schema, None, parse);
    Ok(Slot(parsed))
  }

  /** The result dict literal: the six slots under the session keys, in order. */
  function ResultDict(emotionAnalysis: Value, partnerA: Value, partnerB: Value,
                      counselor: Value, encourager: Value, dialogue: Value): (r: Dict)
    ensures Keys(r) == SessionKeys
    ensures |r| == 6 && r[0].1 == emotionAnalysis && r[1].1 == partnerA && r[2].1 == partnerB
            && r[3].1 == counselor && r[4].1 == encourager && r[5].1 == dialogue
  {
    var r := [("emotion_analysis", emotionAnalysis),
              ("partner_a_response", partnerA),
              ("partner_b_response", partnerB),
              ("counselor_response", counselor),
              ("encourager_response", encourager),
              ("integrated_dialogue", dialogue)];
    assert Keys(r) == SessionKeys by {
      assert forall i :: 0 <= i < 6 ==> Keys(r)[i] == SessionKeys[i];
    }
    r
  }

  /** The assembly after `run_crew`: five calls of the recovery engine and one of the
      locator, in source order; an exception from any of them escapes. */
  function SessionResults(crewResult: Value, parse: Parser): (r: Outcome<Dict>)
    ensures r.Ok? ==> Keys(r.value) == SessionKeys
    ensures r.Ok? ==> SlotHolds(r.value[0].1, EmotionAnalysis) && SlotHolds(r.value[1].1, PartnerResponse)
                      && SlotHolds(r.value[2].1, PartnerResponse) && SlotHolds(r.value[3].1, CounselorResponse)
                      && SlotHolds(r.value[4].1, EncouragerResponse)
    ensures r.Ok? ==> ExtractTaskResult(crewResult, DialogueTask, None).Ok?
                      && r.value[5].1 == ExtractTaskResult(crewResult, DialogueTask, None).value
    ensures r.Raise? ==> r.error == TypeError || r.error == AttributeError
    ensures r.Ok? ==>
              ParsedSlot(crewResult, "analyze_emotions_task", EmotionAnalysis, parse) == Ok(r.value[0].1)
              && ParsedSlot(crewResult, "simulate_partner_a_task", PartnerResponse, parse) == Ok(r.value[1].1)
              && ParsedSlot(crewResult, "simulate_partner_b_task", PartnerResponse, parse) == Ok(r.value[2].1)
              && ParsedSlot(crewResult, "provide_counseling_task", CounselorResponse, parse) == Ok(r.value[3].1)
              && ParsedSlot(crewResult, "provide_encouragement_task", EncouragerResponse, parse) == Ok(r.value[4].1)
  {
    var emotionAnalysis :- ParsedSlot(crewResult, "analyze_emotions_task", EmotionAnalysis, parse);
    var partnerA :- ParsedSlot(crewResult, "simulate_partner_a_task", PartnerResponse, parse);
    var partnerB :- ParsedSlot(crewResult, "simulate_partner_b_task", PartnerResponse, parse);
    var counselor :- ParsedSlot(crewResult, "provide_counseling_task", CounselorResponse, parse);
    var encourager :- ParsedSlot(crewResult, "provide_encouragement_task", EncouragerResponse, parse);
    var dialogue :- ExtractTaskResult(crewResult, DialogueTask, None);
    Ok(ResultDict(emotionAnalysis, partnerA, partnerB, counselor, encourager, dialogue))
  }

  /** The session fails exactly when one of the six extractions raises. */
  lemma SessionFailsOnlyThroughExtraction(crewResult: Value, parse: Parser)
    ensures SessionResults(crewResult, parse).Ok? <==>
              ExtractAndParse(crewResult, "analyze_emotions_task", EmotionAnalysis, None, parse).Ok?
              && ExtractAndParse(crewResult, "simulate_partner_a_task", PartnerResponse, None, parse).Ok?
              && ExtractAndParse(crewResult, "simulate_partner_b_task", PartnerResponse, None, parse).Ok?
              && ExtractAndParse(crewResult, "provide_counseling_task", CounselorResponse, None, parse).Ok?
              && ExtractAndParse(crewResult, "provide_encouragement_task", EncouragerResponse, None, parse).Ok?
              && ExtractTaskResult(crewResult, DialogueTask, None).Ok?
  {
  }

  /** A slot whose task yields no text is `{}`. */
  lemma EmptyTextGivesEmptySlot(crewResult: Value, taskId: string, schema: Schema, parse: Parser)
    requires ExtractTaskResult(crewResult, taskId, None) == Ok(VStr(""))
    ensures ParsedSlot(crewResult, taskId, schema, parse) == Ok(VDict([]))
  {
    assert Recover(VStr(""), schema, parse) == Ok(None);
  }

  /** A crew result that is neither a dict, a list nor a string gives `{}` in every
      parsed slot and `""` as the dialogue. */
  lemma OpaqueResultGivesEmptySlots(crewResult: Value, parse: Parser)
    requires !(crewResult.VDict? || crewResult.VList? || crewResult.VStr?)
    ensures SessionResults(crewResult, parse)
              == Ok([("emotion_analysis", VDict([])), ("partner_a_response", VDict([])),
                     ("partner_b_response", VDict([])), ("counselor_response", VDict([])),
                     ("encourager_response", VDict([])), ("integrated_dialogue", VStr(""))])
  {
    EmptyTextGivesEmptySlot(crewResult, "analyze_emotions_task", EmotionAnalysis, parse);
    EmptyTextGivesEmptySlot(crewResult, "simulate_partner_a_task", PartnerResponse, parse);
    EmptyTextGivesEmptySlot(crewResult, "simulate_partner_b_task", PartnerResponse, parse);
    EmptyTextGivesEmptySlot(crewResult, "provide_counseling_task", CounselorResponse, parse);
    EmptyTextGivesEmptySlot(crewResult, "provide_encouragement_task", EncouragerResponse, parse);
  }

  /** The exception a failed session carries: that of the first of the six steps, in
      source order, that raises. */
  lemma SessionFirstFailure(crewResult: Value, parse: Parser)
    ensures var s0 := ParsedSlot(crewResult, "analyze_emotions_task", EmotionAnalysis, parse);
            var s1 := ParsedSlot(crewResult, "simulate_partner_a_task", PartnerResponse, parse);
            var s2 := ParsedSlot(crewResult, "simulate_partner_b_task", PartnerResponse, parse);
            var s3 := ParsedSlot(crewResult, "provide_counseling_task", CounselorResponse, parse);
            var s4 := ParsedSlot(crewResult, "provide_encouragement_task", EncouragerResponse, parse);
            var s5 := ExtractTaskResult(crewResult, DialogueTask, None);
            var r := SessionResults(crewResult, parse);
            (s0.Raise? ==> r == Raise(s0.error))
            && (s0.Ok? && s1.Raise? ==> r == Raise(s1.error))
            && (s0.Ok? && s1.Ok? && s2.Raise? ==> r == Raise(s2.error))
            && (s0.Ok? && s1.Ok? && s2.Ok? && s3.Raise? ==> r == Raise(s3.error))
            && (s0.Ok? && s1.Ok? && s2.Ok? && s3.Ok? && s4.Raise? ==> r == Raise(s4.error))
            && (s0.Ok? && s1.Ok? && s2.Ok? && s3.Ok? && s4.Ok? && s5.Raise? ==> r == Raise(s5.error))
  {
  }

  /** With a plain-text crew result the two partner slots are always `{}`: their task
      ids have no section label. */
  lemma TextResultLeavesPartnersEmpty(s: string, parse: Parser)
    requires SessionResults(VStr(s), parse).Ok?
    ensures SessionResults(VStr(s), parse).value[1].1 == VDict([])
    ensures SessionResults(VStr(s), parse).value[2].1 == VDict([])
  {
    assert ParsedSlot(VStr(s), "simulate_partner_a_task", PartnerResponse, parse) == Ok(VDict([])) by {
      PartnerTasksMissText(s, None);
      EmptyTextGivesEmptySlot(VStr(s), "simulate_partner_a_task", PartnerResponse, parse);
    }
    assert ParsedSlot(VStr(s), "simulate_partner_b_task", PartnerResponse, parse) == Ok(VDict([])) by {
      PartnerTasksMissText(s, None);
      EmptyTextGivesEmptySlot(VStr(s), "simulate_partner_b_task", PartnerResponse, parse);
    }
  }

  /** `process_conversation` after the context update: tasks and crews rebuilt with the
      context, the session crew looked up and run, and the result assembled. */
  function Conversation(configs: Dict, agents: seq<(string, Agent)>, context: Dict,
                        kickoff: Crew -> Value, parse: Parser): (r: Outcome<Dict>)
    ensures TasksFor(configs, agents, context).Raise? ==> r == Raise(TasksFor(configs, agents, context).error)
    ensures TasksFor(configs, agents, context).Ok? ==>
              var tasks := TasksFor(configs, agents, context).value;
              var crews := CrewsFor(configs, agents, tasks);
              (crews.Raise? ==> r == Raise(crews.error))
              && (crews.Ok? && !HasKey(crews.value, SessionCrew) ==>
                    r == Raise(ValueError("Crew '" + SessionCrew + "' not found")))
              && (crews.Ok? && HasKey(crews.value, SessionCrew) ==>
                    r == SessionResults(kickoff(Lookup(crews.value, SessionCrew).value), parse))
    ensures r.Ok? ==> Keys(r.value) == SessionKeys
  {
    var tasks :- TasksFor(configs, agents, context);
    var crews :- CrewsFor(configs, agents, tasks);
    match Lookup(crews, SessionCrew)
    case None => Raise(ValueError("Crew '" + SessionCrew + "' not found"))
    case Some(crew) => SessionResults(kickoff(crew), parse)
  }

  /** The session object: it owns the agent manager. */
  class SessionManager {
    var agentManager: AgentManager

    /** `SessionManager(config_dir)` given the manager built from that directory. */
    constructor(agentManager: AgentManager)
      ensures this.agentManager == agentManager
    {
      this.agentManager := agentManager;
    }

    /** `process_conversation`: the context is replaced by the initial context and
        tasks and crews are rebuilt with it; the session crew is run and its result
        assembled. An exception from any step escapes. */
    method ProcessConversation(transcript: string, conflictTypes: seq<string>,
                               partnerABackground: string, partnerBBackground: string,
                               kickoff: Crew -> Value, parse: Parser)
      returns (r: Outcome<Dict>)
      modifies agentManager
      ensures agentManager == old(agentManager)
      ensures agentManager.context == InitialContext(transcript, conflictTypes, partnerABackground, partnerBBackground)
      ensures agentManager.configs == old(agentManager.configs) && agentManager.llm == old(agentManager.llm)
      ensures agentManager.agents == old(agentManager.agents)
      ensures TasksFor(agentManager.configs, agentManager.agents, agentManager.context).Ok? ==>
                agentManager.tasks == TasksFor(agentManager.configs, agentManager.agents, agentManager.context).value
      ensures TasksFor(agentManager.configs, agentManager.agents, agentManager.context).Ok?
              && CrewsFor(agentManager.configs, agentManager.agents, agentManager.tasks).Ok? ==>
                agentManager.crews == CrewsFor(agentManager.configs, agentManager.agents, agentManager.tasks).value
      ensures r == Conversation(agentManager.configs, agentManager.agents, agentManager.context, kickoff, parse)
      ensures r.Ok? ==> agentManager.GetCrew(SessionCrew).Some?
                        && r == SessionResults(kickoff(agentManager.GetCrew(SessionCrew).value), parse)
      ensures r.Ok? ==> Keys(r.value) == SessionKeys
    {
      var initialContext := InitialContext(transcript, conflictTypes, partnerABackground, partnerBBackground);
      var updated := agentManager.UpdateTaskContext(initialContext);
      if updated.Raise? {
        return Raise(updated.error);
      }
      var crewResult := agentManager.RunCrew(SessionCrew, kickoff);
      if crewResult.Raise? {
        return Raise(crewResult.error);
      }
      r := SessionResults(crewResult.value, parse);
    }
  }
}

=== FILE: text.dfy ===
/** The Python `str` operations the core relies on: `strip`, `replace`, `split`,
    `join`, `startswith`/`endswith`, and the character classes that `\s` and
    `re.IGNORECASE` use. */
module Text {
  import opened Base

  /** Python's `str.isspace`: the characters that `\s` matches and `strip()` removes. */
  predicate IsSpace(c: char) {
    var n := c as int;
    n == 0x20 || 0x09 <= n <= 0x0D || 0x1C <= n <= 0x1F || n == 0x85 || n == 0xA0
    || n == 0x1680 || 0x2000 <= n <= 0x200A || n == 0x2028 || n == 0x2029
    || n == 0x202F || n == 0x205F || n == 0x3000
  }

  predicate IsAsciiLetter(c: char) { 'a' <= c <= 'z' || 'A' <= c <= 'Z' }

  predicate IsDigit(c: char) { '0' <= c <= '9' }

  /** ASCII lower-casing, the part of `re.IGNORECASE` this model keeps. */
  function Lower(c: char): (d: char)
    ensures IsAsciiLetter(c) <==> 'a' <= d <= 'z'
    ensures !IsAsciiLetter(c) ==> d == c
  {
    if 'A' <= c <= 'Z' then (c as int + 32) as char else c
  }

  function Upper(c: char): (d: char)
    ensures IsAsciiLetter(c) <==> 'A' <= d <= 'Z'
    ensures !IsAsciiLetter(c) ==> d == c
    ensures Lower(d) == Lower(c)
  {
    if 'a' <= c <= 'z' then (c as int - 32) as char else c
  }

  /** Drops leading white space. */
  function TrimStart(s: string): (r: string)
    ensures |r| <= |s| && r == s[|s| - |r|..]
    ensures forall k :: 0 <= k < |s| - |r| ==> IsSpace(s[k])
    ensures r == [] || !IsSpace(r[0])
  {
    if s != [] && IsSpace(s[0]) then TrimStart(s[1..]) else s
  }

  /** Drops trailing white space. */
  function TrimEnd(s: string): (r: string)
    ensures |r| <= |s| && r == s[..|r|]
    ensures forall k :: |r| <= k < |s| ==> IsSpace(s[k])
    ensures r == [] || !IsSpace(r[|r| - 1])
  {
    if s != [] && IsSpace(s[|s| - 1]) then TrimEnd(s[..|s| - 1]) else s
  }

  /** Where `s.strip()` starts in s. */
  function StripStart(s: string): nat {
    |s| - |TrimStart(s)|
  }

  /** `s.strip()`: the infix of s left after removing white space from both ends;
      it neither starts nor ends with white space. */
  function Strip(s: string): (r: string)
    ensures r == [] || (!IsSpace(r[0]) && !IsSpace(r[|r| - 1]))
    ensures StripStart(s) + |r| <= |s| && r == s[StripStart(s)..StripStart(s) + |r|]
    ensures forall k :: 0 <= k < StripStart(s) ==> IsSpace(s[k])
    ensures forall k :: StripStart(s) + |r| <= k < |s| ==> IsSpace(s[k])
  {
    TrimEnd(TrimStart(s))
  }

  /** Greedy `\s*` starting at i: the first index at or after i that is not white space. */
  function SkipSpaces(s: string, i: nat): (j: nat)
    requires i <= |s|
    ensures i <= j <= |s|
    ensures forall k :: i <= k < j ==> IsSpace(s[k])
    ensures j == |s| || !IsSpace(s[j])
    decreases |s| - i
  {
    if i == |s| || !IsSpace(s[i]) then i else SkipSpaces(s, i + 1)
  }

  /** The literal `lit` occurs in s at position i. */
  predicate HasAt(s: string, i: nat, lit: string) {
    i + |lit| <= |s| && s[i..i + |lit|] == lit
  }

  /** The literal `lit` occurs in s at position i, ignoring ASCII case. */
  predicate HasAtIgnoreCase(s: string, i: nat, lit: string) {
    i + |lit| <= |s| && forall k :: 0 <= k < |lit| ==> Lower(s[i + k]) == Lower(lit[k])
  }

  /** Equal up to ASCII case, as `re.IGNORECASE` compares literals. */
  predicate SameIgnoringCase(a: string, b: string) {
    |a| == |b| && forall k :: 0 <= k < |a| ==> Lower(a[k]) == Lower(b[k])
  }

  /** `label\s*[:=]\s*` matched at p, ignoring case: where the value after the label
      starts. Both `\s*` are greedy and neither can give back a character usefully,
      since the next item (`[:=]`, or whatever follows) is never white space here. */
  function ValueAfterLabel(s: string, p: nat, lbl: string): (q: Option<nat>)
    ensures q.Some? ==> p + |lbl| < q.value <= |s|
  {
    if HasAtIgnoreCase(s, p, lbl) then
      var c := SkipSpaces(s, p + |lbl|);
      if c < |s| && (s[c] == ':' || s[c] == '=') then Some(SkipSpaces(s, c + 1))
      else None
    else None
  }

  /** Labels that differ only in case match at the same places. */
  lemma ValueAfterLabelIgnoresCase(s: string, p: nat, l1: string, l2: string)
    requires SameIgnoringCase(l1, l2)
    ensures ValueAfterLabel(s, p, l1) == ValueAfterLabel(s, p, l2)
  {
    assert HasAtIgnoreCase(s, p, l1) == HasAtIgnoreCase(s, p, l2);
  }

  predicate StartsWith(s: string, prefix: string) { HasAt(s, 0, prefix) }

  predicate EndsWith(s: string, suffix: string) {
    |suffix| <= |s| && s[|s| - |suffix|..] == suffix
  }

  /** Reference meaning of "sub occurs somewhere in s". */
  ghost predicate Occurs(s: string, sub: string) {
    exists k :: 0 <= k < |s| && HasAt(s, k, sub)
  }

  /** `s.find(sub)` for a non-empty sub: the leftmost occurrence. */
  function Find(s: string, sub: string): (r: Option<nat>)
    requires |sub| > 0
    ensures r.None? <==> !Occurs(s, sub)
    ensures r.Some? ==> r.value < |s| && HasAt(s, r.value, sub)
    ensures r.Some? ==> forall k :: 0 <= k < r.value ==> !HasAt(s, k, sub)
  {
    var at := (k: nat) => HasAt(s, k, sub);
    assert forall k: nat :: at(k) == HasAt(s, k, sub);
    FirstWhere(at, 0, |s|)
  }

  /** `s.replace(pat, repl)`: every leftmost, non-overlapping occurrence of pat,
      scanning left to right, is replaced by repl. */
  function Replace(s: string, pat: string, repl: string): string
    requires |pat| > 0
    decreases |s|
  {
    match Find(s, pat)
    case None => s
    case Some(i) => s[..i] + repl + Replace(s[i + |pat|..], pat, repl)
  }

  /** `s.split(sep)` for a non-empty separator. */
  function SplitOn(s: string, sep: string): (parts: seq<string>)
    requires |sep| > 0
    ensures |parts| >= 1
    decreases |s|
  {
    match Find(s, sep)
    case None => [s]
    case Some(i) => [s[..i]] + SplitOn(s[i + |sep|..], sep)
  }

  /** `sep.join(parts)`. */
  function Join(parts: seq<string>, sep: string): string {
    if |parts| == 0 then ""
    else if |parts| == 1 then parts[0]
    else parts[0] + sep + Join(parts[1..], sep)
  }

  lemma JoinCons(p: string, rest: seq<string>, sep: string)
    requires |rest| >= 1
    ensures Join([p] + rest, sep) == p + sep + Join(rest, sep)
  {
    assert ([p] + rest)[1..] == rest;
  }

  /** Splitting and joining again with the same separator gives the text back. */
  lemma {:induction false} SplitJoinRoundTrip(s: string, sep: string)
    requires |sep| > 0
    ensures Join(SplitOn(s, sep), sep) == s
    decreases |s|
  {
    match Find(s, sep)
    case None =>
    case Some(i) =>
      var rest := s[i + |sep|..];
      assert SplitOn(s, sep) == [s[..i]] + SplitOn(rest, sep);
      SplitJoinRoundTrip(rest, sep);
      JoinCons(s[..i], SplitOn(rest, sep), sep);
      assert s[i..i + |sep|] == sep;
      assert s == s[..i] + sep + rest;
  }

  /** No piece of a split still contains the separator. */
  lemma {:induction false} SplitPiecesAreFree(s: string, sep: string)
    requires |sep| > 0
    ensures forall j :: 0 <= j < |SplitOn(s, sep)| ==> !Occurs(SplitOn(s, sep)[j], sep)
    decreases |s|
  {
    match Find(s, sep)
    case None =>
    case Some(i) =>
      var rest := s[i + |sep|..];
      SplitPiecesAreFree(rest, sep);
      var head := s[..i];
      forall k | 0 <= k < |head| && HasAt(head, k, sep)
        ensures false
      {
        assert head[k..k + |sep|] == s[k..k + |sep|];
        assert HasAt(s, k, sep);
      }
      assert !Occurs(head, sep);
      var parts := SplitOn(s, sep);
      assert parts == [head] + SplitOn(rest, sep);
      forall j | 0 <= j < |parts|
        ensures !Occurs(parts[j], sep)
      {
        if j > 0 {
          assert parts[j] == SplitOn(rest, sep)[j - 1];
        }
      }
  }

  /** `str.replace` is `repl.join(s.split(pat))`: the pieces between occurrences
      are kept, and each occurrence becomes repl. */
  lemma {:induction false} ReplaceIsSplitJoin(s: string, pat: string, repl: string)
    requires |pat| > 0
    ensures Replace(s, pat, repl) == Join(SplitOn(s, pat), repl)
    decreases |s|
  {
    match Find(s, pat)
    case None =>
    case Some(i) =>
      var rest := s[i + |pat|..];
      assert SplitOn(s, pat) == [s[..i]] + SplitOn(rest, pat);
      assert Replace(s, pat, repl) == s[..i] + repl + Replace(rest, pat, repl);
      ReplaceIsSplitJoin(rest, pat, repl);
      JoinCons(s[..i], SplitOn(rest, pat), repl);
  }

  /** A text in which pat does not occur is left unchanged by `replace`. */
  lemma ReplaceAbsent(s: string, pat: string, repl: string)
    requires |pat| > 0 && !Occurs(s, pat)
    ensures Replace(s, pat, repl) == s
  {
  }

  /** After a prefix without sub's first character, sub is found where it is written. */
  lemma FindAfterPrefix(pre: string, sub: string, post: string)
    requires |sub| > 0 && sub[0] !in pre
    ensures Find(pre + sub + post, sub) == Some(|pre|)
  {
    var s := pre + sub + post;
    assert s[|pre|..|pre| + |sub|] == sub;
    assert HasAt(s, |pre|, sub);
    forall k | 0 <= k < |pre|
      ensures !HasAt(s, k, sub)
    {
      assert s[k] == pre[k];
      if k + |sub| <= |s| {
        assert s[k..k + |sub|][0] == s[k];
      }
    }
    var r := Find(s, sub);
    assert r.Some?;
    assert !(r.value < |pre|);
    assert !(|pre| < r.value);
  }

  /** An occurrence of sub that is the only one is replaced, and nothing else changes. */
  lemma ReplaceOnce(pre: string, sub: string, post: string, repl: string)
    requires |sub| > 0 && sub[0] !in pre && !Occurs(post, sub)
    ensures Replace(pre + sub + post, sub, repl) == pre + repl + post
  {
    var s := pre + sub + post;
    FindAfterPrefix(pre, sub, post);
    assert s[..|pre|] == pre;
    assert s[|pre| + |sub|..] == post;
    ReplaceAbsent(post, sub, repl);
  }

  /** An infix of a text in which lit does not occur does not contain lit either. */
  lemma InfixKeepsAbsence(s: string, a: nat, b: nat, lit: string)
    requires a <= b <= |s| && !Occurs(s, lit)
    ensures !Occurs(s[a..b], lit)
  {
    forall k | 0 <= k < b - a && HasAt(s[a..b], k, lit)
      ensures false
    {
      assert k + |lit| <= b - a;
      forall j | 0 <= j < |lit|
        ensures s[a + k + j] == lit[j]
      {
        assert s[a..b][k..k + |lit|][j] == lit[j];
      }
      assert s[a + k..a + k + |lit|] == lit;
      assert HasAt(s, a + k, lit);
    }
  }

  /** The properties in Strip's contract determine its result. */
  lemma StripUnique(s: string, a: nat, r: string)
    requires a + |r| <= |s| && r == s[a..a + |r|]
    requires forall k :: 0 <= k < a ==> IsSpace(s[k])
    requires forall k :: a + |r| <= k < |s| ==> IsSpace(s[k])
    requires r == [] || (!IsSpace(r[0]) && !IsSpace(r[|r| - 1]))
    ensures Strip(s) == r
  {
    var t := Strip(s);
    var b := StripStart(s);
    if r != [] {
      assert s[a] == r[0] && s[a + |r| - 1] == r[|r| - 1];
      if t == [] {
        assert false;
      }
      assert s[b] == t[0] && s[b + |t| - 1] == t[|t| - 1];
      assert a == b;
      assert a + |r| == b + |t|;
    }
  }

  /** Dropping one trailing white-space character does not change `strip()`. */
  lemma StripDropTrailingSpace(s: string)
    requires |s| > 0 && IsSpace(s[|s| - 1])
    ensures Strip(s[..|s| - 1]) == Strip(s)
  {
    var r := Strip(s);
    var a := StripStart(s);
    var s' := s[..|s| - 1];
    if r == [] {
      StripUnique(s', 0, r);
    } else {
      assert s[a + |r| - 1] == r[|r| - 1];
      assert s'[a..a + |r|] == s[a..a + |r|];
      StripUnique(s', a, r);
    }
  }

  /** `strip()` cannot create an occurrence of a literal. */
  lemma StripKeepsAbsence(s: string, lit: string)
    requires !Occurs(s, lit)
    ensures !Occurs(Strip(s), lit)
  {
    var a := StripStart(s);
    InfixKeepsAbsence(s, a, a + |Strip(s)|, lit);
  }
}

=== FILE: values.dfy ===
/** The dynamically typed values that flow through the core: crew results,
    parsed YAML and JSON documents, pydantic `.dict()` output and run-time
    context entries. A Python dict is an insertion-ordered list of entries. */
module Values {
  import opened Base
  import opened Text

  datatype Value =
    | VNone
    | VBool(b: bool)
    | VNum(literal: string)           // an int or float, kept as its literal text
    | VStr(s: string)
    | VList(items: seq<Value>)
    | VDict(entries: seq<(string, Value)>)

  /** A Python dict with string keys, in insertion order. */
  type Dict = seq<(string, Value)>

  /** `d.get(k)`: the value stored under k. */
  function Lookup<T>(d: seq<(string, T)>, k: string): (r: Option<T>)
    ensures r.Some? <==> exists i :: 0 <= i < |d| && d[i].0 == k
    ensures r.Some? ==> exists i :: 0 <= i < |d| && d[i] == (k, r.value)
  {
    if d == [] then None
    else if d[0].0 == k then Some(d[0].1)
    else Lookup(d[1..], k)
  }

  /** `k in d`. */
  predicate HasKey<T>(d: seq<(string, T)>, k: string) {
    Lookup(d, k).Some?
  }

  /** `d.get(k, default)`. */
  function GetOr(d: Dict, k: string, default: Value): Value {
    match Lookup(d, k)
    case Some(v) => v
    case None => default
  }

  function Keys<T>(d: seq<(string, T)>): seq<string> {
    seq(|d|, i requires 0 <= i < |d| => d[i].0)
  }

  /** Where k sits in d: the first entry with that key. */
  function IndexOf<T>(d: seq<(string, T)>, k: string): (i: nat)
    requires HasKey(d, k)
    ensures i < |d| && d[i].0 == k
    ensures forall j :: 0 <= j < i ==> d[j].0 != k
  {
    if d[0].0 == k then 0 else 1 + IndexOf(d[1..], k)
  }

  /** `d[k] = v`: an existing key keeps its position, a new key goes last. */
  function Insert<T>(d: seq<(string, T)>, k: string, v: T): (r: seq<(string, T)>)
    ensures Lookup(r, k) == Some(v)
    ensures forall k' :: k' != k ==> Lookup(r, k') == Lookup(d, k')
    ensures HasKey(d, k) ==> r == d[IndexOf(d, k) := (k, v)]
    ensures !HasKey(d, k) ==> r == d + [(k, v)]
  {
    if d == [] then [(k, v)]
    else if d[0].0 == k then [(k, v)] + d[1..]
    else
      var rest := Insert(d[1..], k, v);
      assert HasKey(d, k) ==> HasKey(d[1..], k) && IndexOf(d, k) == 1 + IndexOf(d[1..], k);
      [d[0]] + rest
  }

  /** No key appears twice, as in any Python dict. */
  predicate DistinctKeys<T>(d: seq<(string, T)>) {
    forall i, j :: 0 <= i < j < |d| ==> d[i].0 != d[j].0
  }

  /** In a dict whose keys are distinct, every entry is what its key looks up. */
  lemma LookupDistinct<T>(d: seq<(string, T)>, i: nat)
    requires DistinctKeys(d) && i < |d|
    ensures Lookup(d, d[i].0) == Some(d[i].1)
  {
    var j :| 0 <= j < |d| && d[j] == (d[i].0, Lookup(d, d[i].0).value);
    assert !(j < i) && !(i < j);
  }

  /** Peeling the last entry off a dict. */
  lemma HasKeyInit<T>(d: seq<(string, T)>, k: string)
    requires d != []
    ensures HasKey(d, k) <==> HasKey(d[..|d| - 1], k) || d[|d| - 1].0 == k
  {
    var init := d[..|d| - 1];
    if HasKey(d, k) && d[|d| - 1].0 != k {
      var i :| 0 <= i < |d| && d[i].0 == k;
      assert init[i].0 == k;
    }
    if HasKey(init, k) {
      var i :| 0 <= i < |init| && init[i].0 == k;
      assert d[i].0 == k;
    }
  }

  /** Dropping the last entry keeps keys distinct, and the dropped key is not left behind. */
  lemma DistinctKeysInit<T>(d: seq<(string, T)>)
    requires d != [] && DistinctKeys(d)
    ensures DistinctKeys(d[..|d| - 1]) && !HasKey(d[..|d| - 1], d[|d| - 1].0)
  {
    var init := d[..|d| - 1];
    forall i | 0 <= i < |init| ensures init[i] == d[i] { }
  }

  /** A number is false when every digit of its mantissa is zero. */
  predicate IsZeroLiteral(lit: string) {
    var mantissa := match FirstWhere((k: nat) => k < |lit| && (lit[k] == 'e' || lit[k] == 'E'), 0, |lit|)
                    case Some(e) => lit[..e]
                    case None => lit;
    (exists k :: 0 <= k < |mantissa| && IsDigit(mantissa[k]))
    && forall k :: 0 <= k < |mantissa| && IsDigit(mantissa[k]) ==> mantissa[k] == '0'
  }

  /** Python truthiness (`if x:`, `not x`, `x or y`). */
  predicate Truthy(v: Value) {
    match v
    case VNone => false
    case VBool(b) => b
    case VNum(lit) => !IsZeroLiteral(lit)
    case VStr(s) => s != []
    case VList(xs) => xs != []
    case VDict(es) => es != []
  }

  /** `a or b`. */
  function Or(a: Value, b: Value): (r: Value)
    ensures Truthy(a) ==> r == a
    ensures !Truthy(a) ==> r == b
  {
    if Truthy(a) then a else b
  }

  /** `for x in v`: a list yields its items, a dict its keys, a string its characters;
      anything else is not iterable. */
  function Iterate(v: Value): (r: Outcome<seq<Value>>)
    ensures r.Raise? <==> !(v.VList? || v.VDict? || v.VStr?)
    ensures v.VList? ==> r == Ok(v.items)
    ensures r.Raise? ==> r.error == TypeError
  {
    match v
    case VList(xs) => Ok(xs)
    case VDict(es) => Ok(seq(|es|, i requires 0 <= i < |es| => VStr(es[i].0)))
    case VStr(s) => Ok(seq(|s|, i requires 0 <= i < |s| => VStr([s[i]])))
    case _ => Raise(TypeError)
  }

  /** `str(v)`; floats keep their literal text and the quoting rules of `repr` are
      reduced to single quotes. */
  function PyStr(v: Value): string
    decreases v, 0
  {
    match v
    case VNone => "None"
    case VBool(b) => if b then "True" else "False"
    case VNum(lit) => lit
    case VStr(s) => s
    case VList(xs) => "[" + Join(seq(|xs|, i requires 0 <= i < |xs| => Repr(xs[i])), ", ") + "]"
    case VDict(es) =>
      "{" + Join(seq(|es|, i requires 0 <= i < |es| => "'" + es[i].0 + "': " + Repr(es[i].1)), ", ") + "}"
  }

  /** `repr(v)`, as used for the items of containers. */
  function Repr(v: Value): string
    decreases v, 1
  {
    if v.VStr? then "'" + v.s + "'" else PyStr(v)
  }
}
